=== FILE: README.md ===
# ctrlv in Dafny

A model of the decision logic of `ctrlv`, a KoLmafia script. The script runs a
set of daily tasks before a world event: it eats, drinks and chews an
adventure-maximising diet, and it copies a free-fight monster. The model covers:

- **Diet quantities and tasks.** How much of a planned menu entry can be
  consumed now, given the three organ pools and cleaner thresholds. Also the
  quantity a group of items is consumed in, recipe prices, the legendary-food
  "eaten" flag names, the order in which planned entries become tasks, the
  chocolate task quantities and the filter that drops empty tasks.
- **The diet engine.** The per-task-name counter that decides when a diet task
  is available, and what one execution does to it.
- **Item valuation.** `value(item, useHistorical)`: its two caches, the
  historical-price rule, and the special-value table. That table covers
  currencies, complex candies, barrels and fixed values, and takes precedence
  over market prices.
- **`maxBy`.** The selector used throughout, with its exact tie rule. Also the
  small predicates: free-fight sources, sobriety, realm flags.
- **The wanderer selector.** Filter the factories' targets, group them by
  location, pick the most valuable location, and retry with growing skip lists.
- **The Guzzlr factory.** Its free-craft count, abandon test, tier choice, tier
  value and single target.
- **Copy-source dispatch.** The best monster per free-fight source, and the
  `copyReady` / `use*` predicates.
- **The argument rewrite and `main`.** The first-match chain in `validateArgs`,
  and `main`'s step order.

Game state, mall prices and library calls are inputs to the model:

- **As parameters:** records such as `OrganState`, `Market`, `CopyState`,
  `TierState` and `Checks`, and functions such as `ready`, `prepare`,
  `factories` and `v`.
- **Game entities:** items, monsters and locations are their names.
- **Throws:** a `throw` is an `Err` of `Result`; `undefined` and `null` are
  `None`.
- **Numbers:** game numbers are mathematical integers and reals.

The modules:

- `Outcomes` and `Seqs`: option/result types and sequence helpers.
- `Game`: the entity name types.
- `Lib`: src/lib.ts.
- `Engine`: src/engine.ts.
- `Diet`: src/tasks/diet.ts.
- `Value`: src/value.ts.
- `WandererTypes` and `Wanderer`: src/wanderer/index.ts.
- `Guzzlr`: src/wanderer/guzzlr.ts.
- `Copy`: src/tasks/copy.ts.
- `Script`: src/main.ts.

## Model

| member | source | states |
|---|---|---|
| Lib.MaxByIndex | src/lib.ts:127 | The index the seedless reduce keeps. Without `reverse`, its score is at least every score and every later score is strictly smaller. With `reverse`, its score is at most every score and every earlier score is strictly larger. |
| Lib.MaxByKey | src/lib.ts:126-128 | The key overload returns an element of the array. Its field is maximal, or minimal with `reverse`, and it is the element at the reduce's index. |
| Lib.KeyAll | src/lib.ts:122 | The mapped array pairs each element, in order, with its score. |
| Lib.MaxBy | src/lib.ts:120-125 | The function overload returns an element of the array with maximal score, or minimal with `reverse`. It is the element the reduce over the scores themselves keeps. |
| Lib.KeyedIndexAgrees | src/lib.ts:120-125 | Selecting on the `{key, value}` records picks the same position as selecting on the elements' scores directly. |
| Lib.MaxByTieRule | src/lib.ts:127 | For any position, two directions. Without `reverse`: the position is selected iff it holds the LAST maximal score. With `reverse`: it is selected iff it holds the FIRST minimal score. |
| Lib.ParseSource | src/lib.ts:75 | The `source` argument narrows to a free-fight source exactly when `isFreeFightSource` accepts the string. The source's name is that string. |
| Lib.SourceNameRoundTrip | src/lib.ts:17-29 | Every source's name is accepted, and it parses back to that source. |
| Lib.FreeFightSourceIffName | src/lib.ts:17-29 | `isFreeFightSource(s)` holds iff `s` is the name of one of the seven sources. |
| Lib.InebrietyLimitNoFamiliar | src/lib.ts:13-15 | The limit minus 1 when the familiar is the Stooper, and the limit otherwise. |
| Lib.Sober | src/lib.ts:133-135 | Sober iff inebriety is at most the Stooper-adjusted limit of `inebrietyLimitNoFamiliar`. |
| Lib.RealmAvailable | src/lib.ts:138-145 | The fantasy realm is available iff `_frToday` or `frAlways` is set, the pirate realm iff `_prToday` or `prAlways` is, and any other realm iff `_<realm>AirportToday` or `<realm>AirportAlways` is. A missing property reads as false. |
| Lib.RealmAvailableLocal | src/lib.ts:138-145 | Availability depends on the realm's own two flags alone: two property maps that agree on them give the same answer. |
| Lib.RealmFlagSet | src/lib.ts:138-145 | Setting a realm's today flag or its always flag makes it available. With neither property present it is not available. |
| Lib.OtherRealmIrrelevant | src/lib.ts:138-145 | Writing another realm's today or always flag, to either value, leaves a realm's availability as it was. |
| Lib.RealmNameInjective | src/lib.ts:137 | Distinct realms have distinct identifiers. |
| Lib.TodayIsNotAlways | src/lib.ts:139-144 | No realm's today flag is any realm's always flag. |
| Lib.ShortFlagLengths | src/lib.ts:139-144 | The fantasy realm reads `_frToday` and `frAlways`, and the pirate realm `_prToday` and `prAlways`. Every other realm reads `_<realm>AirportToday` and `<realm>AirportAlways`. Only the fantasy and pirate flags are 8 characters long. |
| Lib.TodayDistinct | src/lib.ts:139-144 | Two different realms never read the same today flag. |
| Lib.AlwaysDistinct | src/lib.ts:139-144 | Two different realms never read the same always flag. |
| Engine.Count | src/engine.ts:18 | A name with no counter entry counts 0; otherwise its count is its stored value. |
| Engine.Available | src/engine.ts:17-20 | A task is available as written exactly when the base-class test holds and its count exceeds its quantity. For a non-negative quantity that needs a count above 0, so only a task that has already run can be available. |
| Engine.AvailableStaysAvailable | src/engine.ts:17-26 | Under the guard as written, a ready task that is available stays available after it is executed. |
| Engine.Execute | src/engine.ts:22-26 | Executing a task raises its name's count by exactly 1. Every other name's count is unchanged, no count decreases, and the task's name is the only key added. |
| Engine.SharedCounter | src/engine.ts:22-26 | Two tasks with the same name share one counter: executing either has the same effect on the counts. |
| Engine.FreshEngineNothingAvailable | src/engine.ts:17-20 | On a fresh engine, a task with a non-negative quantity is not available, whatever the base-class test says. |
| Engine.RunAsWritten | src/engine.ts:17-26 | The library's loop over the guard as written, observed for at most `fuel` steps. The log keeps its earlier entries and grows by at most one name per step. |
| Engine.AsWrittenRunsNothing | src/engine.ts:17-20 | A fresh engine whose tasks all have non-negative quantities runs no step: its counts and log stay empty. |
| Engine.AsWrittenNeverStartsExample | src/engine.ts:19 | A one-task diet with quantity 1 executes nothing. |
| Engine.RunCorrected | src/engine.ts:17-26 | With the intended guard (count below quantity) and distinct task names, the run terminates. Readiness is read afresh before every pick, from the executions so far. No task runs more than its quantity of times. At the end each task has run its quantity of times or is not ready, and none is available. Every execution is of the first task available at that point, and the log names one task per execution. |
| Engine.PositiveRunQuantities | src/engine.ts:17-26 | For tasks of positive quantity, a complete run executes each at most its quantity of times, and exactly that many unless it is no longer ready at the end. |
| Engine.NeverReadyNeverRuns | src/engine.ts:17-20 | A task that the base-class test never accepts never appears in the log of a run. |
| Diet.WrapClean | src/tasks/diet.ts:133-134 | A cleaner whose clean amount exceeds the organ's current use gives 0. Every other case passes the request through unchanged. |
| Diet.WrapUsage | src/tasks/diet.ts:136-137 | The result never exceeds the request and fits in the remaining room. A zero size with non-negative room gives the request. A zero size with negative room gives `-Infinity`, the value of `Math.floor(remaining / 0)`, and nothing else does. Otherwise it is the request or the largest whole count that fits. |
| Diet.ConsumeQuantity | src/tasks/diet.ts:129-147 | Never more than requested, and a whole result fits each organ's remaining room. It is `-Infinity` iff an organ other than the item's own is over its limit. With room in every organ and a non-negative request, it is the largest count up to the request that fits. It is 0 instead when some cleaner of the item has nothing to clean. |
| Diet.ConsumeQuantityPositive | src/tasks/diet.ts:139-146 | Positive iff all three hold: the request is positive, no cleaner of the item is blocked, and one unit fits in the item's organ. |
| Diet.MinConsume | src/tasks/diet.ts:155 | The group quantity is at most every item's `consumeQuantity` and equal to one of them. |
| Diet.ConsumeSafe | src/tasks/diet.ts:149-175 | It fails with the group's item names iff some item's quantity is not positive. On success, the recorded quantity is positive, at most the request, equal to some item's quantity, and fits every item's organ. Its game calls are the group's calls at that quantity. |
| Diet.GroupActions | src/tasks/diet.ts:161-173 | A one-item group makes that item's calls: its acquisition unless acquisition is skipped, then the consumption its type asks for. |
| Diet.GroupActionsAppend | src/tasks/diet.ts:161-173 | The calls of a group are the calls of its two parts, in order, for any split of it. |
| Diet.GroupActionsSplit | src/tasks/diet.ts:161-173 | Each item's calls come after the calls of the items before it and before the calls of the items after it. |
| Diet.GroupActionsFacts | src/tasks/diet.ts:161-173 | Every game call of a consumption carries the consumed quantity and names an item of the group. Every purchase carries the given price cap. Special Seasoning is never used, and nothing is acquired when acquisition is skipped. |
| Diet.GroupActionsCover | src/tasks/diet.ts:161-173 | No item is left out: each is acquired at the quantity and price unless acquisition is skipped, and each consumption call its type asks for is made. |
| Diet.RecipePrice | src/tasks/diet.ts:50-59 | An item without ingredients costs its mall price. An untradeable item costs its ingredients' total. A tradeable one costs the larger of that total and its mall price. |
| Diet.RecipePriceNonNegative | src/tasks/diet.ts:50-59 | Non-negative prices and ingredient counts throughout the tree give a non-negative price. |
| Diet.PriceIgnoresIngredients | src/tasks/diet.ts:62-71 | Outside the override table an item's price is its mall price alone: its crafting tree never matters. |
| Diet.LovPriceFixed | src/tasks/diet.ts:66 | The LOV chocolate costs 20000, whatever its mall price. |
| Diet.PriceNonNegative | src/tasks/diet.ts:50-71 | With non-negative prices and counts in the tree, every price is non-negative. A tradeable item priced by recipe is never valued below its mall price. |
| Diet.Cheapest | src/tasks/diet.ts:46-48 | A listed item whose mall price is at most every listed item's. It is the item `maxBy` keeps over the negated prices, so every later listed item is strictly dearer: the last of equally cheap items. |
| Diet.LegendaryPropertyOfWords | src/tasks/diet.ts:191-194 | For a name of plain words separated by single spaces, the flag is built in three steps. The first word gets a lower-case first letter, every later word is capitalised, and the result is followed by `Eaten`, with no spaces. |
| Diet.LegendaryPropertyNames | src/tasks/diet.ts:191-194 | The three flags are `calzoneOfLegendEaten`, `pizzaOfLegendEaten` and `deepDishOfLegendEaten`. |
| Diet.LegendaryFood | src/tasks/diet.ts:187-196 | It fails for every item outside the three legendary foods. Otherwise the entry carries the item's flag, with maximum 0 iff that flag is set and 1 otherwise. |
| Diet.SortKey | src/tasks/diet.ts:283-284 | Key 0 iff the item has data with `buff`. Key 1 iff it has data with `cleans` and no `buff`. Key 2 otherwise, including items without data. |
| Diet.SortEntriesSorted | src/tasks/diet.ts:286-287 | The sorted entries' keys never decrease. |
| Diet.SortEntriesPermutation | src/tasks/diet.ts:286-287 | The sorted entries are a permutation of the planned entries. |
| Diet.SortEntriesStable | src/tasks/diet.ts:286-287 | The sort is stable: for every key, the entries of that key keep the planner's order. |
| Diet.OrganTask | src/tasks/diet.ts:290-300 | The task carries its entry's planned quantity. Its name is `Consume ` followed by the target item, so the item reads back from the name. |
| Diet.OrganTaskNamesApart | src/tasks/diet.ts:291 | Two entries' tasks have the same name iff the entries target the same item. |
| Diet.OrganTasks | src/tasks/diet.ts:286-308 | One task per planned entry, in sorted order. Each is the task of its entry. |
| Diet.OrganTaskReady | src/tasks/diet.ts:293 | An organ task is ready iff all of these hold: its planned quantity is positive, no cleaner of its target is blocked, and one unit of the target fits. |
| Diet.OrganTaskStep | src/tasks/diet.ts:294-299 | The task's consumption fails exactly when some item of the group cannot be consumed even once at the engine's recorded quantity. When it succeeds, it consumes a positive amount no larger than that quantity. |
| Diet.StepPrice | src/tasks/diet.ts:297 | The price cap times the entry's quantity equals the recorded quantity times the entry's gross value. |
| Diet.OrganTaskStepPrices | src/tasks/diet.ts:294-299 | Every purchase of a successful step is capped at `consumed * gross / quantity`. |
| Diet.OrganTaskStepBuysAll | src/tasks/diet.ts:294-299 | A successful step buys every item of the group, at the consumed amount and that cap. |
| Diet.ChocolateQuantity | src/tasks/diet.ts:343-345 | The fancy-chocolate quantity is the number of use counts, among 0, 1 and 2 and from `_chocolatesUsed` on, whose best cost per adventure is below the value of an adventure. It is at most 3, and 0 once three chocolates are used. |
| Diet.WorthQuantity | src/tasks/diet.ts:366-373 | A `worth` task's quantity counts the uses still ahead whose price is below their adventures' worth. With a limit it is that count or the limit, whichever is smaller. |
| Diet.WorthTask | src/tasks/diet.ts:360-382 | A `worth` task is named after its chocolate and carries that quantity. |
| Diet.MallPricedChocolates | src/tasks/diet.ts:62-71 | The sculpture, the capsule and the cigar cost their mall price. The LOV chocolate costs 20000. |
| Diet.ChocolateTasks | src/tasks/diet.ts:311-396 | Five tasks in order. First `Fancy Chocolates` with the fancy-chocolate quantity. Then sculptures and capsules at 5, 3 and 1 adventures, LOV chocolates at 3, 2 and 1 capped by those at hand, and cigars at 3, 2 and 1. Each counts the uses left whose price is below their worth: the LOV chocolate at 20000 and the others at their mall price. |
| Diet.ChocolateNamesApart | src/tasks/diet.ts:398-399 | No chocolate task shares a name with an organ task, since every organ task's name starts with `Consume `. |
| Diet.KeepPositive | src/tasks/diet.ts:399 | Keeps exactly the tasks with a positive quantity. |
| Diet.DietTasks | src/tasks/diet.ts:398-400 | The organ tasks and then the chocolate tasks, each keeping exactly its tasks of positive quantity in order. Every task returned has a positive quantity. |
| Diet.DietNeverRunsAsWritten | src/tasks/diet.ts:398-400 | Handed the diet's tasks, the engine as written executes nothing from a fresh start. |
| Diet.RunDietCorrected | src/tasks/diet.ts:398-400 | For a plan with one entry per item, the engine with the intended guard completes a run on the diet's tasks. Readiness is read from the executions so far, so a task may stop being ready partway through. Each task runs at most its quantity of times, and exactly that many unless it is no longer ready at the end. |
| Diet.OrganTasksDistinct | src/tasks/diet.ts:286-308 | With one entry per item, the sorted organ tasks all have different names. |
| Diet.ChocolateTasksDistinct | src/tasks/diet.ts:384-395 | The five chocolate tasks have five different names. |
| Diet.DietNamesDistinct | src/tasks/diet.ts:398-399 | With one entry per item in the plan, all of `diet()`'s tasks have different names, so no two share an engine counter. |
| Value.GarboSaleValue | src/value.ts:137-145 | History is used only when asked for, at most 7 days old and positive. Then it gives the autosell price when the historical price sits at the mall minimum `max(100, 2 * autosell)`, and 0.9 times the historical price otherwise. In every other case it gives the library's sale value. |
| Value.SaleValueIgnoresHistoryUnlessAsked | src/value.ts:138-144 | Without the historical flag, historical readings never change the result. |
| Value.HistoricalPriceDiscounted | src/value.ts:141 | A usable historical price above the mall minimum is valued strictly below itself. |
| Value.Cached | src/value.ts:150-152 | A regular entry is returned first. A historical entry is returned only when asked for historical values and no regular entry exists. Otherwise the lookup misses. |
| Value.ValueOf | src/value.ts:149-160 | A cache hit is returned with the caches unchanged. A miss returns the special entry's value if there is one, and `garboSaleValue` otherwise. |
| Value.RegularEntryWins | src/value.ts:150-152 | A regular-cache entry is returned, with the caches unchanged, even when historical values are asked for. |
| Value.HistoricalCacheOnlyWhenAsked | src/value.ts:150-156 | Without the flag, the historical cache neither affects the result nor is written. |
| Value.SpecialEntryFirst | src/value.ts:154-155 | On a miss, a special entry decides the value, and market readings are not consulted. |
| Value.MissStoresInSelectedCache | src/value.ts:156 | A miss stores the value under the item in the cache the flag selects and changes nothing else. |
| Value.CachesOnlyGrow | src/value.ts:149-159 | No existing entry of either cache is removed or overwritten. |
| Value.ValueIdempotent | src/value.ts:149-159 | Repeating the call with the same flag returns the same value and caches. This holds whatever the special entries and market readings are by then. |
| Value.RegularServesHistorical | src/value.ts:150-152 | A value computed without the flag is what a later historical request returns. |
| Value.AverageValue | src/value.ts:161-163 | The average times the item count is the sum of the values. |
| Value.AverageBetweenExtremes | src/value.ts:161-163 | The average lies between the least and the greatest of the values. |
| Value.UnitFor | src/value.ts:15-21 | An item's unit exists iff some coinmaster sells it for a positive price. Its cost is the price at the first such coinmaster; otherwise it is the invalid-coinmaster throw for that item. |
| Value.CurrencyUnits | src/value.ts:14-22 | Building succeeds iff every listed item is sold by some coinmaster. It then gives, per item in order, its first selling coinmaster's positive price. Otherwise it throws for the first unsellable item. |
| Value.CurrencyValue | src/value.ts:23 | The currency's value is the largest `value(item) / cost` over its units, and equals one of them. |
| Value.CandyLookup | src/value.ts:28-35 | Bucket k holds exactly the tradeable complex candies whose id is k modulo 5. |
| Value.ComplexCandy | src/value.ts:26-40 | Exactly the untradeable complex candies get an entry. Each is valued through the bucket of its own id modulo 5. |
| Value.CurrencyEntries | src/value.ts:43-53 | The currency entries, in order, each with its unit table. Building throws exactly when some currency's unit table throws, and the throw is the first such one. |
| Value.TableOf | src/value.ts:42-135 | The table is built iff every currency's units are. It then holds the currency entries in order, then exactly the complex-candy entries, then the given later entries. |
| Value.ComplexCandyLooksUp | src/value.ts:26-54 | An untradeable complex candy that no later entry names looks up to the tradeable complex candies of its id modulo 5. This assumes each item is listed once. |
| Value.LookupLastEntry | src/value.ts:154 | The lookup misses iff no entry names the item. Otherwise it returns the LAST such entry's computation: a later `Map` entry replaces an earlier one. |
| Value.ClosingEntriesWin | src/value.ts:133-134 | In the built table, the fake hand looks up to 50000 and the magical sausage casing to the value of an adventure. |
| Value.CandyValue | src/value.ts:38 | A complex candy is worth the least value in its bucket, and that value belongs to a candy in the bucket. |
| Value.MushroomValue | src/value.ts:56-65 | Three times the best of: tea minus soda water, whiskey minus fermenting powder, and filet. |
| Value.SpecialValue | src/value.ts:154-155 | No special value iff no entry names the item. Otherwise it is the computation of the last entry naming it. |
| Wanderer.Survivors | src/wanderer/index.ts:38-42 | Keeps exactly the targets whose name and location are not skipped and whose location can be wandered to. |
| Wanderer.GroupIsGrouped | src/wanderer/index.ts:33-53 | The grouping loop gives one record per distinct location, in first-insertion order. Each record holds its location's targets in factory order and the sum of their values. |
| Wanderer.GroupEmpty | src/wanderer/index.ts:55-57 | The map is empty iff no target survived. |
| Wanderer.BestWander | src/wanderer/index.ts:28-60 | `bestWander` throws iff no target survives the filter. |
| Wanderer.BestWanderMaximal | src/wanderer/index.ts:59 | The chosen record has maximal value among the grouped locations. It is the last one of that value in insertion order. |
| Wanderer.BestWanderSurvives | src/wanderer/index.ts:38-50 | The chosen location is not skipped and can be wandered to. Its targets are non-empty, all from the factories, all at that location, and none has a skipped name. |
| Wanderer.Failed | src/wanderer/index.ts:75 | The failed targets are exactly the candidate's targets whose preparation fails. |
| Wanderer.RetryGrows | src/wanderer/index.ts:84-89 | A retry never removes anything from either skip list and strictly grows the set of skipped names or skipped locations. |
| Wanderer.RetryShrinks | src/wanderer/index.ts:84-89 | Over a finite universe of names and locations, every retry leaves strictly fewer of them unskipped. |
| Wanderer.WanderCandidate | src/wanderer/index.ts:69-97 | It throws exactly what `bestWander` throws when that fails. It returns `bestWander`'s candidate when every target prepares and the location is good. On success, every target of the returned candidate prepared and none had a skipped name, and its location passed `canAdventureOrUnlock`, `unlock` and `canWander` and was not skipped. |
| Wanderer.WanderCandidateRetries | src/wanderer/index.ts:84-89 | A candidate with a failed target or a bad location gives the answer for the grown skip lists. |
| Wanderer.WanderWhere | src/wanderer/index.ts:69-97 | It throws what `bestWander` throws, and returns the candidate's location when nothing needs a retry. Any returned location passed `canAdventureOrUnlock` and `canWander` and is outside the location skip list. |
| Wanderer.DrunkSafeWander | src/wanderer/index.ts:99-101 | Not sober gives the Drunken Stupor. Sober gives a location that passed the wanderer checks. |
| Guzzlr.FreeCrafts | src/wanderer/guzzlr.ts:13-18 | With daily counters from 0 to 5 the count is between 0 and 10. It is positive iff a known skill has a use left, and 0 when neither skill is known. |
| Guzzlr.CeilDiv | src/wanderer/guzzlr.ts:22-24 | For a non-zero divisor, the result is the ceiling of the quotient. For a zero divisor, it is the IEEE Infinity, -Infinity or NaN by the sign of the dividend. |
| Guzzlr.NotEnoughTurns | src/wanderer/guzzlr.ts:20-40 | Comparing with the ceiling estimate means the available turns at the per-turn progress cover less than the missing progress. |
| Guzzlr.ShouldAbandon | src/wanderer/guzzlr.ts:30-39 | A missing or skipped location is abandoned. So is one the library rules out. A usable location is abandoned iff its turns today are below the estimate. |
| Guzzlr.AbandonForLackOfTurns | src/wanderer/guzzlr.ts:30-39 | For a usable location, abandoning happens iff today's wanderer turns times the per-turn progress fall short of the missing progress. |
| Guzzlr.ChooseTierCases | src/wanderer/guzzlr.ts:46-57 | Each tier is chosen iff its full condition holds. Platinum: it can be taken and capping does not forbid it. Gold: platinum is not chosen, gold can be taken, and bronze is capped or gold is not. Bronze: neither. |
| Guzzlr.ChooseTier | src/wanderer/guzzlr.ts:46-57 | Platinum and gold are chosen only when they can be taken, and bronze is chosen when neither can. Platinum is always chosen when it can be taken and capping is not asked for. |
| Guzzlr.GuzzlrValue | src/wanderer/guzzlr.ts:62-76 | The value is the tier's Guzzlrbucks (0, 3, 6, 21.5) times the buck value times `(10 - deliveries) / 100`. A null tier is worth 0. |
| Guzzlr.GuzzlrValueRatios | src/wanderer/guzzlr.ts:62-76 | Gold is worth twice bronze, and platinum is worth 21.5/3 times bronze. |
| Guzzlr.GuzzlrFactory | src/wanderer/guzzlr.ts:78-109 | Empty without the tablet or a quest location. Otherwise one target named "Guzzlr" at the quest location, worth the quest's `guzzlrValue`. |
| Guzzlr.GuzzlrBooze | src/wanderer/guzzlr.ts:86-87 | On a platinum quest the booze is the cheapest platinum cocktail. On any other quest it is the quest's booze. |
| Guzzlr.AcquisitionFor | src/wanderer/guzzlr.ts:95-102 | The booze is bought iff it is missing, fancy and no free craft is left. It is retrieved iff it is missing and either not fancy or a free craft is left. It is left alone iff it is already held. |
| Guzzlr.GuzzlrPrepare | src/wanderer/guzzlr.ts:89-104 | False when the booze is unknown, and true when it is already held. Otherwise it is whether the booze is held after the chosen acquisition. |
| Copy.DropValue | src/tasks/copy.ts:39-41 | No drops are worth 0, and a single drop is worth its rate times its item's value. |
| Copy.DropValueAppend | src/tasks/copy.ts:39-41 | The drop value adds up over any split of the drop list. |
| Copy.DropValueNonNegative | src/tasks/copy.ts:39-41 | Non-negative rates and item values give a non-negative drop value. |
| Copy.BestDrop | src/tasks/copy.ts:43-45 | A listed monster whose drop value is at least every listed monster's. It is the one `maxBy` selects, so the last one on ties. |
| Copy.BestMonster | src/tasks/copy.ts:47-73 | The best monster per source. Witchess and hipster give a listed monster of maximal drop value. Goth gives the Black Crayon Crimbo Elf and kramco the knob sausage goblin. Wish, tentacle and default give the eldritch tentacle. |
| Copy.BestMonsterFixed | src/tasks/copy.ts:47-73 | Every source other than witchess and hipster picks a monster that does not depend on drops or values. |
| Copy.CopyReady | src/tasks/copy.ts:79-85 | Without a backup camera, a copy is ready iff the putty or camera monster is the target. With one, the last copyable monster also counts. |
| Copy.UseKramco | src/tasks/copy.ts:87-92 | The Kramco is used only with the kramco or the default source. With the kramco source it is used iff the Kramco is at hand. |
| Copy.UseHipster | src/tasks/copy.ts:94-100 | The hipster is used only with the hipster source, the familiar at hand and `_hipsterAdv` at 0. With that source and counter it is used iff the familiar is at hand. |
| Copy.UseGothKid | src/tasks/copy.ts:102-108 | The goth kid is used only with the goth source, the familiar at hand and `_hipsterAdv` at 0. With that source and counter it is used iff the familiar is at hand. |
| Copy.UseTentacle | src/tasks/copy.ts:110-115 | The tentacle is used only with the tentacle or the default source, and always with the tentacle source. |
| Copy.SharedFamiliarCounter | src/tasks/copy.ts:94-108 | A non-zero `_hipsterAdv` rules out both the hipster and the goth kid. |
| Copy.DefaultSourceFollowsTarget | src/tasks/copy.ts:87-115 | With the default source: the Kramco is used iff the target is the sausage goblin, and the tentacle iff the target is the eldritch tentacle. Neither familiar is used. |
| Copy.AtMostOneSource | src/tasks/copy.ts:87-115 | No two of the four `use*` predicates hold together. |
| Script.ChainIsFirstMatch | src/main.ts:12-30 | The if / else-if chain takes exactly the first rule, in source order, whose condition holds, and no rule when none holds. |
| Script.ValidateIsFirstMatch | src/main.ts:11-31 | If a rule fires, the options change only in the target, which becomes the best monster of the first firing rule's source. Otherwise the options are unchanged. |
| Script.ValidateArgs | src/main.ts:11-31 | The rewrite never changes the free-fight source. The target is either kept or becomes the best monster of the source of one of the six rules. |
| Script.KramcoTarget | src/main.ts:26-27 | With the kramco source, the target always becomes the knob sausage goblin. |
| Script.NoneTarget | src/main.ts:28-30 | The default branch fires iff the target is `none` and no earlier rule fires; the new target is then the eldritch tentacle. When no rule fires, the options are unchanged. |
| Script.MisspellingMatters | src/main.ts:14 | The branch compares against the misspelt `eldrich tentacle`. Against the real name the chain differs only for a tentacle source whose target is that misspelt name. |
| Script.MainSteps | src/main.ts:48-59 | `main` runs a diet step iff `diet` is set: the simulation iff `simulate` is set, the engine otherwise. It runs the copy step iff `copy` is set, and the copy step comes after the diet step. |
| Script.MainOptions | src/main.ts:51 | The options after validation keep the parsed source. |
| Script.MainDietRunsNothing | src/main.ts:33-44 | When `main` runs the diet engine, the engine as written executes no diet task. |

## Left out

- The diet planner (`Diet.plan`) and the `MenuItem`/`Diet` classes belong to an external library and are not part of this model. The planned entries are an input, and so are their gross values.
- The engine library's base class is not modelled. Its availability test is the parameter `ready`, and its execution step is opaque.
- `engineState` is imported from src/engine.ts, but that file does not define it. The consumed quantity is therefore a parameter of the task step.
- `DietEngine` is not exported by src/engine.ts:9, yet src/main.ts:6 imports it. The model treats the import as if it resolved to that class.
- src/main.ts:34 passes `args.dietOptions.nightcap` to `diet()`, which takes no parameter. The argument is ignored, as JavaScript ignores it.
- Every game call is out of scope: eating, drinking, chewing, using, buying, retrieving, URL visits, CLI commands, chat, waits, skill casts, printing and property writes. They appear only as the list of `Action`s a consumption makes, or as oracle parameters.
- `acquire`, in src/acquire.ts and in src/tasks/diet.ts, is not modelled. Also left out: the Ode to Booze casting in `drinkSafe` and the milk of magnesium step in `eatSafe`.
- `bestChocolate`'s pick of the cheapest chocolate per adventure is not modelled. Its values after 0, 1 and 2 uses are the input of `ChocolateQuantity`. Its value after 3 uses divides by 0 adventures for every chocolate, so it is Infinity or NaN and never below the value of an adventure. That fourth value never counts and has no slot in the model.
- The game readings the chocolate tasks take (use counters, LOV chocolates at hand) are the record `ChocolateReadings`. Item prices come from the parameter `recipes`, which must give each item its own recipe.
- Task detail texts are not modelled; every modelled task carries an empty detail.
- Diet.RecipePrice: the crafting tree is a finite `Recipe` value, so `getIngredients` is assumed to have no cycles. On a cyclic recipe the source's recursion would not end.
- The side-effecting bodies of the bootstrap and copy tasks are out of scope: fax retries, URL visits, choice handling, and the readiness closures that read game properties. So is the `unsupportedChoices` table.
- `acceptGuzzlrQuest` is modelled only as the tier one pass of its loop accepts. Accepting a quest, abandoning it, and the re-test loop are game calls.
- `prepareTurn` is modelled as a pure test whose result the selector reads. Its purchases and the `unlock` side effects are not modelled.
- The other wanderer factories and src/wanderer/lib.ts are not part of this model. The factories' concatenated targets are the function parameter `factories`.
- Wanderer.WanderCandidate: requires that the factories name finitely many targets and locations (`Bounded`). The source states no such bound. Under it the recursion is guaranteed to terminate; without it the source can still stop as soon as a candidate prepares, and the model says nothing about that case.
- Engine.RunAsWritten: observes the run for at most `fuel` steps. With the guard as written, a task that became available would stay available as long as it is ready (Engine.AvailableStaysAvailable), so the loop would not stop on its own.
- Engine.RunCorrected: requires distinct task names, which the source does not check. Two tasks with one name share a counter, so the quantity of each is no longer a per-task bound.
- Diet.RunDietCorrected: requires that the plan has at most one entry per item (`DistinctTargets`). Distinct task names follow from it (`Diet.DietNamesDistinct`). The planner is not part of this model, so this is assumed of its output.
- Readiness (`Engine.Ready`) is any function of the task and the executions so far. The organ tasks' own test (`Diet.OrganTaskReady`) reads organ state that the game calls change, and that change is not modelled, so the two are not connected.
- Argument parsing (`Args.create`, `Args.fill`) is out of scope; the parsed arguments are the input. So is the printing of simulate mode. The copy step (`runCopy`) has an empty body in the source and is only a `Step` here.
- Value.SpecialValue: a special entry's nested `value(...)` calls are the parameter `v`. The cache writes those nested calls make are not modelled.
- IEEE corner cases are excluded by preconditions:
  - `Math.min()` or `Math.max()` of an empty list;
  - the average of no items;
  - a currency with no units.

  A price is never divided by a zero adventure count: the `worth` tables are lists of positive `Turns`, and the fancy chocolates' zero-adventure slot is left out as described above.

  The one case kept is the zero divisor of the Guzzlr turn estimate, which `CeilDiv` and `GuzzlrValue` model explicitly. Reals are exact: the rounding of floating-point arithmetic is not modelled.
- Diet.LegendaryPropertyOfWords: the case conversions of `toLowerCase`/`toUpperCase` are modelled for ASCII letters only. The three legendary names need nothing more.
- Lib.RealmAvailable: a property missing from the given map reads as false. This includes the fantasy and pirate flags, which the source reads without a default.
- Script.MisspellingMatters: the misspelt monster `eldrich tentacle` is treated as a monster name distinct from every real one. How KoLmafia resolves that unknown name is not part of this model.

## Findings

| source | as written | input that shows it | evidently intended | confidence | as-written member | corrected member |
|---|---|---|---|---|---|---|
| src/engine.ts:19 | A task is available only when its count is strictly GREATER than its quantity. | A fresh engine with the single task of quantity 1 (`Engine.AsWrittenNeverStartsExample`): count 0 is not greater than 1, so the task never runs. `diet()` keeps only tasks with positive quantity, so no diet task ever runs (`Diet.DietNeverRunsAsWritten`). | A task is available while its count is BELOW its quantity, so it runs up to its quantity of times, stopping early only when it is no longer ready. | not executed | Engine.AsWrittenRunsNothing | Engine.RunCorrected |

=== FILE: copy.dfy ===
/** The copy-target logic of the free-fight copy tasks: the drop value of a
    monster, the best monster for each free-fight source, and the predicates
    that say whether a copy is ready and which source to use. The game
    queries are the fields of `CopyState`; the tasks' side effects are not
    part of this model. */
module Copy {
  import opened Game
  import Lib

  // ---------------------------------------------------------------------
  // Drop value

  /** One entry of `itemDrops(monster)`: an item and its drop rate. */
  datatype Drop = Drop(item: Item, rate: real)

  /** `dropValue(monster)`: the reduce `a + d * value(i)` from 0 over the
      drops. No drops are worth 0, and a single drop its rate times its
      item's value. */
  function DropValue(drops: seq<Drop>, value: Item -> real): (r: real)
    ensures |drops| == 0 ==> r == 0.0
    ensures |drops| == 1 ==> r == drops[0].rate * value(drops[0].item)
    decreases |drops|
  {
    if |drops| == 0 then 0.0
    else
      var d := drops[|drops| - 1];
      DropValue(drops[..|drops| - 1], value) + d.rate * value(d.item)
  }

  /** The drop value adds up over any split of the drop list. */
  lemma {:induction false} DropValueAppend(a: seq<Drop>, b: seq<Drop>, value: Item -> real)
    ensures DropValue(a + b, value) == DropValue(a, value) + DropValue(b, value)
    decreases |b|
  {
    if |b| > 0 {
      var b', d := b[..|b| - 1], b[|b| - 1];
      assert (a + b)[..|a + b| - 1] == a + b';
      assert (a + b)[|a + b| - 1] == d;
      var last := d.rate * value(d.item);
      calc {
        DropValue(a + b, value);
        DropValue(a + b', value) + last;
        { DropValueAppend(a, b', value); }
        DropValue(a, value) + DropValue(b', value) + last;
        DropValue(a, value) + DropValue(b, value);
      }
    } else {
      assert a + b == a;
    }
  }

  /** With non-negative rates and item values, the drop value is non-negative. */
  lemma {:induction false} DropValueNonNegative(drops: seq<Drop>, value: Item -> real)
    requires forall i :: 0 <= i < |drops| ==> drops[i].rate >= 0.0 && value(drops[i].item) >= 0.0
    ensures DropValue(drops, value) >= 0.0
    decreases |drops|
  {
    if |drops| > 0 {
      var prefix := drops[..|drops| - 1];
      assert forall i :: 0 <= i < |prefix| ==> prefix[i] == drops[i];
      DropValueNonNegative(prefix, value);
      var d := drops[|drops| - 1];
      NonNegativeProduct(d.rate, value(d.item));
    }
  }

  lemma NonNegativeProduct(x: real, y: real)
    requires x >= 0.0 && y >= 0.0
    ensures x * y >= 0.0
  {
  }

  /** `bestDrop(...monsters)`: the monster of greatest drop value, the last
      one on ties. */
  function BestDrop(monsters: seq<Monster>, drops: Monster -> seq<Drop>, value: Item -> real): (r: Monster)
    requires |monsters| > 0
    ensures r in monsters
    ensures forall m :: m in monsters ==> DropValue(drops(m), value) <= DropValue(drops(r), value)
    ensures r == monsters[Lib.MaxByIndex(monsters, m => DropValue(drops(m), value), false)]
  {
    Lib.MaxBy(monsters, m => DropValue(drops(m), value), false)
  }

  // ---------------------------------------------------------------------
  // bestMonster

  const WitchessPieces: seq<Monster> := ["Witchess knight", "Witchess bishop", "Witchess rook", "Witchess pawn"]
  const HipsterMonsters: seq<Monster> :=
    ["angry bassist", "blue-haired girl", "evil-ex girlfriend", "peeved roommate", "random scenester"]
  const CrimboElf: Monster := "Black Crayon Crimbo Elf"
  const SausageGoblin: Monster := "knob sausage goblin"
  const EldritchTentacle: Monster := "eldritch tentacle"

  /** `bestMonster(source)`. The wish branch builds a table of every other
      source's best monster and then drops it, so it ends like the default. */
  function BestMonster(source: Lib.FreeFightSource, drops: Monster -> seq<Drop>, value: Item -> real): (r: Monster)
    ensures source == Lib.Witchess ==> (r in WitchessPieces
      && forall m :: m in WitchessPieces ==> DropValue(drops(m), value) <= DropValue(drops(r), value))
    ensures source == Lib.Hipster ==> (r in HipsterMonsters
      && forall m :: m in HipsterMonsters ==> DropValue(drops(m), value) <= DropValue(drops(r), value))
    ensures source == Lib.Goth ==> r == CrimboElf
    ensures source == Lib.Kramco ==> r == SausageGoblin
    ensures source in {Lib.Wish, Lib.Tentacle, Lib.Default} ==> r == EldritchTentacle
  {
    match source
    case Witchess => BestDrop(WitchessPieces, drops, value)
    case Goth => CrimboElf
    case Kramco => SausageGoblin
    case Hipster => BestDrop(HipsterMonsters, drops, value)
    case _ => EldritchTentacle
  }

  /** Only the witchess and hipster choices depend on drop values; every other
      source has one fixed monster. */
  lemma BestMonsterFixed(source: Lib.FreeFightSource, drops1: Monster -> seq<Drop>, value1: Item -> real,
                         drops2: Monster -> seq<Drop>, value2: Item -> real)
    requires source != Lib.Witchess && source != Lib.Hipster
    ensures BestMonster(source, drops1, value1) == BestMonster(source, drops2, value2)
  {
  }

  // ---------------------------------------------------------------------
  // Readiness and source predicates

  /** The game state the predicates read. */
  datatype CopyState = CopyState(
    puttyMonster: Monster, cameraMonster: Monster, lastCopyableMonster: Monster,
    haveBackupCamera: bool, haveKramco: bool, haveHipster: bool, haveGothKid: bool,
    hipsterAdv: int)

  /** The copy options: the free-fight source and the monster to copy. */
  datatype CopyOptions = CopyOptions(source: Lib.FreeFightSource, target: Monster)

  /** `copyReady()`: the target sits in the putty or the camera, or it was the
      last copyable monster and the backup camera can bring it back. Without
      the backup camera only the putty and the camera count. */
  function CopyReady(o: CopyOptions, st: CopyState): (b: bool)
    ensures !st.haveBackupCamera ==> (b <==> st.puttyMonster == o.target || st.cameraMonster == o.target)
    ensures st.haveBackupCamera ==>
      (b <==> o.target in {st.puttyMonster, st.cameraMonster, st.lastCopyableMonster})
  {
    st.puttyMonster == o.target || st.cameraMonster == o.target
    || (st.lastCopyableMonster == o.target && st.haveBackupCamera)
  }

  /** `useKramco()`: only for the kramco source, when the Kramco is at hand,
      or for the default source with the sausage goblin as the target. */
  function UseKramco(o: CopyOptions, st: CopyState): (b: bool)
    ensures b ==> o.source == Lib.Kramco || o.source == Lib.Default
    ensures o.source == Lib.Kramco ==> (b <==> st.haveKramco)
  {
    (st.haveKramco && o.source == Lib.Kramco) || (o.target == SausageGoblin && o.source == Lib.Default)
  }

  /** `useHipster()`: only for the hipster source with the familiar at hand and
      no hipster fight used today. */
  function UseHipster(o: CopyOptions, st: CopyState): (b: bool)
    ensures b ==> o.source == Lib.Hipster && st.haveHipster && st.hipsterAdv == 0
    ensures o.source == Lib.Hipster && st.hipsterAdv == 0 ==> (b <==> st.haveHipster)
  {
    st.haveHipster && o.source == Lib.Hipster && st.hipsterAdv == 0
  }

  /** `useGothKid()`: only for the goth source with the familiar at hand and the
      shared counter still at 0. */
  function UseGothKid(o: CopyOptions, st: CopyState): (b: bool)
    ensures b ==> o.source == Lib.Goth && st.haveGothKid && st.hipsterAdv == 0
    ensures o.source == Lib.Goth && st.hipsterAdv == 0 ==> (b <==> st.haveGothKid)
  {
    st.haveGothKid && o.source == Lib.Goth && st.hipsterAdv == 0
  }

  /** `useTentacle()`: always for the tentacle source, and for the default
      source with the eldritch tentacle as the target. */
  function UseTentacle(o: CopyOptions, st: CopyState): (b: bool)
    ensures b ==> o.source == Lib.Tentacle || o.source == Lib.Default
    ensures o.source == Lib.Tentacle ==> b
  {
    o.source == Lib.Tentacle || (o.target == EldritchTentacle && o.source == Lib.Default)
  }

  /** The hipster and the goth kid share the `_hipsterAdv` counter: once it is
      non-zero neither is used, whatever the source. */
  lemma SharedFamiliarCounter(o: CopyOptions, st: CopyState)
    requires st.hipsterAdv != 0
    ensures !UseHipster(o, st) && !UseGothKid(o, st)
  {
  }

  /** With the default source the target decides: the sausage goblin uses the
      Kramco and the eldritch tentacle uses the tentacle, nothing else does. */
  lemma DefaultSourceFollowsTarget(o: CopyOptions, st: CopyState)
    requires o.source == Lib.Default
    ensures UseKramco(o, st) <==> o.target == SausageGoblin
    ensures UseTentacle(o, st) <==> o.target == EldritchTentacle
    ensures !UseHipster(o, st) && !UseGothKid(o, st)
  {
  }

  /** At most one free-fight source is in use for any options and state. */
  lemma AtMostOneSource(o: CopyOptions, st: CopyState)
    ensures UseKramco(o, st) ==> !UseHipster(o, st) && !UseGothKid(o, st) && !UseTentacle(o, st)
    ensures UseHipster(o, st) ==> !UseGothKid(o, st) && !UseTentacle(o, st)
    ensures UseGothKid(o, st) ==> !UseTentacle(o, st)
  {
  }
}

=== FILE: diet.dfy ===
/** The diet tasks: how much of a planned menu entry can be consumed right
    now, the consumption step itself, recipe prices, the legendary-food flags,
    the order in which planned entries become tasks and the chocolate tasks.
    The planner that produces the entries belongs to an external library and
    is not part of this model: its entries are an input. */
module Diet {
  import opened Outcomes
  import opened Seqs
  import Lib
  import Engine
  import opened Game

  /** `itemType(item)` as far as consumption cares. */
  datatype Organ = Food | Booze | SpleenItem | OtherType(kind: string)

  /** `MenuData.cleans`: how much one unit frees in each organ. */
  datatype Cleans = Cleans(stomach: Option<int>, liver: Option<int>, spleen: Option<int>)

  /** `MenuData`; an absent `buff` flag reads as false. */
  datatype MenuData = MenuData(cleans: Option<Cleans>, buff: bool, ascend: bool)

  datatype MenuItem = MenuItem(item: Item, organ: Organ, size: nat, data: Option<MenuData>)

  /** The organ readings `consumeQuantity` takes from the game: current use of
      each organ and the room left in it. The room is negative when an organ
      is over its limit (an overdrunk character has negative liver room). */
  datatype OrganState = OrganState(
    fullness: nat, inebriety: nat, spleenUse: nat,
    remainingStomach: int, remainingLiver: int, remainingSpleen: int)

  // ---------------------------------------------------------------------
  // consumeQuantity

  /** A JavaScript number as `consumeQuantity` can produce it: a whole number,
      or `-Infinity`, which `Math.floor` gives for a negative room divided by
      a size of 0. */
  datatype Amount = Whole(n: int) | MinusInfinity

  /** `a <= b` on such numbers. */
  predicate AtMost(a: Amount, b: Amount) {
    a.MinusInfinity? || (b.Whole? && a.n <= b.n)
  }

  /** `a > 0`. */
  predicate Positive(a: Amount) {
    a.Whole? && a.n > 0
  }

  /** `Math.min(a, b)`. */
  function MinAmount(a: Amount, b: Amount): (r: Amount)
    ensures AtMost(r, a) && AtMost(r, b)
    ensures r == a || r == b
  {
    if AtMost(a, b) then a else b
  }

  /** `wrapClean(current, cleans)`: a cleaner whose clean amount exceeds the
      current use of its organ is refused (the floor of a fraction below one);
      in every other case the request passes unchanged — it is not capped at
      `current / cleans`. */
  function WrapClean(qty: int, current: nat, cleans: int): (r: int)
    ensures cleans > 0 && current < cleans ==> r == 0
    ensures !(cleans > 0 && current < cleans) ==> r == qty
  {
    if cleans > 0 && current < cleans then current / cleans else qty
  }

  /** `wrapUsage(remaining, size)`: the request, or the number of units of
      `size` that fit in `remaining` when the request does not fit. For a
      size of 0 and a negative room that number is `-Infinity`. */
  function WrapUsage(qty: int, remaining: int, size: nat): (r: Amount)
    ensures r.MinusInfinity? <==> size == 0 && remaining < 0
    ensures r.Whole? ==> r.n <= qty && r.n * size <= remaining
    ensures r == Whole(qty) || r.MinusInfinity? || remaining < (r.n + 1) * size
    ensures size == 0 && remaining >= 0 ==> r == Whole(qty)
    ensures qty >= 0 && remaining >= 0 ==> r.Whole? && r.n >= 0
  {
    if qty * size > remaining then
      if size == 0 then MinusInfinity
      else
        FitsBounds(qty, remaining, size);
        Whole(remaining / size)
    else Whole(qty)
  }

  /** When the request does not fit, the units that do fit are fewer than
      requested and fill the remaining room as far as a whole unit goes. */
  lemma FitsBounds(qty: int, remaining: int, size: nat)
    requires qty * size > remaining && size > 0
    ensures remaining / size < qty
    ensures remaining >= 0 ==> remaining / size >= 0
    ensures (remaining / size) * size <= remaining < (remaining / size + 1) * size
  {
    var r := remaining / size;
    assert r * size <= remaining < (r + 1) * size;
    assert r * size < qty * size;
    MulLess(r, qty, size);
  }

  lemma MulLess(a: int, b: int, c: nat)
    requires a * c < b * c
    ensures a < b
  {
    assert (b - a) * c > 0;
  }

  function CleansOf(m: MenuItem): Cleans {
    match m.data
    case None => Cleans(None, None, None)
    case Some(d) => d.cleans.GetOr(Cleans(None, None, None))
  }

  /** The size term of each pool: the item's size for its own organ, 0 otherwise. */
  function StomachSize(m: MenuItem): nat { if m.organ == Food then m.size else 0 }
  function LiverSize(m: MenuItem): nat { if m.organ == Booze then m.size else 0 }
  function SpleenSize(m: MenuItem): nat { if m.organ == SpleenItem then m.size else 0 }

  /** `k` units of the item fit in the room of all three organs. */
  predicate Fits(k: int, m: MenuItem, st: OrganState) {
    k * StomachSize(m) <= st.remainingStomach
    && k * LiverSize(m) <= st.remainingLiver
    && k * SpleenSize(m) <= st.remainingSpleen
  }

  /** No organ is over its limit. */
  predicate RoomLeft(st: OrganState) {
    st.remainingStomach >= 0 && st.remainingLiver >= 0 && st.remainingSpleen >= 0
  }

  /** An organ other than the item's own is over its limit. */
  predicate OtherOrganOver(m: MenuItem, st: OrganState) {
    (StomachSize(m) == 0 && st.remainingStomach < 0)
    || (LiverSize(m) == 0 && st.remainingLiver < 0)
    || (SpleenSize(m) == 0 && st.remainingSpleen < 0)
  }

  /** A cleaner does not block consumption when its organ already holds at
      least its clean amount (or it cleans nothing there). */
  predicate CleanerFits(current: nat, cleans: Option<int>) {
    !(cleans.GetOr(0) > 0 && current < cleans.GetOr(0))
  }

  predicate CleanersFit(m: MenuItem, st: OrganState) {
    CleanerFits(st.fullness, CleansOf(m).stomach)
    && CleanerFits(st.inebriety, CleansOf(m).liver)
    && CleanerFits(st.spleenUse, CleansOf(m).spleen)
  }

  /** `consumeQuantity(qty, menuItem)`: the smallest of the three cleaner
      clamps and the three organ clamps. With room in every organ it is the
      largest count up to the request that fits (0 when a cleaner has nothing
      to clean); an organ over its limit makes it `-Infinity` for the items of
      the other organs and negative for its own. */
  function ConsumeQuantity(qty: int, m: MenuItem, st: OrganState): (r: Amount)
    ensures AtMost(r, Whole(qty))
    ensures r.Whole? ==> Fits(r.n, m, st)
    ensures r.MinusInfinity? <==> OtherOrganOver(m, st)
    ensures qty >= 0 && RoomLeft(st) && CleanersFit(m, st) ==>
      r.Whole? && 0 <= r.n && (r.n == qty || !Fits(r.n + 1, m, st))
    ensures qty >= 0 && RoomLeft(st) && !CleanersFit(m, st) ==> r == Whole(0)
  {
    var c := CleansOf(m);
    var stomach := WrapUsage(qty, st.remainingStomach, StomachSize(m));
    var liver := WrapUsage(qty, st.remainingLiver, LiverSize(m));
    var spleen := WrapUsage(qty, st.remainingSpleen, SpleenSize(m));
    var r := Min6(
      Whole(WrapClean(qty, st.fullness, c.stomach.GetOr(0))),
      Whole(WrapClean(qty, st.inebriety, c.liver.GetOr(0))),
      Whole(WrapClean(qty, st.spleenUse, c.spleen.GetOr(0))),
      stomach, liver, spleen);
    assert r.Whole? ==> Fits(r.n, m, st) by {
      if r.Whole? {
        FitsBelow(r.n, stomach, st.remainingStomach, StomachSize(m));
        FitsBelow(r.n, liver, st.remainingLiver, LiverSize(m));
        FitsBelow(r.n, spleen, st.remainingSpleen, SpleenSize(m));
      }
    }
    r
  }

  /** A count no larger than what one organ's clamp allows fits in that organ. */
  lemma FitsBelow(k: int, clamp: Amount, remaining: int, size: nat)
    requires AtMost(Whole(k), clamp) && clamp.Whole? && clamp.n * size <= remaining
    ensures k * size <= remaining
  {
    assert k * size <= clamp.n * size;
  }

  /** `Math.min` of six numbers. */
  function Min6(a: Amount, b: Amount, c: Amount, d: Amount, e: Amount, f: Amount): (r: Amount)
    ensures AtMost(r, a) && AtMost(r, b) && AtMost(r, c) && AtMost(r, d) && AtMost(r, e) && AtMost(r, f)
    ensures r == a || r == b || r == c || r == d || r == e || r == f
  {
    MinAmount(MinAmount(MinAmount(a, b), MinAmount(c, d)), MinAmount(e, f))
  }

  /** One unit of the item fits in its own organ, and no organ is over its limit. */
  predicate OneUnitFits(m: MenuItem, st: OrganState) {
    StomachSize(m) <= st.remainingStomach
    && LiverSize(m) <= st.remainingLiver
    && SpleenSize(m) <= st.remainingSpleen
  }

  /** What a positive quantity means: a positive request, every cleaner of the
      item has something to clean, and one unit fits in the item's organ (so
      no organ is over its limit). */
  lemma ConsumeQuantityPositive(qty: int, m: MenuItem, st: OrganState)
    ensures Positive(ConsumeQuantity(qty, m, st)) <==>
      qty > 0 && CleanersFit(m, st) && OneUnitFits(m, st)
  {
    if qty > 0 && OneUnitFits(m, st) {
      UsagePositive(qty, st.remainingStomach, StomachSize(m));
      UsagePositive(qty, st.remainingLiver, LiverSize(m));
      UsagePositive(qty, st.remainingSpleen, SpleenSize(m));
    }
    if qty > 0 && StomachSize(m) > st.remainingStomach {
      UsageBlocked(qty, st.remainingStomach, StomachSize(m));
    }
    if qty > 0 && LiverSize(m) > st.remainingLiver {
      UsageBlocked(qty, st.remainingLiver, LiverSize(m));
    }
    if qty > 0 && SpleenSize(m) > st.remainingSpleen {
      UsageBlocked(qty, st.remainingSpleen, SpleenSize(m));
    }
  }

  lemma UsagePositive(qty: int, remaining: int, size: nat)
    requires qty > 0 && size <= remaining
    ensures Positive(WrapUsage(qty, remaining, size))
  {
    if qty * size > remaining {
      assert size > 0;
      assert remaining / size >= 1;
    }
  }

  lemma UsageBlocked(qty: int, remaining: int, size: nat)
    requires qty > 0 && size > remaining
    ensures !Positive(WrapUsage(qty, remaining, size))
  {
    assert qty * size >= size;
  }

  // ---------------------------------------------------------------------
  // consumeSafe

  const SpecialSeasoning: Item := "Special Seasoning"

  /** The game calls one consumption makes: buying or retrieving, then eating,
      drinking, chewing or using. */
  datatype Action =
    | Acquire(qty: int, item: Item, maxPrice: real)
    | Eat(qty: int, item: Item)
    | Drink(qty: int, item: Item)
    | Chew(qty: int, item: Item)
    | Use(qty: int, item: Item)

  datatype ConsumeError = NothingToConsume(items: seq<Item>)

  /** What a successful `consumeSafe` leaves behind: the quantity recorded as
      consumed and the calls it made, in order. */
  datatype Consumed = Consumed(consumed: int, actions: seq<Action>)

  /** The smallest of a non-empty list of numbers. */
  function MinOfAmounts(s: seq<Amount>): (m: Amount)
    requires |s| > 0
    ensures forall i :: 0 <= i < |s| ==> AtMost(m, s[i])
    ensures exists i :: 0 <= i < |s| && m == s[i]
    decreases |s|
  {
    if |s| == 1 then s[0]
    else
      var prefix := s[..|s| - 1];
      var m := MinOfAmounts(prefix);
      assert forall i :: 0 <= i < |prefix| ==> prefix[i] == s[i];
      AtMostTransitive(MinAmount(m, s[|s| - 1]), m, prefix);
      MinAmount(m, s[|s| - 1])
  }

  lemma AtMostTransitive(a: Amount, b: Amount, s: seq<Amount>)
    requires AtMost(a, b) && forall i :: 0 <= i < |s| ==> AtMost(b, s[i])
    ensures forall i :: 0 <= i < |s| ==> AtMost(a, s[i])
  {
  }

  /** Each item's `consumeQuantity`, in order. */
  function Quantities(qty: int, items: seq<MenuItem>, st: OrganState): (r: seq<Amount>)
    ensures |r| == |items|
    ensures forall i :: 0 <= i < |items| ==> r[i] == ConsumeQuantity(qty, items[i], st)
  {
    seq(|items|, i requires 0 <= i < |items| => ConsumeQuantity(qty, items[i], st))
  }

  /** The smallest `consumeQuantity` over a group of items. */
  function MinConsume(qty: int, items: seq<MenuItem>, st: OrganState): (r: Amount)
    requires |items| > 0
    ensures forall i :: 0 <= i < |items| ==> AtMost(r, ConsumeQuantity(qty, items[i], st))
    ensures exists i :: 0 <= i < |items| && r == ConsumeQuantity(qty, items[i], st)
  {
    MinOfAmounts(Quantities(qty, items, st))
  }

  /** The consumption primitive for one item, chosen by its type; Special
      Seasoning of type "other" is not used explicitly. */
  function ConsumeAction(m: MenuItem, qty: int): seq<Action> {
    match m.organ
    case Food => [Eat(qty, m.item)]
    case Booze => [Drink(qty, m.item)]
    case SpleenItem => [Chew(qty, m.item)]
    case OtherType(_) => if m.item == SpecialSeasoning then [] else [Use(qty, m.item)]
  }

  function ItemActions(m: MenuItem, qty: int, price: real, skipAcquire: bool): seq<Action> {
    (if skipAcquire then [] else [Acquire(qty, m.item, price)]) + ConsumeAction(m, qty)
  }

  /** The calls the loop of `consumeSafe` makes, item by item. */
  function GroupActions(items: seq<MenuItem>, qty: int, price: real, skipAcquire: bool): (r: seq<Action>)
    ensures |items| == 1 ==> r == ItemActions(items[0], qty, price, skipAcquire)
    decreases |items|
  {
    if |items| == 0 then []
    else GroupActions(items[..|items| - 1], qty, price, skipAcquire)
         + ItemActions(items[|items| - 1], qty, price, skipAcquire)
  }

  function Names(items: seq<MenuItem>): (r: seq<Item>)
    ensures |r| == |items|
    ensures forall i :: 0 <= i < |items| ==> r[i] == items[i].item
  {
    seq(|items|, i requires 0 <= i < |items| => items[i].item)
  }

  function ActionQty(a: Action): int {
    match a
    case Acquire(q, _, _) => q
    case Eat(q, _) => q
    case Drink(q, _) => q
    case Chew(q, _) => q
    case Use(q, _) => q
  }

  function ActionItem(a: Action): Item {
    match a
    case Acquire(_, i, _) => i
    case Eat(_, i) => i
    case Drink(_, i) => i
    case Chew(_, i) => i
    case Use(_, i) => i
  }

  /** `consumeSafe(qty, price, menuItems, skipAcquire)`: the whole group is
      consumed in the smallest quantity any of its items allows; a quantity
      that is not positive (including `-Infinity`) is an error. */
  function ConsumeSafe(qty: int, price: real, items: seq<MenuItem>, skipAcquire: bool, st: OrganState)
    : (r: Result<Consumed, ConsumeError>)
    requires |items| > 0
    ensures r.Err? <==> exists i :: 0 <= i < |items| && !Positive(ConsumeQuantity(qty, items[i], st))
    ensures r.Err? ==> r.error == NothingToConsume(Names(items))
    ensures r.Ok? ==> 0 < r.value.consumed <= qty
    ensures r.Ok? ==> exists i :: 0 <= i < |items| && Whole(r.value.consumed) == ConsumeQuantity(qty, items[i], st)
    ensures r.Ok? ==> forall i :: 0 <= i < |items| ==> Fits(r.value.consumed, items[i], st)
    ensures r.Ok? ==> r.value.actions == GroupActions(items, r.value.consumed, price, skipAcquire)
  {
    var q := MinConsume(qty, items, st);
    if !Positive(q) then
      Err(NothingToConsume(Names(items)))
    else
      forall i | 0 <= i < |items|
        ensures Fits(q.n, items[i], st)
      {
        var c := ConsumeQuantity(qty, items[i], st);
        ScaleDown(q.n, c.n, StomachSize(items[i]), st.remainingStomach);
        ScaleDown(q.n, c.n, LiverSize(items[i]), st.remainingLiver);
        ScaleDown(q.n, c.n, SpleenSize(items[i]), st.remainingSpleen);
      }
      Ok(Consumed(q.n, GroupActions(items, q.n, price, skipAcquire)))
  }

  lemma ScaleDown(q: int, c: int, size: nat, remaining: int)
    requires 0 < q <= c && c * size <= remaining
    ensures q * size <= remaining
  {
    assert q * size <= c * size;
  }

  /** The calls of a group are the calls of its parts, in order. */
  lemma {:induction false} GroupActionsAppend(a: seq<MenuItem>, b: seq<MenuItem>, qty: int, price: real, skipAcquire: bool)
    ensures GroupActions(a + b, qty, price, skipAcquire)
         == GroupActions(a, qty, price, skipAcquire) + GroupActions(b, qty, price, skipAcquire)
    decreases |b|
  {
    if |b| == 0 {
      assert a + b == a;
    } else {
      var b', last := b[..|b| - 1], b[|b| - 1];
      assert (a + b)[..|a + b| - 1] == a + b';
      assert (a + b)[|a + b| - 1] == last;
      var tail := ItemActions(last, qty, price, skipAcquire);
      calc {
        GroupActions(a + b, qty, price, skipAcquire);
        GroupActions(a + b', qty, price, skipAcquire) + tail;
        { GroupActionsAppend(a, b', qty, price, skipAcquire); }
        (GroupActions(a, qty, price, skipAcquire) + GroupActions(b', qty, price, skipAcquire)) + tail;
        GroupActions(a, qty, price, skipAcquire) + (GroupActions(b', qty, price, skipAcquire) + tail);
        GroupActions(a, qty, price, skipAcquire) + GroupActions(b, qty, price, skipAcquire);
      }
    }
  }

  /** In group order, item `i`'s calls — its acquisition unless acquisition
      is skipped, then its consumption — follow those of the items before it
      and precede those of the items after it. */
  lemma GroupActionsSplit(items: seq<MenuItem>, qty: int, price: real, skipAcquire: bool, i: int)
    requires 0 <= i < |items|
    ensures GroupActions(items, qty, price, skipAcquire)
         == GroupActions(items[..i], qty, price, skipAcquire)
            + ItemActions(items[i], qty, price, skipAcquire)
            + GroupActions(items[i + 1..], qty, price, skipAcquire)
  {
    assert items == (items[..i] + [items[i]]) + items[i + 1..];
    GroupActionsAppend(items[..i] + [items[i]], items[i + 1..], qty, price, skipAcquire);
    GroupActionsAppend(items[..i], [items[i]], qty, price, skipAcquire);
  }

  /** Every call a consumption makes carries the consumed quantity and names an
      item of the group; Special Seasoning is acquired but never used. */
  lemma {:induction false} GroupActionsFacts(items: seq<MenuItem>, qty: int, price: real, skipAcquire: bool)
    ensures forall a :: a in GroupActions(items, qty, price, skipAcquire) ==>
      ActionQty(a) == qty && ActionItem(a) in Names(items)
    ensures Use(qty, SpecialSeasoning) !in GroupActions(items, qty, price, skipAcquire)
    ensures skipAcquire ==> forall a :: a in GroupActions(items, qty, price, skipAcquire) ==> !a.Acquire?
    ensures forall a :: a in GroupActions(items, qty, price, skipAcquire) && a.Acquire? ==> a.maxPrice == price
    decreases |items|
  {
    if |items| > 0 {
      var prefix, last := items[..|items| - 1], items[|items| - 1];
      var whole := GroupActions(items, qty, price, skipAcquire);
      GroupActionsFacts(prefix, qty, price, skipAcquire);
      ItemActionsFacts(last, qty, price, skipAcquire);
      assert forall x :: x in Names(prefix) ==> x in Names(items) by {
        assert forall i :: 0 <= i < |prefix| ==> Names(prefix)[i] == Names(items)[i];
      }
      assert last.item in Names(items) by {
        assert Names(items)[|items| - 1] == last.item;
      }
      ConcatFacts(GroupActions(prefix, qty, price, skipAcquire), ItemActions(last, qty, price, skipAcquire), whole);
    }
  }

  /** Nothing is left out: every item of the group is acquired (unless
      acquisition is skipped) and consumed with the call its type asks for. */
  lemma GroupActionsCover(items: seq<MenuItem>, qty: int, price: real, skipAcquire: bool, i: int)
    requires 0 <= i < |items|
    ensures !skipAcquire ==> Acquire(qty, items[i].item, price) in GroupActions(items, qty, price, skipAcquire)
    ensures forall a :: a in ConsumeAction(items[i], qty) ==> a in GroupActions(items, qty, price, skipAcquire)
  {
    GroupActionsSplit(items, qty, price, skipAcquire, i);
    var pre, mine := GroupActions(items[..i], qty, price, skipAcquire), ItemActions(items[i], qty, price, skipAcquire);
    var whole := GroupActions(items, qty, price, skipAcquire);
    assert forall a :: a in mine ==> a in whole;
    if !skipAcquire {
      assert mine[0] == Acquire(qty, items[i].item, price);
    }
  }

  /** What one item contributes: calls with the quantity, naming the item. */
  lemma ItemActionsFacts(m: MenuItem, qty: int, price: real, skipAcquire: bool)
    ensures forall a :: a in ItemActions(m, qty, price, skipAcquire) ==> ActionQty(a) == qty && ActionItem(a) == m.item
    ensures Use(qty, SpecialSeasoning) !in ItemActions(m, qty, price, skipAcquire)
    ensures skipAcquire ==> forall a :: a in ItemActions(m, qty, price, skipAcquire) ==> !a.Acquire?
    ensures forall a :: a in ItemActions(m, qty, price, skipAcquire) && a.Acquire? ==> a.maxPrice == price
  {
  }

  lemma ConcatFacts(a: seq<Action>, b: seq<Action>, c: seq<Action>)
    requires c == a + b
    ensures forall x :: x in c ==> x in a || x in b
    ensures forall x :: x in a || x in b ==> x in c
  {
  }

  // ---------------------------------------------------------------------
  // Prices

  /** An item's crafting tree as `getIngredients` unfolds it: its mall price,
      whether it trades, and its ingredients with their counts. */
  datatype Recipe = Recipe(item: Item, mallPrice: real, tradeable: bool, ingredients: seq<Ingredient>)
  datatype Ingredient = Ingredient(recipe: Recipe, qty: int)

  /** The ingredients' total: the sum of each ingredient's recipe price times its count. */
  function IngredientCost(r: Recipe): real
    decreases r, 0
  {
    Sum(seq(|r.ingredients|, i requires 0 <= i < |r.ingredients| =>
      RecipePrice(r.ingredients[i].recipe) * r.ingredients[i].qty as real))
  }

  /** `recipePrice(item)`: the mall price of an item without ingredients;
      otherwise the ingredients' total, raised to the mall price when the item
      is tradeable. */
  function RecipePrice(r: Recipe): (p: real)
    ensures |r.ingredients| == 0 ==> p == r.mallPrice
    ensures |r.ingredients| > 0 && r.tradeable ==> p >= r.mallPrice && p >= IngredientCost(r)
    ensures |r.ingredients| > 0 && r.tradeable ==> p == r.mallPrice || p == IngredientCost(r)
    ensures |r.ingredients| > 0 && !r.tradeable ==> p == IngredientCost(r)
    decreases r, 1
  {
    if |r.ingredients| > 0 then
      var cost := IngredientCost(r);
      if r.tradeable then (if cost >= r.mallPrice then cost else r.mallPrice) else cost
    else r.mallPrice
  }

  /** Every mall price and ingredient count in the tree is non-negative. */
  predicate NonNegativeTree(r: Recipe)
    decreases r
  {
    r.mallPrice >= 0.0
    && forall i :: 0 <= i < |r.ingredients| ==>
         r.ingredients[i].qty >= 0 && NonNegativeTree(r.ingredients[i].recipe)
  }

  lemma {:induction false} SumNonNegative(s: seq<real>)
    requires forall i :: 0 <= i < |s| ==> s[i] >= 0.0
    ensures Sum(s) >= 0.0
    decreases |s|
  {
    if |s| > 0 {
      SumNonNegative(s[..|s| - 1]);
    }
  }

  /** Non-negative prices and counts give a non-negative recipe price. */
  lemma {:induction false} RecipePriceNonNegative(r: Recipe)
    requires NonNegativeTree(r)
    ensures RecipePrice(r) >= 0.0
    decreases r
  {
    var terms := seq(|r.ingredients|, i requires 0 <= i < |r.ingredients| =>
      RecipePrice(r.ingredients[i].recipe) * r.ingredients[i].qty as real);
    forall i | 0 <= i < |r.ingredients|
      ensures terms[i] >= 0.0
    {
      RecipePriceNonNegative(r.ingredients[i].recipe);
    }
    SumNonNegative(terms);
  }

  /** The items priced by `recipePrice` rather than by the mall. */
  const RecipePriced: set<Item> := {
    "Boris's bread", "roasted vegetable of Jarlsberg", "Pete's rich ricotta",
    "roasted vegetable focaccia", "baked veggie ricotta casserole", "plain calzone",
    "Deep Dish of Legend", "Calzone of Legend", "Pizza of Legend"}

  const LovChocolate: Item := "LOV Extraterrestrial Chocolate"

  /** `price(item)`: the override table first, the mall price otherwise. */
  function Price(r: Recipe): (p: real)
    ensures r.item in RecipePriced ==> p == RecipePrice(r)
    ensures r.item == LovChocolate ==> p == 20000.0
    ensures r.item !in RecipePriced && r.item != LovChocolate ==> p == r.mallPrice
  {
    if r.item in RecipePriced then RecipePrice(r)
    else if r.item == LovChocolate then 20000.0
    else r.mallPrice
  }

  /** Outside the override table the price is the mall price alone: the
      crafting tree does not matter. */
  lemma PriceIgnoresIngredients(r1: Recipe, r2: Recipe)
    requires r1.item == r2.item && r1.mallPrice == r2.mallPrice
    requires r1.item !in RecipePriced && r1.item != LovChocolate
    ensures Price(r1) == Price(r2)
  {
  }

  /** The LOV chocolate's price is fixed, whatever the mall says. */
  lemma LovPriceFixed(r1: Recipe, r2: Recipe)
    requires r1.item == LovChocolate && r2.item == LovChocolate
    ensures Price(r1) == Price(r2) == 20000.0
  {
  }

  /** With non-negative prices and counts in the tree every price is
      non-negative, and a tradeable recipe-priced item is never valued below
      its mall price. */
  lemma PriceNonNegative(r: Recipe)
    requires NonNegativeTree(r)
    ensures Price(r) >= 0.0
    ensures r.item in RecipePriced && r.tradeable ==> Price(r) >= r.mallPrice
  {
    RecipePriceNonNegative(r);
  }

  /** `cheapest(items)`: `maxBy` over the negated mall price, so a cheapest
      item, the last of equally cheap ones. */
  function Cheapest(items: seq<Item>, mall: Item -> real): (r: Item)
    requires |items| > 0
    ensures r in items
    ensures forall x :: x in items ==> mall(r) <= mall(x)
    ensures r == items[Lib.MaxByIndex(items, i => -mall(i), false)]
    ensures exists k :: 0 <= k < |items| && items[k] == r && forall j :: k < j < |items| ==> mall(r) < mall(items[j])
  {
    var k := Lib.MaxByIndex(items, i => -mall(i), false);
    assert forall j :: k < j < |items| ==> mall(items[k]) < mall(items[j]);
    Lib.MaxBy(items, i => -mall(i), false)
  }

  // ---------------------------------------------------------------------
  // Legendary foods

  const Legendaries: seq<Item> := ["Calzone of Legend", "Pizza of Legend", "Deep Dish of Legend"]

  /** Characters the regular expression `.` does not match. */
  predicate LineTerminator(c: char) {
    c == '\n' || c == '\r' || c == '\U{2028}' || c == '\U{2029}'
  }

  function ToLower(c: char): char {
    if 'A' <= c <= 'Z' then (c as int + 32) as char else c
  }

  function ToUpper(c: char): char {
    if 'a' <= c <= 'z' then (c as int - 32) as char else c
  }

  /** `.replace(/^(.)/g, s => s.toLowerCase())`. */
  function LowerFirst(s: string): (r: string)
    ensures |r| == |s|
    ensures forall i :: 0 < i < |s| ==> r[i] == s[i]
  {
    if |s| > 0 && !LineTerminator(s[0]) then [ToLower(s[0])] + s[1..] else s
  }

  /** `.replace(/ (.)/g, s => s.toUpperCase())`: scanning left to right, each
      non-overlapping match of a space and the character after it has that
      character upper-cased. */
  function UpperAfterSpace(s: string): (r: string)
    ensures |r| == |s|
    decreases |s|
  {
    if |s| < 2 then s
    else if s[0] == ' ' && !LineTerminator(s[1]) then [' ', ToUpper(s[1])] + UpperAfterSpace(s[2..])
    else [s[0]] + UpperAfterSpace(s[1..])
  }

  /** `.replace(/ /g, "")`. */
  function RemoveSpaces(s: string): (r: string)
    decreases |s|
  {
    if |s| == 0 then []
    else (if s[0] == ' ' then [] else [s[0]]) + RemoveSpaces(s[1..])
  }

  /** The property recording that a legendary food has been eaten. */
  function LegendaryProperty(item: Item): string {
    RemoveSpaces(UpperAfterSpace(LowerFirst(item + "Eaten")))
  }

  /** A space-free prefix passes through the upper-casing unchanged. */
  lemma {:induction false} UpperAfterWord(w: string, t: string)
    requires ' ' !in w
    ensures UpperAfterSpace(w + t) == w + UpperAfterSpace(t)
    decreases |w|
  {
    if |w| > 0 {
      assert w[0] in w && w[0] != ' ';
      assert (w + t)[0] == w[0] && (w + t)[1..] == w[1..] + t;
      UpperAfterNonSpace(w + t);
      assert forall c :: c in w[1..] ==> c in w;
      UpperAfterWord(w[1..], t);
      ConsAppend(w[0], w[1..], UpperAfterSpace(t), w);
    } else {
      assert w + t == t && w + UpperAfterSpace(t) == UpperAfterSpace(t);
    }
  }

  lemma ConsAppend<T>(c: T, x: seq<T>, y: seq<T>, w: seq<T>)
    requires |w| > 0 && w[0] == c && w[1..] == x
    ensures [c] + (x + y) == w + y
  {
    assert w == [c] + x;
  }

  /** A space followed by an ordinary character: the character is upper-cased. */
  lemma UpperAfterSpaceStep(c: char, t: string)
    requires !LineTerminator(c)
    ensures UpperAfterSpace([' ', c] + t) == [' ', ToUpper(c)] + UpperAfterSpace(t)
  {
    assert ([' ', c] + t)[2..] == t;
  }

  /** Removing the spaces: a space-free prefix stays, a space goes. */
  lemma {:induction false} RemoveSpacesAfterWord(w: string, t: string)
    requires ' ' !in w
    ensures RemoveSpaces(w + t) == w + RemoveSpaces(t)
    ensures RemoveSpaces(w + " " + t) == w + RemoveSpaces(t)
    decreases |w|
  {
    if |w| == 0 {
      assert w + t == t;
      assert (w + " " + t)[1..] == t;
    } else {
      assert (w + t)[1..] == w[1..] + t;
      assert (w + " " + t)[1..] == w[1..] + " " + t;
      RemoveSpacesAfterWord(w[1..], t);
      assert [w[0]] + w[1..] == w;
    }
  }

  lemma UpperNoSpace(w: string)
    requires ' ' !in w
    ensures UpperAfterSpace(w) == w
  {
    UpperAfterWord(w, []);
    assert w + [] == w;
  }

  lemma RemoveNoSpace(w: string)
    requires ' ' !in w
    ensures RemoveSpaces(w) == w
  {
    RemoveSpacesAfterWord(w, []);
    assert w + [] == w;
  }

  /** Upper-cases the first character. */
  function UpperFirst(s: string): (r: string)
    ensures |r| == |s|
  {
    if |s| == 0 then s else [ToUpper(s[0])] + s[1..]
  }

  /** A word of an item name: non-empty, without spaces, and not starting
      with a line terminator. */
  predicate PlainWord(w: string) {
    |w| > 0 && ' ' !in w && !LineTerminator(w[0])
  }

  predicate PlainWords(ws: seq<string>) {
    forall i :: 0 <= i < |ws| ==> PlainWord(ws[i])
  }

  /** Each word preceded by a space. */
  function Spaced(ws: seq<string>): string
    decreases |ws|
  {
    if |ws| == 0 then "" else " " + ws[0] + Spaced(ws[1..])
  }

  /** Each word capitalised, glued together. */
  function Capitalized(ws: seq<string>): string
    decreases |ws|
  {
    if |ws| == 0 then "" else UpperFirst(ws[0]) + Capitalized(ws[1..])
  }

  /** A first character other than a space passes through the upper-casing. */
  lemma UpperAfterNonSpace(x: string)
    requires |x| > 0 && x[0] != ' '
    ensures UpperAfterSpace(x) == [x[0]] + UpperAfterSpace(x[1..])
  {
    if |x| < 2 {
      assert x[1..] == [] && [x[0]] == x;
      assert UpperAfterSpace([]) == [];
    }
  }

  /** Upper-casing after a space when the text after the space starts with an
      ordinary character. */
  lemma UpperAfterSpaceLead(x: string)
    requires |x| > 0 && x[0] != ' ' && !LineTerminator(x[0])
    ensures UpperAfterSpace(" " + x) == [' '] + UpperFirst(UpperAfterSpace(x))
  {
    UpperAfterBlank(x);
    UpperFirstOfUpper(x);
    ConsBlank(ToUpper(x[0]), UpperAfterSpace(x[1..]), UpperAfterSpace(" " + x), UpperFirst(UpperAfterSpace(x)));
  }

  lemma UpperAfterBlank(x: string)
    requires |x| > 0 && !LineTerminator(x[0])
    ensures UpperAfterSpace(" " + x) == [' ', ToUpper(x[0])] + UpperAfterSpace(x[1..])
  {
    var y := " " + x;
    assert y[0] == ' ' && y[1] == x[0] && y[2..] == x[1..];
  }

  lemma UpperFirstOfUpper(x: string)
    requires |x| > 0 && x[0] != ' '
    ensures UpperFirst(UpperAfterSpace(x)) == [ToUpper(x[0])] + UpperAfterSpace(x[1..])
  {
    UpperAfterNonSpace(x);
  }

  lemma ConsBlank(c: char, t: string, lhs: string, rhs: string)
    requires lhs == [' ', c] + t && rhs == [c] + t
    ensures lhs == [' '] + rhs
  {
  }

  lemma RemoveSpacesUpperFirst(y: string)
    requires |y| > 0 && y[0] != ' '
    ensures RemoveSpaces(UpperFirst(y)) == UpperFirst(RemoveSpaces(y))
  {
    assert UpperFirst(y)[1..] == y[1..];
  }

  lemma UpperFirstAppend(a: string, b: string)
    requires |a| > 0
    ensures UpperFirst(a + b) == UpperFirst(a) + b
  {
    assert (a + b)[1..] == a[1..] + b;
  }

  /** One word, a space, and the rest. */
  lemma CamelCaseStep(w: string, x: string)
    requires ' ' !in w && |x| > 0 && x[0] != ' ' && !LineTerminator(x[0])
    ensures RemoveSpaces(UpperAfterSpace(w + (" " + x))) == w + UpperFirst(RemoveSpaces(UpperAfterSpace(x)))
  {
    var y := UpperAfterSpace(x);
    var u := UpperFirst(y);
    var spaced := UpperAfterSpace(w + (" " + x));
    assert spaced == w + " " + u by {
      UpperAfterWord(w, " " + x);
      UpperAfterSpaceLead(x);
      assert w + ([' '] + u) == w + " " + u;
    }
    assert RemoveSpaces(spaced) == w + RemoveSpaces(u) by {
      RemoveSpacesAfterWord(w, u);
    }
    RemoveSpacesUpperFirst(y);
  }

  /** Upper-casing after each space and then removing the spaces turns a
      space-free word, the spaced words after it and a space-free suffix
      into the word, the capitalised words and the suffix. */
  lemma {:induction false} CamelCaseWords(w: string, ws: seq<string>, suffix: string)
    requires ' ' !in w && PlainWords(ws) && ' ' !in suffix
    ensures RemoveSpaces(UpperAfterSpace(w + Spaced(ws) + suffix)) == w + Capitalized(ws) + suffix
    decreases |ws|
  {
    if |ws| == 0 {
      assert w + Spaced(ws) + suffix == w + suffix;
      assert ' ' !in w + suffix;
      UpperNoSpace(w + suffix);
      RemoveNoSpace(w + suffix);
    } else {
      assert PlainWord(ws[0]);
      CamelCaseWords(ws[0], ws[1..], suffix);
      CamelCaseWord(w, ws[0], Spaced(ws[1..]), Capitalized(ws[1..]), suffix);
    }
  }

  /** The inductive step of the above, over plain strings. */
  lemma CamelCaseWord(w: string, v: string, spaced: string, capitalized: string, suffix: string)
    requires ' ' !in w && PlainWord(v)
    requires RemoveSpaces(UpperAfterSpace(v + spaced + suffix)) == v + capitalized + suffix
    ensures RemoveSpaces(UpperAfterSpace(w + (" " + v + spaced) + suffix)) == w + (UpperFirst(v) + capitalized) + suffix
  {
    var x := v + spaced + suffix;
    SpacedRegroup(w, v, spaced, suffix);
    assert x[0] == v[0];
    CamelCaseStep(w, x);
    UpperFirstRegroup(w, v, capitalized, suffix);
  }

  lemma SpacedRegroup(w: string, v: string, spaced: string, suffix: string)
    ensures w + (" " + v + spaced) + suffix == w + (" " + (v + spaced + suffix))
  {
  }

  lemma UpperFirstRegroup(w: string, v: string, capitalized: string, suffix: string)
    requires |v| > 0
    ensures w + UpperFirst(v + capitalized + suffix) == w + (UpperFirst(v) + capitalized) + suffix
  {
    assert v + capitalized + suffix == v + (capitalized + suffix);
    UpperFirstAppend(v, capitalized + suffix);
  }

  lemma LowerFirstAppend(a: string, b: string)
    requires |a| > 0
    ensures LowerFirst(a + b) == LowerFirst(a) + b
  {
    assert (a + b)[0] == a[0];
    assert (a + b)[1..] == a[1..] + b;
  }

  lemma LowerFirstPlain(w: string)
    requires PlainWord(w)
    ensures ' ' !in LowerFirst(w)
  {
    assert LowerFirst(w) == [ToLower(w[0])] + w[1..];
    forall c | c in LowerFirst(w)
      ensures c != ' '
    {
      if c != ToLower(w[0]) {
        assert c in w[1..];
      }
    }
  }

  /** The flag of an item whose name is plain words separated by single
      spaces: the words camel-cased with a lower-case first letter, then
      `Eaten`. */
  lemma LegendaryPropertyOfWords(first: string, rest: seq<string>)
    requires PlainWord(first) && PlainWords(rest)
    ensures LegendaryProperty(first + Spaced(rest)) == LowerFirst(first) + Capitalized(rest) + "Eaten"
  {
    LowerFirstAppend(first, Spaced(rest) + "Eaten");
    assert first + Spaced(rest) + "Eaten" == first + (Spaced(rest) + "Eaten");
    assert LowerFirst(first) + (Spaced(rest) + "Eaten") == LowerFirst(first) + Spaced(rest) + "Eaten";
    LowerFirstPlain(first);
    CamelCaseWords(LowerFirst(first), rest, "Eaten");
  }

  /** The three legendary foods' flags. */
  lemma LegendaryPropertyNames()
    ensures LegendaryProperty("Calzone of Legend") == "calzoneOfLegendEaten"
    ensures LegendaryProperty("Pizza of Legend") == "pizzaOfLegendEaten"
    ensures LegendaryProperty("Deep Dish of Legend") == "deepDishOfLegendEaten"
  {
    CalzoneProperty();
    PizzaProperty();
    DeepDishProperty();
  }

  lemma OfLegendWords()
    ensures Spaced(["of", "Legend"]) == " of Legend"
    ensures Capitalized(["of", "Legend"]) == "OfLegend"
    ensures Spaced(["Dish", "of", "Legend"]) == " Dish of Legend"
    ensures Capitalized(["Dish", "of", "Legend"]) == "DishOfLegend"
  {
    OfLegendSpaced();
    OfLegendCapitalized();
    DishSpaced();
    DishCapitalized();
  }

  lemma LegendWord()
    ensures Spaced(["Legend"]) == " Legend" && Capitalized(["Legend"]) == "Legend"
  {
    var legend := ["Legend"];
    assert legend[1..] == [];
    assert UpperFirst("Legend") == "Legend";
  }

  lemma OfLegendSpaced()
    ensures Spaced(["of", "Legend"]) == " of Legend"
  {
    var ws := ["of", "Legend"];
    assert ws[1..] == ["Legend"];
    LegendWord();
    assert " " + "of" + " Legend" == " of Legend";
  }

  lemma OfLegendCapitalized()
    ensures Capitalized(["of", "Legend"]) == "OfLegend"
  {
    var ws := ["of", "Legend"];
    assert ws[1..] == ["Legend"];
    LegendWord();
    assert UpperFirst("of") == "Of";
    assert "Of" + "Legend" == "OfLegend";
  }

  lemma DishSpaced()
    ensures Spaced(["Dish", "of", "Legend"]) == " Dish of Legend"
  {
    var ws := ["Dish", "of", "Legend"];
    assert ws[1..] == ["of", "Legend"];
    OfLegendSpaced();
    assert " " + "Dish" + " of Legend" == " Dish of Legend";
  }

  lemma DishCapitalized()
    ensures Capitalized(["Dish", "of", "Legend"]) == "DishOfLegend"
  {
    var ws := ["Dish", "of", "Legend"];
    assert ws[1..] == ["of", "Legend"];
    OfLegendCapitalized();
    assert UpperFirst("Dish") == "Dish";
    assert "Dish" + "OfLegend" == "DishOfLegend";
  }

  /** A name of plain words whose parts are already known. */
  lemma PropertyFromParts(name: string, first: string, rest: seq<string>, lowered: string, capitalized: string,
                          flag: string)
    requires PlainWord(first) && PlainWords(rest) && name == first + Spaced(rest)
    requires LowerFirst(first) == lowered && Capitalized(rest) == capitalized && lowered + capitalized + "Eaten" == flag
    ensures LegendaryProperty(name) == flag
  {
    LegendaryPropertyOfWords(first, rest);
  }

  lemma CalzoneProperty()
    ensures LegendaryProperty("Calzone of Legend") == "calzoneOfLegendEaten"
  {
    OfLegendWords();
    CalzoneParts();
    PropertyFromParts("Calzone of Legend", "Calzone", ["of", "Legend"], "calzone", "OfLegend", "calzoneOfLegendEaten");
  }

  lemma CalzoneParts()
    ensures "Calzone of Legend" == "Calzone" + " of Legend"
    ensures LowerFirst("Calzone") == "calzone"
    ensures "calzone" + "OfLegend" + "Eaten" == "calzoneOfLegendEaten"
  {
    assert "Calzone of Legend" == "Calzone" + " of Legend";
    assert LowerFirst("Calzone") == "calzone" by {
      assert LowerFirst("Calzone") == [ToLower('C')] + "alzone";
    }
    assert "calzone" + "OfLegend" == "calzoneOfLegend";
    assert "calzoneOfLegend" + "Eaten" == "calzoneOfLegendEaten";
  }

  lemma PizzaProperty()
    ensures LegendaryProperty("Pizza of Legend") == "pizzaOfLegendEaten"
  {
    OfLegendWords();
    PizzaParts();
    PropertyFromParts("Pizza of Legend", "Pizza", ["of", "Legend"], "pizza", "OfLegend", "pizzaOfLegendEaten");
  }

  lemma PizzaParts()
    ensures "Pizza of Legend" == "Pizza" + " of Legend"
    ensures LowerFirst("Pizza") == "pizza"
    ensures "pizza" + "OfLegend" + "Eaten" == "pizzaOfLegendEaten"
  {
    assert "Pizza of Legend" == "Pizza" + " of Legend";
    assert LowerFirst("Pizza") == "pizza" by {
      assert LowerFirst("Pizza") == [ToLower('P')] + "izza";
    }
    assert "pizza" + "OfLegend" == "pizzaOfLegend";
    assert "pizzaOfLegend" + "Eaten" == "pizzaOfLegendEaten";
  }

  lemma DeepDishProperty()
    ensures LegendaryProperty("Deep Dish of Legend") == "deepDishOfLegendEaten"
  {
    OfLegendWords();
    DeepDishParts();
    PropertyFromParts("Deep Dish of Legend", "Deep", ["Dish", "of", "Legend"], "deep", "DishOfLegend", "deepDishOfLegendEaten");
  }

  lemma DeepDishParts()
    ensures "Deep Dish of Legend" == "Deep" + " Dish of Legend"
    ensures LowerFirst("Deep") == "deep"
    ensures "deep" + "DishOfLegend" + "Eaten" == "deepDishOfLegendEaten"
  {
    assert "Deep Dish of Legend" == "Deep" + " Dish of Legend";
    assert LowerFirst("Deep") == "deep" by {
      assert LowerFirst("Deep") == [ToLower('D')] + "eep";
    }
    assert "deep" + "DishOfLegend" == "deepDishOfLegend";
    assert "deepDishOfLegend" + "Eaten" == "deepDishOfLegendEaten";
  }

  datatype NotLegendary = NotLegendary(item: Item)

  /** The menu entry `legendaryFood` builds: its flag and its daily maximum. */
  datatype LegendaryMenu = LegendaryMenu(item: Item, property: string, maximum: int)

  /** `legendaryFood(item)`: refuses other items; the maximum is 0 once the
      eaten flag is set (a missing flag reads false), 1 before. */
  function LegendaryFood(item: Item, props: map<string, bool>): (r: Result<LegendaryMenu, NotLegendary>)
    ensures r.Err? <==> item !in Legendaries
    ensures r.Err? ==> r.error == NotLegendary(item)
    ensures r.Ok? ==> r.value.item == item && r.value.property == LegendaryProperty(item)
    ensures r.Ok? ==> (r.value.maximum == 0 <==> (LegendaryProperty(item) in props && props[LegendaryProperty(item)]))
    ensures r.Ok? ==> r.value.maximum == 0 || r.value.maximum == 1
  {
    if item !in Legendaries then Err(NotLegendary(item))
    else
      var key := LegendaryProperty(item);
      var eaten := key in props && props[key];
      Ok(LegendaryMenu(item, key, if eaten then 0 else 1))
  }

  // ---------------------------------------------------------------------
  // Organ tasks

  /** A planned diet entry: the items consumed together, the item the entry is
      for, the planned quantity and the entry's expected gross value. */
  datatype DietEntry = DietEntry(menuItems: seq<MenuItem>, target: MenuItem, quantity: int, grossValue: real)

  /** `sortKey`: buffs first, then cleaners, then everything else (also items without data). */
  function SortKey(m: MenuItem): (k: nat)
    ensures k <= 2
    ensures k == 0 <==> m.data.Some? && m.data.value.buff
    ensures k == 1 <==> m.data.Some? && !m.data.value.buff && m.data.value.cleans.Some?
  {
    match m.data
    case None => 2
    case Some(d) => if d.buff then 0 else if d.cleans.Some? then 1 else 2
  }

  function EntryKey(e: DietEntry): nat { SortKey(e.target) }

  /** The entries of key `k`, in their original order. */
  function Bucket(s: seq<DietEntry>, k: nat): (r: seq<DietEntry>)
    ensures forall x :: x in r ==> x in s && EntryKey(x) == k
    decreases |s|
  {
    if |s| == 0 then []
    else Bucket(s[..|s| - 1], k) + (if EntryKey(s[|s| - 1]) == k then [s[|s| - 1]] else [])
  }

  /** `entries.sort((a, b) => sortKey(a) - sortKey(b))` with the stable sort
      of the language: the entries of key 0, then key 1, then key 2, each
      group in its original order. */
  function SortEntries(entries: seq<DietEntry>): (r: seq<DietEntry>)
    ensures |r| == |entries|
  {
    BucketPartition(entries);
    assert |Buckets(entries)| == |entries|;
    Bucket(entries, 0) + Bucket(entries, 1) + Bucket(entries, 2)
  }

  lemma {:induction false} BucketAppend(a: seq<DietEntry>, b: seq<DietEntry>, k: nat)
    ensures Bucket(a + b, k) == Bucket(a, k) + Bucket(b, k)
    decreases |b|
  {
    if |b| == 0 {
      assert a + b == a;
    } else {
      var b' := b[..|b| - 1];
      assert (a + b)[..|a + b| - 1] == a + b';
      assert (a + b)[|a + b| - 1] == b[|b| - 1];
      BucketAppend(a, b', k);
    }
  }

  lemma {:induction false} BucketOfBucket(s: seq<DietEntry>, a: nat, b: nat)
    ensures Bucket(Bucket(s, a), b) == (if a == b then Bucket(s, a) else [])
    decreases |s|
  {
    if |s| > 0 {
      var prefix := s[..|s| - 1];
      var last := s[|s| - 1];
      BucketOfBucket(prefix, a, b);
      var tail := if EntryKey(last) == a then [last] else [];
      BucketAppend(Bucket(prefix, a), tail, b);
      if EntryKey(last) == a {
        assert Bucket(tail, b) == Bucket([], b) + (if a == b then [last] else []);
      } else {
        assert Bucket(tail, b) == [];
      }
    }
  }

  lemma {:induction false} BucketBeyondKeys(s: seq<DietEntry>, k: nat)
    requires k > 2
    ensures Bucket(s, k) == []
    decreases |s|
  {
    if |s| > 0 {
      BucketBeyondKeys(s[..|s| - 1], k);
    }
  }

  /** All three buckets together. */
  function Buckets(s: seq<DietEntry>): multiset<DietEntry> {
    multiset(Bucket(s, 0)) + multiset(Bucket(s, 1)) + multiset(Bucket(s, 2))
  }

  lemma BucketSnoc(s: seq<DietEntry>, k: nat)
    requires |s| > 0
    ensures multiset(Bucket(s, k)) == multiset(Bucket(s[..|s| - 1], k))
      + (if EntryKey(s[|s| - 1]) == k then multiset{s[|s| - 1]} else multiset{})
  {
  }

  lemma BucketsSnoc(s: seq<DietEntry>)
    requires |s| > 0
    ensures Buckets(s) == Buckets(s[..|s| - 1]) + multiset{s[|s| - 1]}
  {
    BucketSnoc(s, 0);
    BucketSnoc(s, 1);
    BucketSnoc(s, 2);
  }

  /** Every entry lands in exactly one of the three buckets. */
  lemma {:induction false} BucketPartition(s: seq<DietEntry>)
    ensures Buckets(s) == multiset(s)
    decreases |s|
  {
    if |s| > 0 {
      BucketPartition(s[..|s| - 1]);
      BucketsSnoc(s);
      SnocMultiset(s);
    }
  }

  /** The ordering is sorted by key: buffs, then cleaners, then the rest. */
  lemma SortEntriesSorted(entries: seq<DietEntry>)
    ensures forall i, j :: 0 <= i < j < |SortEntries(entries)| ==>
      EntryKey(SortEntries(entries)[i]) <= EntryKey(SortEntries(entries)[j])
  {
    var a, b, c := Bucket(entries, 0), Bucket(entries, 1), Bucket(entries, 2);
    var r := SortEntries(entries);
    assert r == a + b + c;
    forall i | 0 <= i < |r|
      ensures EntryKey(r[i]) == (if i < |a| then 0 else if i < |a| + |b| then 1 else 2)
    {
      if i < |a| {
        assert r[i] == a[i] && a[i] in a;
      } else if i < |a| + |b| {
        assert r[i] == b[i - |a|] && b[i - |a|] in b;
      } else {
        assert r[i] == c[i - |a| - |b|] && c[i - |a| - |b|] in c;
      }
    }
  }

  /** The ordering is a permutation of the planned entries. */
  lemma SortEntriesPermutation(entries: seq<DietEntry>)
    ensures multiset(SortEntries(entries)) == multiset(entries)
  {
    BucketPartition(entries);
  }

  /** The sort is stable: the entries of each key keep the planner's order. */
  lemma SortEntriesStable(entries: seq<DietEntry>, k: nat)
    ensures Bucket(SortEntries(entries), k) == Bucket(entries, k)
  {
    var a, b, c := Bucket(entries, 0), Bucket(entries, 1), Bucket(entries, 2);
    assert SortEntries(entries) == (a + b) + c;
    SortedBucket(entries, a, b, c, k);
  }

  /** The bucket of `k` of the three buckets laid end to end is bucket `k` itself. */
  lemma SortedBucket(entries: seq<DietEntry>, a: seq<DietEntry>, b: seq<DietEntry>, c: seq<DietEntry>, k: nat)
    requires a == Bucket(entries, 0) && b == Bucket(entries, 1) && c == Bucket(entries, 2)
    ensures Bucket((a + b) + c, k) == Bucket(entries, k)
  {
    BucketAppend(a + b, c, k);
    BucketAppend(a, b, k);
    BucketOfBucket(entries, 0, k);
    BucketOfBucket(entries, 1, k);
    BucketOfBucket(entries, 2, k);
    if k == 0 {
      assert a + [] + [] == a;
    } else if k == 1 {
      assert [] + b + [] == b;
    } else if k == 2 {
      assert [] + [] + c == c;
    } else {
      BucketBeyondKeys(entries, k);
      assert [] + [] + [] == Bucket(entries, k);
    }
  }

  const ConsumePrefix := "Consume "

  /** The task a diet entry becomes: its planned quantity, under a name from
      which the target item reads back. */
  function OrganTask(e: DietEntry): (t: Engine.DietTask)
    ensures t.quantity == e.quantity
    ensures |t.name| >= 8 && t.name[..8] == ConsumePrefix && t.name[8..] == e.target.item
  {
    var name := ConsumePrefix + e.target.item;
    assert name[..8] == ConsumePrefix && name[8..] == e.target.item;
    Engine.DietTask(name, e.quantity, "")
  }

  /** Entries with different targets become tasks with different names. */
  lemma OrganTaskNamesApart(e1: DietEntry, e2: DietEntry)
    ensures OrganTask(e1).name == OrganTask(e2).name <==> e1.target.item == e2.target.item
  {
  }

  /** `organTasks()`: the sorted entries, each as a task. */
  function OrganTasks(entries: seq<DietEntry>): (r: seq<Engine.DietTask>)
    ensures |r| == |entries|
    ensures forall i :: 0 <= i < |r| ==> r[i] == OrganTask(SortEntries(entries)[i])
  {
    var sorted := SortEntries(entries);
    seq(|sorted|, i requires 0 <= i < |sorted| => OrganTask(sorted[i]))
  }

  /** An organ task is ready when its planned quantity can still be consumed. */
  function OrganTaskReady(e: DietEntry, st: OrganState): (b: bool)
    ensures b <==> e.quantity > 0 && CleanersFit(e.target, st) && OneUnitFits(e.target, st)
  {
    ConsumeQuantityPositive(e.quantity, e.target, st);
    Positive(ConsumeQuantity(e.quantity, e.target, st))
  }

  /** The price cap the task's step passes on: the entry's gross value scaled
      by the share `consumed / quantity`. */
  function StepPrice(e: DietEntry, consumed: int): (p: real)
    requires e.quantity != 0
    ensures p * e.quantity as real == consumed as real * e.grossValue
  {
    (consumed as real * e.grossValue) / e.quantity as real
  }

  /** The task's step: consume the engine's recorded quantity at the price
      share of the entry's gross value. It fails exactly when some item of the
      group cannot be consumed at all. */
  function OrganTaskStep(e: DietEntry, consumed: int, st: OrganState): (r: Result<Consumed, ConsumeError>)
    requires e.quantity != 0 && |e.menuItems| > 0
    ensures r.Err? <==> exists i :: 0 <= i < |e.menuItems| && !Positive(ConsumeQuantity(consumed, e.menuItems[i], st))
    ensures r.Ok? ==> 0 < r.value.consumed <= consumed
  {
    ConsumeSafe(consumed, StepPrice(e, consumed), e.menuItems, false, st)
  }

  /** Every purchase a successful step makes is capped at the share
      `consumed * gross / quantity` of the entry's gross value, `StepPrice`. */
  lemma OrganTaskStepPrices(e: DietEntry, consumed: int, st: OrganState)
    requires e.quantity != 0 && |e.menuItems| > 0
    ensures var r := OrganTaskStep(e, consumed, st);
      r.Ok? ==> forall a :: a in r.value.actions && a.Acquire? ==> a.maxPrice == StepPrice(e, consumed)
  {
    var r := OrganTaskStep(e, consumed, st);
    if r.Ok? {
      GroupActionsFacts(e.menuItems, r.value.consumed, StepPrice(e, consumed), false);
    }
  }

  /** A successful step buys every item of the group at that cap. */
  lemma OrganTaskStepBuysAll(e: DietEntry, consumed: int, st: OrganState)
    requires e.quantity != 0 && |e.menuItems| > 0
    ensures var r := OrganTaskStep(e, consumed, st);
      r.Ok? ==> forall i :: 0 <= i < |e.menuItems| ==>
        Acquire(r.value.consumed, e.menuItems[i].item, StepPrice(e, consumed)) in r.value.actions
  {
    var r := OrganTaskStep(e, consumed, st);
    if r.Ok? {
      forall i | 0 <= i < |e.menuItems|
        ensures Acquire(r.value.consumed, e.menuItems[i].item, StepPrice(e, consumed)) in r.value.actions
      {
        GroupActionsCover(e.menuItems, r.value.consumed, StepPrice(e, consumed), false, i);
      }
    }
  }

  // ---------------------------------------------------------------------
  // Chocolates

  /** `array.slice(start)` for a non-negative start. */
  function SliceFrom<T>(s: seq<T>, start: nat): (r: seq<T>)
    ensures |r| == if start >= |s| then 0 else |s| - start
    ensures forall i :: 0 <= i < |r| ==> r[i] == s[start + i]
  {
    if start >= |s| then [] else s[start..]
  }

  /** How many of the given per-adventure costs are below the value of an adventure. */
  function CountBelow(values: seq<real>, voa: real): nat {
    |Filter(values, v => v < voa)|
  }

  /** The indices from `start` on whose value is below `voa`. */
  function BelowFrom(values: seq<real>, start: nat, voa: real): set<int> {
    set i | start <= i < |values| && values[i] < voa
  }

  /** Counting below `voa` in `values.slice(start)` counts the indices from
      `start` on whose value is below `voa`. */
  lemma {:induction false} CountFromIsSetSize(values: seq<real>, start: nat, voa: real)
    ensures CountBelow(SliceFrom(values, start), voa) == |BelowFrom(values, start, voa)|
    decreases |values|
  {
    if |values| <= start {
      assert BelowFrom(values, start, voa) == {};
    } else {
      var n := |values| - 1;
      var prefix := values[..n];
      CountFromIsSetSize(prefix, start, voa);
      CountBelowSnoc(values, start, voa);
      BelowFromSnoc(values, start, voa);
    }
  }

  lemma CountBelowSnoc(values: seq<real>, start: nat, voa: real)
    requires start < |values|
    ensures CountBelow(SliceFrom(values, start), voa)
         == CountBelow(SliceFrom(values[..|values| - 1], start), voa) + (if values[|values| - 1] < voa then 1 else 0)
  {
    var n := |values| - 1;
    assert SliceFrom(values, start) == SliceFrom(values[..n], start) + [values[n]];
    FilterAppend(SliceFrom(values[..n], start), [values[n]], v => v < voa);
  }

  lemma BelowFromSnoc(values: seq<real>, start: nat, voa: real)
    requires start < |values|
    ensures |BelowFrom(values, start, voa)|
         == |BelowFrom(values[..|values| - 1], start, voa)| + (if values[|values| - 1] < voa then 1 else 0)
  {
    var n := |values| - 1;
    var pre := BelowFrom(values[..n], start, voa);
    assert BelowFrom(values, start, voa) == pre + (if values[n] < voa then {n} else {});
    assert n !in pre;
  }

  /** The `Fancy Chocolates` task's quantity. `bestValues` holds the best
      chocolate's cost per adventure after 0, 1 and 2 uses. After 3 uses every
      chocolate gives 0 adventures, so the source's fourth value is a division
      by zero (Infinity, or NaN for a free chocolate) that is never below the
      value of an adventure and is never counted; it has no slot here. */
  function ChocolateQuantity(bestValues: seq<real>, used: nat, voa: real): (q: nat)
    requires |bestValues| == 3
    ensures q == |BelowFrom(bestValues, used, voa)|
    ensures q <= 3
    ensures used >= 3 ==> q == 0
  {
    CountFromIsSetSize(bestValues, used, voa);
    CountBelow(SliceFrom(bestValues, used), voa)
  }

  /** A positive number of adventures. */
  type Turns = n: int | n > 0 witness 1

  /** The cost per adventure of each use of a chocolate. */
  function Ratios(price: real, adventures: seq<Turns>): (r: seq<real>)
    ensures |r| == |adventures|
    ensures forall i :: 0 <= i < |r| ==> r[i] == price / adventures[i] as real
  {
    seq(|adventures|, i requires 0 <= i < |adventures| => price / adventures[i] as real)
  }

  /** The uses from `used` on whose price is below the value of their adventures. */
  function CheapUses(price: real, used: nat, adventures: seq<Turns>, voa: real): set<int> {
    set i | used <= i < |adventures| && price < voa * adventures[i] as real
  }

  /** `worth(chocolate, property, adventures, limit)`'s quantity: the uses
      still ahead whose price per adventure is below the value of an
      adventure, capped by `limit` when one is given. */
  function WorthQuantity(price: real, used: nat, adventures: seq<Turns>, limit: Option<nat>, voa: real): (q: nat)
    ensures q <= |CheapUses(price, used, adventures, voa)|
    ensures limit.None? ==> q == |CheapUses(price, used, adventures, voa)|
    ensures limit.Some? ==> q <= limit.value
    ensures limit.Some? ==>
      (q == limit.value || q == |CheapUses(price, used, adventures, voa)|)
  {
    var rest := SliceFrom(adventures, used);
    var count := CountBelow(Ratios(price, rest), voa);
    CheapEnough(price, used, adventures, voa);
    match limit
    case None => count
    case Some(l) => if count <= l then count else l
  }

  lemma CheapEnough(price: real, used: nat, adventures: seq<Turns>, voa: real)
    ensures CountBelow(Ratios(price, SliceFrom(adventures, used)), voa)
         == |CheapUses(price, used, adventures, voa)|
  {
    var full := Ratios(price, adventures);
    assert Ratios(price, SliceFrom(adventures, used)) == SliceFrom(full, used);
    CountFromIsSetSize(full, used, voa);
    CheapIndices(price, used, adventures, voa);
  }

  /** A use is below the value of an adventure exactly when its price is below
      that many adventures' worth. */
  lemma CheapIndices(price: real, used: nat, adventures: seq<Turns>, voa: real)
    ensures BelowFrom(Ratios(price, adventures), used, voa)
         == CheapUses(price, used, adventures, voa)
  {
    var full := Ratios(price, adventures);
    forall i | used <= i < |adventures|
      ensures full[i] < voa <==> price < voa * adventures[i] as real
    {
      DivBelow(price, adventures[i] as real, voa);
    }
  }

  lemma DivBelow(p: real, a: real, v: real)
    requires a > 0.0
    ensures p / a < v <==> p < v * a
  {
    assert p == (p / a) * a;
    if p / a < v {
      assert (p / a) * a < v * a;
    } else {
      assert (p / a) * a >= v * a;
    }
  }

  /** The readings the chocolate tasks take from the game: the day's use
      counters, the LOV chocolates at hand, and the best chocolate's cost per
      adventure after 0, 1 and 2 uses (the choice `bestChocolate` makes is an
      input). */
  datatype ChocolateReadings = ChocolateReadings(
    chocolatesUsed: nat, bestValues: seq<real>,
    sculpturesUsed: nat, vitachocUsed: nat, loveUsed: nat, cigarsUsed: nat,
    lovAvailable: nat)

  const FancyChocolates := "Fancy Chocolates"
  const Sculpture: Item := "fancy chocolate sculpture"
  const Vitachoc: Item := "vitachoconutriment capsule"
  const Cigar: Item := "chocolate cigar"

  /** `worth(chocolate, property, adventures, limit)`: a task named after the chocolate. */
  function WorthTask(chocolate: Item, price: real, used: nat, adventures: seq<Turns>, limit: Option<nat>, voa: real)
    : (t: Engine.DietTask)
    ensures t.name == chocolate
    ensures limit.None? ==> t.quantity == |CheapUses(price, used, adventures, voa)|
    ensures limit.Some? ==> t.quantity <= limit.value && t.quantity <= |CheapUses(price, used, adventures, voa)|
    ensures limit.Some? ==> t.quantity == limit.value || t.quantity == |CheapUses(price, used, adventures, voa)|
  {
    Engine.DietTask(chocolate, WorthQuantity(price, used, adventures, limit, voa), "")
  }

  /** `chocolateTasks()`: the fancy chocolates, then four `worth` tasks —
      sculptures and capsules at 5, 3 and 1 adventures, LOV chocolates at 3,
      2 and 1 capped by the ones at hand, cigars at 3, 2 and 1 — each priced
      by `price`, so the LOV chocolate at 20000. */
  function ChocolateTasks(rd: ChocolateReadings, recipes: Item -> Recipe, voa: real): (r: seq<Engine.DietTask>)
    requires |rd.bestValues| == 3
    requires forall c :: recipes(c).item == c
    ensures |r| == 5
    ensures r[0].name == FancyChocolates && r[0].quantity == |BelowFrom(rd.bestValues, rd.chocolatesUsed, voa)|
    ensures r[1].name == Sculpture
      && r[1].quantity == |CheapUses(recipes(Sculpture).mallPrice, rd.sculpturesUsed, [5, 3, 1], voa)|
    ensures r[2].name == Vitachoc
      && r[2].quantity == |CheapUses(recipes(Vitachoc).mallPrice, rd.vitachocUsed, [5, 3, 1], voa)|
    ensures r[3].name == LovChocolate && r[3].quantity <= rd.lovAvailable
      && r[3].quantity <= |CheapUses(20000.0, rd.loveUsed, [3, 2, 1], voa)|
      && (r[3].quantity == rd.lovAvailable || r[3].quantity == |CheapUses(20000.0, rd.loveUsed, [3, 2, 1], voa)|)
    ensures r[4].name == Cigar
      && r[4].quantity == |CheapUses(recipes(Cigar).mallPrice, rd.cigarsUsed, [3, 2, 1], voa)|
  {
    MallPricedChocolates(recipes);
    var fancy := Engine.DietTask(FancyChocolates, ChocolateQuantity(rd.bestValues, rd.chocolatesUsed, voa), "");
    var sculptures := WorthTask(Sculpture, Price(recipes(Sculpture)), rd.sculpturesUsed, [5, 3, 1], None, voa);
    var capsules := WorthTask(Vitachoc, Price(recipes(Vitachoc)), rd.vitachocUsed, [5, 3, 1], None, voa);
    var love := WorthTask(LovChocolate, Price(recipes(LovChocolate)), rd.loveUsed, [3, 2, 1], Some(rd.lovAvailable), voa);
    var cigars := WorthTask(Cigar, Price(recipes(Cigar)), rd.cigarsUsed, [3, 2, 1], None, voa);
    [fancy, sculptures, capsules, love, cigars]
  }

  /** The sculpture, the capsule and the cigar have no price override. */
  lemma MallPricedChocolates(recipes: Item -> Recipe)
    requires forall c :: recipes(c).item == c
    ensures Price(recipes(Sculpture)) == recipes(Sculpture).mallPrice
    ensures Price(recipes(Vitachoc)) == recipes(Vitachoc).mallPrice
    ensures Price(recipes(Cigar)) == recipes(Cigar).mallPrice
    ensures Price(recipes(LovChocolate)) == 20000.0
  {
    var s, v, c, l := recipes(Sculpture), recipes(Vitachoc), recipes(Cigar), recipes(LovChocolate);
    assert s.item == Sculpture && v.item == Vitachoc && c.item == Cigar && l.item == LovChocolate;
  }

  /** A name whose first letter is `C`, the first letter of "Consume ". */
  predicate OrganTaskName(name: string) {
    |name| > 0 && name[0] == 'C'
  }

  /** Every organ task's name starts with `C`, since it starts with "Consume ". */
  lemma OrganTaskNames(entries: seq<DietEntry>)
    ensures forall i :: 0 <= i < |entries| ==> OrganTaskName(OrganTasks(entries)[i].name)
  {
    var organ := OrganTasks(entries);
    forall i | 0 <= i < |entries|
      ensures OrganTaskName(organ[i].name)
    {
      var name := organ[i].name;
      assert name[..8] == ConsumePrefix;
      assert name[0] == ConsumePrefix[0];
    }
  }

  lemma ChocolateConstantsNotOrgan()
    ensures !OrganTaskName(FancyChocolates) && !OrganTaskName(Sculpture) && !OrganTaskName(Vitachoc)
    ensures !OrganTaskName(LovChocolate) && !OrganTaskName(Cigar)
  {
  }

  /** No chocolate task's name starts like an organ task's. */
  lemma ChocolateNamesNotOrgan(rd: ChocolateReadings, recipes: Item -> Recipe, voa: real)
    requires |rd.bestValues| == 3
    requires forall c :: recipes(c).item == c
    ensures forall j :: 0 <= j < 5 ==> !OrganTaskName(ChocolateTasks(rd, recipes, voa)[j].name)
  {
    var choc := ChocolateTasks(rd, recipes, voa);
    ChocolateConstantsNotOrgan();
    forall j | 0 <= j < 5
      ensures !OrganTaskName(choc[j].name)
    {
      if j == 0 {} else if j == 1 {} else if j == 2 {} else if j == 3 {} else {}
    }
  }

  /** The chocolate tasks never share a name with an organ task: those all
      start with "Consume ". */
  lemma ChocolateNamesApart(entries: seq<DietEntry>, rd: ChocolateReadings, recipes: Item -> Recipe, voa: real)
    requires |rd.bestValues| == 3
    requires forall c :: recipes(c).item == c
    ensures forall i, j :: 0 <= i < |entries| && 0 <= j < 5 ==>
      OrganTasks(entries)[i].name != ChocolateTasks(rd, recipes, voa)[j].name
  {
    OrganTaskNames(entries);
    ChocolateNamesNotOrgan(rd, recipes, voa);
  }

  /** `diet()`'s filter: only tasks with a positive quantity, in order. */
  function KeepPositive(tasks: seq<Engine.DietTask>): (r: seq<Engine.DietTask>)
    ensures forall t :: t in r ==> t in tasks && t.quantity > 0
    ensures forall t :: t in tasks && t.quantity > 0 ==> t in r
  {
    Filter(tasks, (t: Engine.DietTask) => t.quantity > 0)
  }

  /** `diet()`: the organ tasks, then the chocolate tasks, without the empty
      ones; each group keeps its order. */
  function DietTasks(entries: seq<DietEntry>, rd: ChocolateReadings, recipes: Item -> Recipe, voa: real)
    : (r: seq<Engine.DietTask>)
    requires |rd.bestValues| == 3
    requires forall c :: recipes(c).item == c
    ensures r == KeepPositive(OrganTasks(entries)) + KeepPositive(ChocolateTasks(rd, recipes, voa))
    ensures forall i :: 0 <= i < |r| ==> r[i].quantity > 0
  {
    var organ, choc := OrganTasks(entries), ChocolateTasks(rd, recipes, voa);
    FilterAppend(organ, choc, (t: Engine.DietTask) => t.quantity > 0);
    KeepPositive(organ + choc)
  }

  /** Every task of the diet has a positive quantity, so the engine's guard as
      written never lets a fresh run execute any of them. */
  lemma DietNeverRunsAsWritten(entries: seq<DietEntry>, rd: ChocolateReadings, recipes: Item -> Recipe, voa: real,
                               ready: Engine.Ready, fuel: nat)
    requires |rd.bestValues| == 3
    requires forall c :: recipes(c).item == c
    ensures Engine.RunAsWritten(DietTasks(entries, rd, recipes, voa), ready, Engine.RunState(map[], []), fuel)
         == Engine.RunState(map[], [])
  {
    Engine.AsWrittenRunsNothing(DietTasks(entries, rd, recipes, voa), ready, fuel);
  }

  /** No two planned entries are for the same item. */
  predicate DistinctTargets(entries: seq<DietEntry>) {
    forall i, j :: 0 <= i < j < |entries| ==> entries[i].target.item != entries[j].target.item
  }

  /** Two different entries of a list with distinct targets have different targets. */
  lemma EntriesApart(entries: seq<DietEntry>, x: DietEntry, y: DietEntry)
    requires DistinctTargets(entries) && x in entries && y in entries && x != y
    ensures x.target.item != y.target.item
  {
    var p :| 0 <= p < |entries| && entries[p] == x;
    var q :| 0 <= q < |entries| && entries[q] == y;
    assert p != q;
  }

  /** A bucket keeps the targets apart. */
  lemma {:induction false} BucketDistinct(s: seq<DietEntry>, k: nat)
    requires DistinctTargets(s)
    ensures DistinctTargets(Bucket(s, k))
    decreases |s|
  {
    if |s| > 0 {
      var prefix, last := s[..|s| - 1], s[|s| - 1];
      assert forall i :: 0 <= i < |prefix| ==> prefix[i] == s[i];
      BucketDistinct(prefix, k);
      var b := Bucket(prefix, k);
      forall x | x in b
        ensures x.target.item != last.target.item
      {
        var p :| 0 <= p < |prefix| && prefix[p] == x;
      }
      var r := Bucket(s, k);
      assert r == b + (if EntryKey(last) == k then [last] else []);
      forall i, j | 0 <= i < j < |r|
        ensures r[i].target.item != r[j].target.item
      {
        if j >= |b| {
          assert r[i] == b[i] && r[i] in b;
        }
      }
    }
  }

  /** Two lists with distinct targets, and no target shared between them,
      make a list with distinct targets. */
  lemma ConcatDistinct(a: seq<DietEntry>, b: seq<DietEntry>)
    requires DistinctTargets(a) && DistinctTargets(b)
    requires forall x, y :: x in a && y in b ==> x.target.item != y.target.item
    ensures DistinctTargets(a + b)
  {
    var r := a + b;
    forall i, j | 0 <= i < j < |r|
      ensures r[i].target.item != r[j].target.item
    {
      if i < |a| && j >= |a| {
        assert r[i] == a[i] && r[i] in a;
        assert r[j] == b[j - |a|] && r[j] in b;
      } else if j < |a| {
        assert r[i] == a[i] && r[j] == a[j];
      } else {
        assert r[i] == b[i - |a|] && r[j] == b[j - |a|];
      }
    }
  }

  /** Entries of two different buckets have different targets. */
  lemma BucketsApart(entries: seq<DietEntry>, k1: nat, k2: nat)
    requires DistinctTargets(entries) && k1 != k2
    ensures forall x, y :: x in Bucket(entries, k1) && y in Bucket(entries, k2) ==> x.target.item != y.target.item
  {
    forall x, y | x in Bucket(entries, k1) && y in Bucket(entries, k2)
      ensures x.target.item != y.target.item
    {
      EntriesApart(entries, x, y);
    }
  }

  /** Sorting keeps the targets apart. */
  lemma SortedDistinct(entries: seq<DietEntry>)
    requires DistinctTargets(entries)
    ensures DistinctTargets(SortEntries(entries))
  {
    var a, b, c := Bucket(entries, 0), Bucket(entries, 1), Bucket(entries, 2);
    BucketDistinct(entries, 0);
    BucketDistinct(entries, 1);
    BucketDistinct(entries, 2);
    BucketsApart(entries, 0, 1);
    BucketsApart(entries, 0, 2);
    BucketsApart(entries, 1, 2);
    ConcatDistinct(a, b);
    assert forall x :: x in a + b ==> x in a || x in b;
    ConcatDistinct(a + b, c);
    assert SortEntries(entries) == a + b + c;
  }

  /** Entries with distinct targets become tasks with distinct names. */
  lemma OrganTasksDistinct(entries: seq<DietEntry>)
    requires DistinctTargets(entries)
    ensures Engine.DistinctNames(OrganTasks(entries))
  {
    SortedDistinct(entries);
    var sorted := SortEntries(entries);
    forall i, j | 0 <= i < j < |entries|
      ensures OrganTasks(entries)[i].name != OrganTasks(entries)[j].name
    {
      OrganTaskNamesApart(sorted[i], sorted[j]);
    }
  }

  /** Keeping some tasks keeps their names apart. */
  lemma {:induction false} FilterDistinct(s: seq<Engine.DietTask>, p: Engine.DietTask -> bool)
    requires Engine.DistinctNames(s)
    ensures Engine.DistinctNames(Filter(s, p))
    decreases |s|
  {
    if |s| > 0 {
      var prefix, last := s[..|s| - 1], s[|s| - 1];
      assert forall i :: 0 <= i < |prefix| ==> prefix[i] == s[i];
      FilterDistinct(prefix, p);
      var f := Filter(prefix, p);
      forall x | x in f
        ensures x.name != last.name
      {
        var q :| 0 <= q < |prefix| && prefix[q] == x;
      }
      var r := Filter(s, p);
      assert r == f + (if p(last) then [last] else []);
      forall i, j | 0 <= i < j < |r|
        ensures r[i].name != r[j].name
      {
        if j >= |f| {
          assert r[i] == f[i] && r[i] in f;
        }
      }
    }
  }

  /** The names of the five chocolate tasks, in order. */
  const ChocolateNames: seq<string> := [FancyChocolates, Sculpture, Vitachoc, LovChocolate, Cigar]

  lemma ChocolateNamesDiffer()
    ensures forall i, j :: 0 <= i < j < 5 ==> ChocolateNames[i] != ChocolateNames[j]
  {
    assert |FancyChocolates| == 16 && |Sculpture| == 25 && |Vitachoc| == 26;
    assert |LovChocolate| == 30 && |Cigar| == 15;
  }

  /** The five chocolate tasks have five different names. */
  lemma ChocolateTasksDistinct(rd: ChocolateReadings, recipes: Item -> Recipe, voa: real)
    requires |rd.bestValues| == 3
    requires forall c :: recipes(c).item == c
    ensures Engine.DistinctNames(ChocolateTasks(rd, recipes, voa))
  {
    var choc := ChocolateTasks(rd, recipes, voa);
    ChocolateNamesDiffer();
    forall i, j | 0 <= i < j < |choc|
      ensures choc[i].name != choc[j].name
    {
      ChocolateTaskName(rd, recipes, voa, i);
      ChocolateTaskName(rd, recipes, voa, j);
    }
  }

  lemma ChocolateTaskName(rd: ChocolateReadings, recipes: Item -> Recipe, voa: real, j: int)
    requires |rd.bestValues| == 3
    requires forall c :: recipes(c).item == c
    requires 0 <= j < 5
    ensures ChocolateTasks(rd, recipes, voa)[j].name == ChocolateNames[j]
  {
    var choc := ChocolateTasks(rd, recipes, voa);
    if j == 0 {} else if j == 1 {} else if j == 2 {} else if j == 3 {} else {}
  }

  /** Two lists of distinctly named tasks, with no name in both, each
      filtered to its positive tasks and laid end to end, are distinctly named. */
  lemma KeptDistinct(a: seq<Engine.DietTask>, b: seq<Engine.DietTask>)
    requires Engine.DistinctNames(a) && Engine.DistinctNames(b)
    requires forall i, j :: 0 <= i < |a| && 0 <= j < |b| ==> a[i].name != b[j].name
    ensures Engine.DistinctNames(KeepPositive(a) + KeepPositive(b))
  {
    var ka, kb := KeepPositive(a), KeepPositive(b);
    FilterDistinct(a, (t: Engine.DietTask) => t.quantity > 0);
    FilterDistinct(b, (t: Engine.DietTask) => t.quantity > 0);
    var r := ka + kb;
    forall i, j | 0 <= i < j < |r|
      ensures r[i].name != r[j].name
    {
      if i < |ka| && j >= |ka| {
        assert r[i] == ka[i] && r[i] in ka;
        assert r[j] == kb[j - |ka|] && r[j] in kb;
        var p :| 0 <= p < |a| && a[p] == r[i];
        var q :| 0 <= q < |b| && b[q] == r[j];
      } else if j < |ka| {
        assert r[i] == ka[i] && r[j] == ka[j];
      } else {
        assert r[i] == kb[i - |ka|] && r[j] == kb[j - |ka|];
      }
    }
  }

  /** With one entry per item, every task of the diet has its own name, so
      each has its own counter in the engine. */
  lemma DietNamesDistinct(entries: seq<DietEntry>, rd: ChocolateReadings, recipes: Item -> Recipe, voa: real)
    requires |rd.bestValues| == 3
    requires forall c :: recipes(c).item == c
    requires DistinctTargets(entries)
    ensures Engine.DistinctNames(DietTasks(entries, rd, recipes, voa))
  {
    var organ, choc := OrganTasks(entries), ChocolateTasks(rd, recipes, voa);
    OrganTasksDistinct(entries);
    ChocolateTasksDistinct(rd, recipes, voa);
    ChocolateNamesApart(entries, rd, recipes, voa);
    KeptDistinct(organ, choc);
  }

  /** The diet run on the engine with the intended guard, for a plan with one
      entry per item. Readiness is the library's test in the game state the
      executions so far have left, so a task may stop being ready partway
      through. The run is complete (every execution was of the first task then
      available, none is available at the end, and the log names one task per
      execution), and since every diet task has a positive quantity, each
      task runs at most its quantity of times, and exactly that many unless it
      is no longer ready at the end. */
  method RunDietCorrected(entries: seq<DietEntry>, rd: ChocolateReadings, recipes: Item -> Recipe, voa: real,
                          ready: Engine.Ready)
    returns (counts: Engine.Counts, log: seq<string>)
    requires |rd.bestValues| == 3
    requires forall c :: recipes(c).item == c
    requires DistinctTargets(entries)
    ensures Engine.CompleteRun(DietTasks(entries, rd, recipes, voa), ready, counts, log)
    ensures var tasks := DietTasks(entries, rd, recipes, voa);
      forall i :: 0 <= i < |tasks| ==>
        Engine.Count(counts, tasks[i].name) <= tasks[i].quantity
        && (Engine.Count(counts, tasks[i].name) == tasks[i].quantity || !ready(tasks[i], log))
  {
    var tasks := DietTasks(entries, rd, recipes, voa);
    DietNamesDistinct(entries, rd, recipes, voa);
    counts, log := Engine.RunCorrected(tasks, ready);
    Engine.PositiveRunQuantities(tasks, ready, counts, log);
  }
}

=== FILE: engine.dfy ===
/** The diet task engine: a per-name counter map on top of the task runner of
    the engine library. The library's own availability test (ready, not
    completed, ...) is the parameter `ready`; its execution step is opaque and
    only the counter bookkeeping is modelled. */
module Engine {
  import opened Outcomes
  import opened Seqs

  /** A diet task as the engine sees it: a name, a target quantity and the
      detail text printed in simulation mode. */
  datatype DietTask = DietTask(name: string, quantity: int, detail: string)

  /** `taskQuantity`: how often each task name has been executed. */
  type Counts = map<string, int>

  /** `taskQuantity.get(name) ?? 0`. */
  function Count(counts: Counts, name: string): (c: int)
    ensures name !in counts ==> c == 0
    ensures name in counts ==> c == counts[name]
  {
    if name in counts then counts[name] else 0
  }

  /** `available(task)` as written: the count must EXCEED the target quantity,
      and the library's availability must hold. So a task with a non-negative
      target is available only after it has already run at least once. */
  function Available(counts: Counts, task: DietTask, ready: bool): (b: bool)
    ensures b ==> ready
    ensures b ==> Count(counts, task.name) > task.quantity
    ensures b && task.quantity >= 0 ==> Count(counts, task.name) > 0
    ensures ready && Count(counts, task.name) > task.quantity ==> b
  {
    Count(counts, task.name) > task.quantity && ready
  }

  /** `execute(task)`: after the library's step, the task name's counter goes up by one. */
  function Execute(counts: Counts, task: DietTask): (r: Counts)
    ensures Count(r, task.name) == Count(counts, task.name) + 1
    ensures forall n :: n != task.name ==> Count(r, n) == Count(counts, n)
    ensures forall n :: Count(counts, n) <= Count(r, n)
    ensures r.Keys == counts.Keys + {task.name}
  {
    counts[task.name := Count(counts, task.name) + 1]
  }

  /** The counters are keyed by name: tasks that share a name share a counter. */
  lemma SharedCounter(counts: Counts, t1: DietTask, t2: DietTask)
    requires t1.name == t2.name
    ensures Count(Execute(counts, t1), t2.name) == Count(counts, t2.name) + 1
    ensures Execute(counts, t1) == Execute(counts, t2)
  {
  }

  /** With the guard as written, a task stays available once it is: executing
      it only raises its count further above its quantity. */
  lemma AvailableStaysAvailable(counts: Counts, task: DietTask)
    requires Available(counts, task, true)
    ensures Available(Execute(counts, task), task, true)
  {
  }

  /** A fresh engine makes no task with a non-negative target available. */
  lemma FreshEngineNothingAvailable(task: DietTask, ready: bool)
    requires task.quantity >= 0
    ensures !Available(map[], task, ready)
  {
  }

  // ---------------------------------------------------------------------
  // The run loop of the engine library: execute the first available task
  // until none is available.

  datatype RunState = RunState(counts: Counts, log: seq<string>)

  /** The library's availability test of a task (its `ready`, not completed,
      ...) in the game state left by the executions so far. The execution log
      stands for that state, so readiness may change as the run goes on: an
      organ task stops being ready once its organ is full. */
  type Ready = (DietTask, seq<string>) -> bool

  /** The library's run loop over the as-written guard, observed for at most
      `fuel` steps (with the guard as written a task, once available, stays
      available as long as it is ready, so the loop need not end). The log
      only grows, by at most one name per step. */
  function RunAsWritten(tasks: seq<DietTask>, ready: Ready, st: RunState, fuel: nat): (r: RunState)
    ensures |st.log| <= |r.log| <= |st.log| + fuel
    ensures r.log[..|st.log|] == st.log
    decreases fuel
  {
    if fuel == 0 then st
    else
      match FindFirst(tasks, t => Available(st.counts, t, ready(t, st.log)))
      case None => st
      case Some(k) =>
        var next := RunState(Execute(st.counts, tasks[k]), st.log + [tasks[k].name]);
        var r := RunAsWritten(tasks, ready, next, fuel - 1);
        assert r.log[..|st.log|] == next.log[..|next.log|][..|st.log|];
        r
  }

  /** Started fresh, the engine as written executes nothing at all when every
      task has a non-negative target — and the diet only hands it tasks with
      a positive target. */
  lemma AsWrittenRunsNothing(tasks: seq<DietTask>, ready: Ready, fuel: nat)
    requires forall i :: 0 <= i < |tasks| ==> tasks[i].quantity >= 0
    ensures RunAsWritten(tasks, ready, RunState(map[], []), fuel) == RunState(map[], [])
  {
    if fuel > 0 {
      forall i | 0 <= i < |tasks|
        ensures !Available(map[], tasks[i], ready(tasks[i], []))
      {
        FreshEngineNothingAvailable(tasks[i], ready(tasks[i], []));
      }
      assert FindFirst(tasks, t => Available(map[], t, ready(t, []))).None?;
    }
  }

  /** A concrete instance: a one-task diet with target 1 never starts. */
  lemma AsWrittenNeverStartsExample()
    ensures RunAsWritten([DietTask("Consume Calzone of Legend", 1, "")], (t, h) => true, RunState(map[], []), 10).log == []
  {
    AsWrittenRunsNothing([DietTask("Consume Calzone of Legend", 1, "")], (t, h) => true, 10);
  }

  // ---------------------------------------------------------------------
  // The evidently intended guard: count BELOW the target quantity.

  predicate AvailableCorrected(counts: Counts, task: DietTask, ready: bool) {
    Count(counts, task.name) < task.quantity && ready
  }

  predicate DistinctNames(tasks: seq<DietTask>) {
    forall i, j :: 0 <= i < j < |tasks| ==> tasks[i].name != tasks[j].name
  }

  /** How often the intended guard lets a task run at most: its quantity, or
      never for a quantity that is not positive. */
  function Goal(task: DietTask): nat {
    if task.quantity > 0 then task.quantity else 0
  }

  /** Executions still allowed, summed over the tasks. */
  function Remaining(tasks: seq<DietTask>, counts: Counts): int
    decreases |tasks|
  {
    if |tasks| == 0 then 0
    else
      var t := tasks[|tasks| - 1];
      Remaining(tasks[..|tasks| - 1], counts) + (Goal(t) - Count(counts, t.name))
  }

  lemma {:induction false} RemainingNonNegative(tasks: seq<DietTask>, counts: Counts)
    requires forall i :: 0 <= i < |tasks| ==> Count(counts, tasks[i].name) <= Goal(tasks[i])
    ensures Remaining(tasks, counts) >= 0
    decreases |tasks|
  {
    if |tasks| > 0 {
      var prefix := tasks[..|tasks| - 1];
      assert forall i :: 0 <= i < |prefix| ==> prefix[i] == tasks[i];
      RemainingNonNegative(prefix, counts);
    }
  }

  /** How many tasks of the list carry the name. */
  function Occurrences(tasks: seq<DietTask>, name: string): nat
    decreases |tasks|
  {
    if |tasks| == 0 then 0
    else Occurrences(tasks[..|tasks| - 1], name) + (if tasks[|tasks| - 1].name == name then 1 else 0)
  }

  /** Executing a task lowers the sum by one for every task sharing its name. */
  lemma {:induction false} RemainingAfterExecute(tasks: seq<DietTask>, counts: Counts, name: string)
    ensures Remaining(tasks, counts[name := Count(counts, name) + 1])
         == Remaining(tasks, counts) - Occurrences(tasks, name)
    decreases |tasks|
  {
    if |tasks| > 0 {
      RemainingAfterExecute(tasks[..|tasks| - 1], counts, name);
    }
  }

  /** With distinct names every task's name occurs exactly once. */
  lemma {:induction false} DistinctNameOnce(tasks: seq<DietTask>, k: nat)
    requires DistinctNames(tasks) && k < |tasks|
    ensures Occurrences(tasks, tasks[k].name) == 1
    decreases |tasks|
  {
    var n := |tasks| - 1;
    var prefix := tasks[..n];
    assert forall i :: 0 <= i < n ==> prefix[i] == tasks[i];
    if k < n {
      assert tasks[n].name != tasks[k].name;
      DistinctNameOnce(prefix, k);
    } else {
      NameAbsent(prefix, tasks[k].name);
    }
  }

  lemma {:induction false} NameAbsent(tasks: seq<DietTask>, name: string)
    requires forall i :: 0 <= i < |tasks| ==> tasks[i].name != name
    ensures Occurrences(tasks, name) == 0
    decreases |tasks|
  {
    if |tasks| > 0 {
      var prefix := tasks[..|tasks| - 1];
      assert forall i :: 0 <= i < |prefix| ==> prefix[i] == tasks[i];
      NameAbsent(prefix, name);
    }
  }

  /** The counters stay between zero and the goal. */
  predicate WithinGoals(tasks: seq<DietTask>, counts: Counts) {
    forall i :: 0 <= i < |tasks| ==> 0 <= Count(counts, tasks[i].name) <= Goal(tasks[i])
  }

  /** One step of the intended loop on an available task keeps the counters
      within their goals and lowers the executions still allowed by one. */
  lemma StepKeepsGoals(tasks: seq<DietTask>, counts: Counts, k: nat, ready: bool)
    requires DistinctNames(tasks) && k < |tasks| && WithinGoals(tasks, counts)
    requires AvailableCorrected(counts, tasks[k], ready)
    ensures WithinGoals(tasks, Execute(counts, tasks[k]))
    ensures Remaining(tasks, Execute(counts, tasks[k])) == Remaining(tasks, counts) - 1
  {
    DistinctNameOnce(tasks, k);
    RemainingAfterExecute(tasks, counts, tasks[k].name);
    forall i | 0 <= i < |tasks| && i != k
      ensures tasks[i].name != tasks[k].name
    {
      if i < k { assert tasks[i].name != tasks[k].name; }
    }
  }

  /** The log records one name per execution. */
  lemma LogStep(log: seq<string>, counts: Counts, task: DietTask)
    requires forall n :: multiset(log)[n] == Count(counts, n)
    ensures forall n :: multiset(log + [task.name])[n] == Count(Execute(counts, task), n)
  {
    assert multiset(log + [task.name]) == multiset(log) + multiset{task.name};
  }

  /** A task may run after the history `hist` under the intended guard: it
      has run fewer times than its quantity and the library finds it ready. */
  predicate AvailableAfter(task: DietTask, ready: Ready, hist: seq<string>) {
    multiset(hist)[task.name] < task.quantity && ready(task, hist)
  }

  /** Task `k` is the one the loop picks after `hist`: the first available one. */
  predicate ChosenAfter(tasks: seq<DietTask>, ready: Ready, hist: seq<string>, k: int) {
    0 <= k < |tasks| && AvailableAfter(tasks[k], ready, hist)
    && forall j :: 0 <= j < k ==> !AvailableAfter(tasks[j], ready, hist)
  }

  /** Every entry of the log is the name of the task the loop picks at that point. */
  predicate FollowsLoop(tasks: seq<DietTask>, ready: Ready, log: seq<string>) {
    forall p :: 0 <= p < |log| ==>
      exists k :: 0 <= k < |tasks| && ChosenAfter(tasks, ready, log[..p], k) && tasks[k].name == log[p]
  }

  lemma FollowsStep(tasks: seq<DietTask>, ready: Ready, log: seq<string>, k: int)
    requires FollowsLoop(tasks, ready, log) && ChosenAfter(tasks, ready, log, k)
    ensures FollowsLoop(tasks, ready, log + [tasks[k].name])
  {
    var log' := log + [tasks[k].name];
    forall p | 0 <= p < |log'|
      ensures exists k' :: 0 <= k' < |tasks| && ChosenAfter(tasks, ready, log'[..p], k') && tasks[k'].name == log'[p]
    {
      if p < |log| {
        assert log'[..p] == log[..p] && log'[p] == log[p];
      } else {
        assert log'[..p] == log;
      }
    }
  }

  /** The loop's test on the counters is the guard on the history they count. */
  lemma AvailableAgrees(counts: Counts, log: seq<string>, ready: Ready, t: DietTask)
    requires forall n :: multiset(log)[n] == Count(counts, n)
    ensures AvailableCorrected(counts, t, ready(t, log)) <==> AvailableAfter(t, ready, log)
  {
    assert multiset(log)[t.name] == Count(counts, t.name);
  }

  /** The first task passing the counter test is the one the loop picks. */
  lemma PickIsChosen(tasks: seq<DietTask>, counts: Counts, log: seq<string>, ready: Ready, k: nat)
    requires forall n :: multiset(log)[n] == Count(counts, n)
    requires k < |tasks| && AvailableCorrected(counts, tasks[k], ready(tasks[k], log))
    requires forall j :: 0 <= j < k ==> !AvailableCorrected(counts, tasks[j], ready(tasks[j], log))
    ensures ChosenAfter(tasks, ready, log, k)
  {
    AvailableAgrees(counts, log, ready, tasks[k]);
    forall j | 0 <= j < k
      ensures !AvailableAfter(tasks[j], ready, log)
    {
      AvailableAgrees(counts, log, ready, tasks[j]);
    }
  }

  /** When the loop stops, every task has used up its goal or is not ready,
      and none is available. */
  lemma DoneAtGoals(tasks: seq<DietTask>, counts: Counts, ready: Ready, log: seq<string>)
    requires WithinGoals(tasks, counts)
    requires forall n :: multiset(log)[n] == Count(counts, n)
    requires forall i :: 0 <= i < |tasks| ==> !AvailableCorrected(counts, tasks[i], ready(tasks[i], log))
    ensures forall i :: 0 <= i < |tasks| ==>
      Count(counts, tasks[i].name) == Goal(tasks[i]) || !ready(tasks[i], log)
    ensures forall i :: 0 <= i < |tasks| ==> !AvailableAfter(tasks[i], ready, log)
  {
    forall i | 0 <= i < |tasks|
      ensures !AvailableAfter(tasks[i], ready, log)
    {
      AvailableAgrees(counts, log, ready, tasks[i]);
    }
  }

  /** Everything a finished run with the intended guard promises: within the
      goals, each goal reached or its task not ready, no task available, the
      first-available order, and a log that agrees with the counters. */
  ghost predicate CompleteRun(tasks: seq<DietTask>, ready: Ready, counts: Counts, log: seq<string>) {
    (forall i :: 0 <= i < |tasks| ==> Count(counts, tasks[i].name) <= Goal(tasks[i]))
    && (forall i :: 0 <= i < |tasks| ==> Count(counts, tasks[i].name) == Goal(tasks[i]) || !ready(tasks[i], log))
    && (forall i :: 0 <= i < |tasks| ==> !AvailableAfter(tasks[i], ready, log))
    && FollowsLoop(tasks, ready, log)
    && (forall n :: multiset(log)[n] == Count(counts, n))
  }

  /** For tasks of positive quantity the goal is the quantity itself. */
  lemma PositiveRunQuantities(tasks: seq<DietTask>, ready: Ready, counts: Counts, log: seq<string>)
    requires forall i :: 0 <= i < |tasks| ==> tasks[i].quantity > 0
    requires CompleteRun(tasks, ready, counts, log)
    ensures forall i :: 0 <= i < |tasks| ==>
      Count(counts, tasks[i].name) <= tasks[i].quantity
      && (Count(counts, tasks[i].name) == tasks[i].quantity || !ready(tasks[i], log))
  {
  }

  /** The run loop with the intended guard, readiness read afresh before
      every pick. It ends; no task has run more often than its quantity; at
      the end every task has run its quantity of times or is no longer ready,
      so none is available; every execution was of the first task available
      at that point; and the log agrees with the counters. */
  method RunCorrected(tasks: seq<DietTask>, ready: Ready) returns (counts: Counts, log: seq<string>)
    requires DistinctNames(tasks)
    ensures forall i :: 0 <= i < |tasks| ==> Count(counts, tasks[i].name) <= Goal(tasks[i])
    ensures forall i :: 0 <= i < |tasks| ==>
      Count(counts, tasks[i].name) == Goal(tasks[i]) || !ready(tasks[i], log)
    ensures forall i :: 0 <= i < |tasks| ==> !AvailableAfter(tasks[i], ready, log)
    ensures FollowsLoop(tasks, ready, log)
    ensures forall n :: multiset(log)[n] == Count(counts, n)
    ensures CompleteRun(tasks, ready, counts, log)
  {
    counts := map[];
    log := [];
    while true
      invariant WithinGoals(tasks, counts)
      invariant forall n :: multiset(log)[n] == Count(counts, n)
      invariant FollowsLoop(tasks, ready, log)
      decreases Remaining(tasks, counts)
    {
      RemainingNonNegative(tasks, counts);
      var next := FindFirst(tasks, t => AvailableCorrected(counts, t, ready(t, log)));
      if next.None? {
        DoneAtGoals(tasks, counts, ready, log);
        break;
      }
      var k := next.value;
      PickIsChosen(tasks, counts, log, ready, k);
      StepKeepsGoals(tasks, counts, k, ready(tasks[k], log));
      LogStep(log, counts, tasks[k]);
      FollowsStep(tasks, ready, log, k);
      counts := Execute(counts, tasks[k]);
      log := log + [tasks[k].name];
    }
  }

  /** A task that is never ready never runs: the loop only picks available tasks. */
  lemma NeverReadyNeverRuns(tasks: seq<DietTask>, ready: Ready, log: seq<string>, i: int)
    requires DistinctNames(tasks) && FollowsLoop(tasks, ready, log) && 0 <= i < |tasks|
    requires forall h :: !ready(tasks[i], h)
    ensures tasks[i].name !in log
  {
    forall p | 0 <= p < |log|
      ensures log[p] != tasks[i].name
    {
      var k :| 0 <= k < |tasks| && ChosenAfter(tasks, ready, log[..p], k) && tasks[k].name == log[p];
      assert k != i by { assert ready(tasks[k], log[..p]); }
      if k < i {
        assert tasks[k].name != tasks[i].name;
      } else {
        assert tasks[i].name != tasks[k].name;
      }
    }
  }
}

=== FILE: game.dfy ===
/** The game's entities as the script handles them: each is known by its name. */
module Game {
  type Item = string
  type Location = string
  type Monster = string
  type Familiar = string
  type Coinmaster = string
}

=== FILE: guzzlr.dfy ===
/** The Guzzlr wanderer factory: the daily free-craft count, the decision to
    abandon a quest, the tier to accept, the per-turn value of a delivery and
    the single target the factory offers. Game state arrives as parameters;
    the libram Guzzlr helpers are not part of this model. */
module Guzzlr {
  import opened Outcomes
  import opened Game
  import opened WandererTypes

  // ---------------------------------------------------------------------
  // Free crafts

  /** `freeCrafts()`: the uses left today of Rapid Prototyping and of Expert
      Corner-Cutter, each counting only when the skill is known. With the
      daily counters in their range (0 to 5 uses each), the count is between
      0 and 10, and it is positive exactly when a known skill has a use left. */
  function FreeCrafts(haveRapid: bool, rapidUsed: int, haveExpert: bool, expertUsed: int): (r: int)
    ensures !haveRapid && !haveExpert ==> r == 0
    ensures 0 <= rapidUsed <= 5 && 0 <= expertUsed <= 5 ==>
      0 <= r <= 10 && (r > 0 <==> (haveRapid && rapidUsed < 5) || (haveExpert && expertUsed < 5))
  {
    (if haveRapid then 5 - rapidUsed else 0) + (if haveExpert then 5 - expertUsed else 0)
  }

  // ---------------------------------------------------------------------
  // Remaining turns

  /** A JavaScript number as `Math.ceil` of an integer quotient can produce it:
      an integer, or the values a division by zero gives. */
  datatype Turns = Finite(n: int) | PosInfinity | NegInfinity | NotANumber

  /** `Math.ceil(a / b)` for integers, with the IEEE results of a zero divisor. */
  function CeilDiv(a: int, b: int): (r: Turns)
    ensures b > 0 ==> r.Finite? && (r.n - 1) * b < a <= r.n * b
    ensures b < 0 ==> r.Finite? && r.n * b <= a < (r.n - 1) * b
    ensures b == 0 ==> r == (if a > 0 then PosInfinity else if a < 0 then NegInfinity else NotANumber)
  {
    if b > 0 then
      var q := (-a) / b;
      assert (-a) == q * b + (-a) % b;
      Finite(-q)
    else if b < 0 then
      var q := a / (-b);
      assert a == q * (-b) + a % (-b);
      Finite(-q)
    else if a > 0 then PosInfinity
    else if a < 0 then NegInfinity
    else NotANumber
  }

  /** The `Math.ceil` estimate of the turns left on the current delivery. */
  function RemainingTurns(progress: int, deliveries: int): Turns {
    CeilDiv(100 - progress, 10 - deliveries)
  }

  /** `available < remaining` on JavaScript numbers: every comparison with NaN is false. */
  predicate Below(available: int, t: Turns) {
    match t
    case Finite(n) => available < n
    case PosInfinity => true
    case NegInfinity => false
    case NotANumber => false
  }

  /** The ceiling comparison means "too few turns to finish": each turn advances
      the delivery by `10 - deliveries` percent, so `available` turns fall short
      exactly when they cover less than the progress still missing. */
  lemma NotEnoughTurns(available: int, progress: int, deliveries: int)
    requires deliveries < 10
    ensures Below(available, RemainingTurns(progress, deliveries)) <==> available * (10 - deliveries) < 100 - progress
  {
    var b := 10 - deliveries;
    var r := RemainingTurns(progress, deliveries).n;
    if available < r {
      MulMonotone(available, r - 1, b);
    } else {
      MulMonotone(r, available, b);
    }
  }

  lemma MulMonotone(x: int, y: int, b: int)
    requires x <= y && b > 0
    ensures x * b <= y * b
  {
    assert y * b - x * b == (y - x) * b;
  }

  /** The abandon test of `considerAbandon`: no known location, a skipped
      location, one the wanderer library rules out, or too few wanderer turns
      left today for the estimate. */
  function ShouldAbandon(location: Option<Location>, locationSkiplist: seq<Location>,
                         canAdventureOrUnlock: Location -> bool, turnsAvailableToday: Location -> int,
                         progress: int, deliveries: int): (b: bool)
    ensures location.None? ==> b
    ensures location.Some? && location.value in locationSkiplist ==> b
    ensures location.Some? && !canAdventureOrUnlock(location.value) ==> b
    ensures location.Some? && location.value !in locationSkiplist && canAdventureOrUnlock(location.value) ==>
      (b <==> Below(turnsAvailableToday(location.value), RemainingTurns(progress, deliveries)))
  {
    location.None? || location.value in locationSkiplist || !canAdventureOrUnlock(location.value)
    || Below(turnsAvailableToday(location.value), RemainingTurns(progress, deliveries))
  }

  /** A usable location is abandoned, on a day with deliveries still
      progressing, exactly when its wanderer turns cannot finish the delivery. */
  lemma AbandonForLackOfTurns(location: Location, locationSkiplist: seq<Location>,
                              canAdventureOrUnlock: Location -> bool, turnsAvailableToday: Location -> int,
                              progress: int, deliveries: int)
    requires location !in locationSkiplist && canAdventureOrUnlock(location) && deliveries < 10
    ensures ShouldAbandon(Some(location), locationSkiplist, canAdventureOrUnlock, turnsAvailableToday, progress, deliveries)
            <==> turnsAvailableToday(location) * (10 - deliveries) < 100 - progress
  {
    NotEnoughTurns(turnsAvailableToday(location), progress, deliveries);
  }

  // ---------------------------------------------------------------------
  // Tiers

  datatype Tier = Bronze | Gold | Platinum

  /** What the tier choice reads: which quests can be taken, the capping
      preference and which daily bonuses are already full. */
  datatype TierState = TierState(
    canPlatinum: bool, canGold: bool, prioritizeCapping: bool,
    fullPlatinumBonus: bool, fullGoldBonus: bool, fullBronzeBonus: bool)

  /** The tier `acceptGuzzlrQuest` accepts in one pass of its loop. It never
      picks a tier the game does not offer, bronze is the fallback, and
      platinum always wins when it is offered and capping is not asked for. */
  function ChooseTier(st: TierState): (t: Tier)
    ensures t == Platinum ==> st.canPlatinum
    ensures t == Gold ==> st.canGold
    ensures !st.canPlatinum && !st.canGold ==> t == Bronze
    ensures st.canPlatinum && !st.prioritizeCapping ==> t == Platinum
  {
    if st.canPlatinum && !(st.prioritizeCapping && st.fullPlatinumBonus) then Platinum
    else if st.canGold && (st.fullBronzeBonus || !st.fullGoldBonus) then Gold
    else Bronze
  }

  /** The three outcomes of the priority chain, each with its full condition:
      platinum whenever it may be taken and capping does not forbid it; gold
      only after that, when it may be taken and bronze is capped or gold is
      not; bronze otherwise. */
  lemma ChooseTierCases(st: TierState)
    ensures ChooseTier(st) == Platinum <==> st.canPlatinum && !(st.prioritizeCapping && st.fullPlatinumBonus)
    ensures ChooseTier(st) == Gold <==>
      !(st.canPlatinum && !(st.prioritizeCapping && st.fullPlatinumBonus))
      && st.canGold && (st.fullBronzeBonus || !st.fullGoldBonus)
    ensures ChooseTier(st) == Bronze <==>
      !(st.canPlatinum && !(st.prioritizeCapping && st.fullPlatinumBonus))
      && !(st.canGold && (st.fullBronzeBonus || !st.fullGoldBonus))
  {
  }

  // ---------------------------------------------------------------------
  // Value

  /** Guzzlrbucks a delivery of the tier pays. */
  function Bucks(t: Option<Tier>): real {
    match t
    case None => 0.0
    case Some(Bronze) => 3.0
    case Some(Gold) => 6.0
    case Some(Platinum) => 21.5
  }

  /** `guzzlrValue(tier)`: the tier's bucks in meat divided by the number the
      source calls progress-per-turn, `100 / (10 - deliveries)`. A zero
      divisor there gives Infinity, and a finite amount over Infinity is 0. */
  function GuzzlrValue(tier: Option<Tier>, deliveries: int, buckValue: real): (r: real)
    ensures r == Bucks(tier) * buckValue * (10 - deliveries) as real / 100.0
    ensures tier.None? ==> r == 0.0
  {
    if tier.None? then 0.0
    else if deliveries == 10 then 0.0
    else
      var progressPerTurn := 100.0 / (10 - deliveries) as real;
      QuotientByQuotient(Bucks(tier) * buckValue, 100.0, (10 - deliveries) as real);
      (Bucks(tier) * buckValue) / progressPerTurn
  }

  lemma QuotientByQuotient(x: real, a: real, b: real)
    requires a != 0.0 && b != 0.0
    ensures x / (a / b) == x * b / a
  {
  }

  /** The tiers are worth 3 : 6 : 21.5 for the same day and Guzzlrbuck value. */
  lemma GuzzlrValueRatios(deliveries: int, buckValue: real)
    ensures GuzzlrValue(Some(Gold), deliveries, buckValue) == 2.0 * GuzzlrValue(Some(Bronze), deliveries, buckValue)
    ensures 3.0 * GuzzlrValue(Some(Platinum), deliveries, buckValue) == 21.5 * GuzzlrValue(Some(Bronze), deliveries, buckValue)
  {
  }

  // ---------------------------------------------------------------------
  // The factory

  const GuzzlrName := "Guzzlr"

  /** The quest state after `acceptGuzzlrQuest`: its tier and location. */
  datatype Quest = Quest(tier: Option<Tier>, location: Option<Location>)

  /** `guzzlrFactory`: nothing without the Guzzlr tablet or without a known
      quest location; otherwise the one target named "Guzzlr" at the quest's
      location, worth the quest's `guzzlrValue`. */
  function GuzzlrFactory(haveTablet: bool, quest: Quest, deliveries: int, buckValue: real): (r: seq<Target>)
    ensures |r| <= 1
    ensures |r| == 1 <==> haveTablet && quest.location.Some?
    ensures forall t :: t in r ==> t.name == GuzzlrName && Some(t.location) == quest.location
                                   && t.value == GuzzlrValue(quest.tier, deliveries, buckValue)
  {
    if haveTablet then
      match quest.location
      case Some(l) => [Target(GuzzlrName, l, GuzzlrValue(quest.tier, deliveries, buckValue))]
      case None => []
    else []
  }

  /** The booze the target must deliver: the cheapest platinum cocktail on a
      platinum quest, otherwise the quest's booze; either may be unknown. */
  function GuzzlrBooze(tier: Option<Tier>, cheapestPlatinumCocktail: Option<Item>, questBooze: Option<Item>)
    : (r: Option<Item>)
    ensures tier == Some(Platinum) ==> r == cheapestPlatinumCocktail
    ensures tier != Some(Platinum) ==> r == questBooze
  {
    if tier == Some(Platinum) then cheapestPlatinumCocktail else questBooze
  }

  /** How the preparation step obtains missing booze. */
  datatype Acquisition = AlreadyHeld | Retrieve | Buy

  /** A missing fancy cocktail is crafted only while a free craft is left;
      otherwise it is bought. Anything else is retrieved. So the booze is
      bought only when it is missing, fancy and no free craft is left, and
      already held booze is never acquired again. */
  function AcquisitionFor(held: bool, fancy: bool, freeCrafts: int): (a: Acquisition)
    ensures a == Buy <==> !held && fancy && freeCrafts <= 0
    ensures a == AlreadyHeld <==> held
    ensures a == Retrieve <==> !held && (!fancy || freeCrafts > 0)
  {
    if held then AlreadyHeld
    else if !fancy || (fancy && freeCrafts > 0) then Retrieve
    else Buy
  }

  /** The outcome of each acquisition: whether the booze is held afterwards. */
  datatype Inventory = Inventory(have: Item -> bool, heldAfterRetrieve: Item -> bool, heldAfterBuy: Item -> bool)

  /** The target's `prepareTurn`: false when the booze is unknown, otherwise
      whether the booze is held once the acquisition step has run. */
  function GuzzlrPrepare(booze: Option<Item>, inv: Inventory, fancy: Item -> bool, freeCrafts: int): (b: bool)
    ensures booze.None? ==> !b
    ensures booze.Some? && inv.have(booze.value) ==> b
    ensures booze.Some? && !inv.have(booze.value) && AcquisitionFor(false, fancy(booze.value), freeCrafts) == Retrieve
            ==> (b <==> inv.heldAfterRetrieve(booze.value))
    ensures booze.Some? && !inv.have(booze.value) && AcquisitionFor(false, fancy(booze.value), freeCrafts) == Buy
            ==> (b <==> inv.heldAfterBuy(booze.value))
  {
    match booze
    case None => false
    case Some(item) =>
      match AcquisitionFor(inv.have(item), fancy(item), freeCrafts)
      case AlreadyHeld => true
      case Retrieve => inv.heldAfterRetrieve(item)
      case Buy => inv.heldAfterBuy(item)
  }
}

=== FILE: lib.dfy ===
/** The shared helpers of the script: the `maxBy` selector used throughout,
    the free-fight source names, the sobriety limit and the realm flags. */
module Lib {
  import opened Outcomes

  // ---------------------------------------------------------------------
  // maxBy

  /** Index chosen by `array.reduce((a, b) => (a[k] > b[k]) !== reverse ? a : b)`
      over the scores `score`: the accumulator survives a step only when its
      score is strictly greater (reverse = false) or at most the other's
      (reverse = true). */
  function MaxByIndex<T>(s: seq<T>, score: T -> real, reverse: bool): (k: nat)
    requires |s| > 0
    ensures k < |s|
    ensures !reverse ==> forall j :: 0 <= j < |s| ==> score(s[j]) <= score(s[k])
    ensures !reverse ==> forall j :: k < j < |s| ==> score(s[j]) < score(s[k])
    ensures reverse ==> forall j :: 0 <= j < |s| ==> score(s[k]) <= score(s[j])
    ensures reverse ==> forall j :: 0 <= j < k ==> score(s[k]) < score(s[j])
    decreases |s|
  {
    if |s| == 1 then 0
    else
      var prefix := s[..|s| - 1];
      var a := MaxByIndex(prefix, score, reverse);
      assert prefix[a] == s[a];
      if (score(s[a]) > score(s[|s| - 1])) != reverse then a else |s| - 1
  }

  /** `maxBy(array, key, reverse)`: the key overload, the reduce over the
      numeric field `field`. */
  function MaxByKey<T>(s: seq<T>, field: T -> real, reverse: bool): (r: T)
    requires |s| > 0
    ensures r == s[MaxByIndex(s, field, reverse)]
    ensures r in s
    ensures !reverse ==> forall x :: x in s ==> field(x) <= field(r)
    ensures reverse ==> forall x :: x in s ==> field(r) <= field(x)
  {
    s[MaxByIndex(s, field, reverse)]
  }

  /** The record `{ key, value }` that the function overload of `maxBy` builds. */
  datatype Keyed<T> = Keyed(key: T, value: real)

  function KeyAll<T>(s: seq<T>, f: T -> real): (r: seq<Keyed<T>>)
    ensures |r| == |s|
    ensures forall i :: 0 <= i < |s| ==> r[i] == Keyed(s[i], f(s[i]))
  {
    seq(|s|, i requires 0 <= i < |s| => Keyed(s[i], f(s[i])))
  }

  /** `maxBy(array, f, reverse)`: the function overload maps every element to
      `{ key, value: f(key) }`, selects with the key overload on `value` and
      returns the `key`; this is the element the reduce over `f` itself selects. */
  function MaxBy<T>(s: seq<T>, f: T -> real, reverse: bool): (r: T)
    requires |s| > 0
    ensures r == s[MaxByIndex(s, f, reverse)]
    ensures r in s
    ensures !reverse ==> forall x :: x in s ==> f(x) <= f(r)
    ensures reverse ==> forall x :: x in s ==> f(r) <= f(x)
  {
    KeyedIndexAgrees(s, f, reverse);
    MaxByKey(KeyAll(s, f), (e: Keyed<T>) => e.value, reverse).key
  }

  lemma {:induction false} KeyedIndexAgrees<T>(s: seq<T>, f: T -> real, reverse: bool)
    requires |s| > 0
    ensures MaxByIndex(KeyAll(s, f), (e: Keyed<T>) => e.value, reverse) == MaxByIndex(s, f, reverse)
    decreases |s|
  {
    if |s| > 1 {
      var prefix := s[..|s| - 1];
      assert KeyAll(s, f)[..|s| - 1] == KeyAll(prefix, f);
      KeyedIndexAgrees(prefix, f, reverse);
    }
  }

  /** With reverse = false the selected element is the LAST one of maximal
      score; with reverse = true it is the FIRST one of minimal score. */
  lemma MaxByTieRule<T>(s: seq<T>, f: T -> real, i: nat)
    requires i < |s|
    ensures (forall j :: 0 <= j < |s| ==> f(s[j]) <= f(s[i])) && (forall j :: i < j < |s| ==> f(s[j]) < f(s[i]))
            <==> i == MaxByIndex(s, f, false)
    ensures (forall j :: 0 <= j < |s| ==> f(s[i]) <= f(s[j])) && (forall j :: 0 <= j < i ==> f(s[i]) < f(s[j]))
            <==> i == MaxByIndex(s, f, true)
  {
  }

  // ---------------------------------------------------------------------
  // Free-fight sources

  datatype FreeFightSource = Kramco | Goth | Hipster | Witchess | Wish | Tentacle | Default

  /** `FREE_FIGHT_SOURCES`, in declaration order. */
  const FreeFightSources: seq<string> :=
    ["kramco", "goth", "hipster", "witchess", "wish", "tentacle", "default"]

  function SourceName(s: FreeFightSource): string {
    match s
    case Kramco => "kramco"
    case Goth => "goth"
    case Hipster => "hipster"
    case Witchess => "witchess"
    case Wish => "wish"
    case Tentacle => "tentacle"
    case Default => "default"
  }

  /** `isFreeFightSource(value)`: membership in the constant list. */
  predicate IsFreeFightSource(value: string) {
    value in FreeFightSources
  }

  /** The narrowing the argument parser performs with `isFreeFightSource`. */
  function ParseSource(value: string): (r: Option<FreeFightSource>)
    ensures r.Some? <==> IsFreeFightSource(value)
    ensures r.Some? ==> SourceName(r.value) == value
  {
    if value == "kramco" then Some(Kramco)
    else if value == "goth" then Some(Goth)
    else if value == "hipster" then Some(Hipster)
    else if value == "witchess" then Some(Witchess)
    else if value == "wish" then Some(Wish)
    else if value == "tentacle" then Some(Tentacle)
    else if value == "default" then Some(Default)
    else None
  }

  /** The seven names are exactly the names of the seven sources, and parsing
      a source's name gives that source back. */
  lemma SourceNameRoundTrip(s: FreeFightSource)
    ensures IsFreeFightSource(SourceName(s))
    ensures ParseSource(SourceName(s)) == Some(s)
  {
  }

  lemma FreeFightSourceIffName(value: string)
    ensures IsFreeFightSource(value) <==> exists s :: SourceName(s) == value
  {
    if IsFreeFightSource(value) {
      assert SourceName(ParseSource(value).value) == value;
    }
  }

  // ---------------------------------------------------------------------
  // Sobriety

  const Stooper := "Stooper"

  /** `inebrietyLimitNoFamiliar()`: the liver limit without the Stooper's extra point. */
  function InebrietyLimitNoFamiliar(inebrietyLimit: int, familiar: string): (r: int)
    ensures familiar == Stooper ==> r == inebrietyLimit - 1
    ensures familiar != Stooper ==> r == inebrietyLimit
  {
    inebrietyLimit - (if familiar == Stooper then 1 else 0)
  }

  /** `sober()`, written in the source with its own `+ -1` adjustment; it agrees
      with the adjusted limit above. */
  function Sober(inebriety: int, inebrietyLimit: int, familiar: string): (r: bool)
    ensures r <==> inebriety <= InebrietyLimitNoFamiliar(inebrietyLimit, familiar)
  {
    inebriety <= inebrietyLimit + (if familiar == Stooper then -1 else 0)
  }

  // ---------------------------------------------------------------------
  // Realms

  datatype Realm = Spooky | Stench | Hot | Cold | Sleaze | Fantasy | Pirate

  function RealmName(r: Realm): string {
    match r
    case Spooky => "spooky"
    case Stench => "stench"
    case Hot => "hot"
    case Cold => "cold"
    case Sleaze => "sleaze"
    case Fantasy => "fantasy"
    case Pirate => "pirate"
  }

  /** The pair (today flag, always flag) that `realmAvailable` reads. */
  datatype RealmKeys = RealmKeys(today: string, always: string)

  function AirportKeys(r: Realm): RealmKeys {
    if r == Fantasy then RealmKeys("_frToday", "frAlways")
    else if r == Pirate then RealmKeys("_prToday", "prAlways")
    else RealmKeys("_" + RealmName(r) + "AirportToday", RealmName(r) + "AirportAlways")
  }

  /** `realmAvailable(identifier)`: either flag set; a missing property reads
      as false. Fantasy and pirate read their short flags, every other realm
      the airport flags named after it. */
  function RealmAvailable(r: Realm, props: map<string, bool>): (b: bool)
    ensures b <==> (AirportKeys(r).today in props && props[AirportKeys(r).today])
                   || (AirportKeys(r).always in props && props[AirportKeys(r).always])
    ensures r == Fantasy ==> (b <==> Flag(props, "_frToday") || Flag(props, "frAlways"))
    ensures r == Pirate ==> (b <==> Flag(props, "_prToday") || Flag(props, "prAlways"))
    ensures !ShortFlags(r) ==>
      (b <==> Flag(props, "_" + RealmName(r) + "AirportToday") || Flag(props, RealmName(r) + "AirportAlways"))
  {
    var keys := AirportKeys(r);
    (keys.today in props && props[keys.today]) || (keys.always in props && props[keys.always])
  }

  lemma RealmNameInjective(a: Realm, b: Realm)
    ensures RealmName(a) == RealmName(b) ==> a == b
  {
  }

  lemma {:induction false} AffixCancel(p: string, a: string, b: string, q: string)
    ensures p + a + q == p + b + q ==> a == b
  {
    if p + a + q == p + b + q {
      assert |a| == |b|;
      assert a == (p + a + q)[|p|..|p| + |a|];
      assert b == (p + b + q)[|p|..|p| + |b|];
    }
  }

  /** No realm's today flag is another's always flag: the today flags start
      with `_`, the always flags do not. */
  lemma TodayIsNotAlways(a: Realm, b: Realm)
    ensures AirportKeys(a).today != AirportKeys(b).always
  {
    assert AirportKeys(a).today[0] == '_';
    assert AirportKeys(b).always[0] != '_';
  }

  /** A realm is either one of the two with a short flag name or one whose
      flags are built from its name. */
  predicate ShortFlags(r: Realm) {
    r == Fantasy || r == Pirate
  }

  /** The fantasy and pirate realms read fixed short flags, every other realm
      reads flags built from its name, and only the short ones are 8
      characters long. */
  lemma ShortFlagLengths(r: Realm)
    ensures r == Fantasy ==> AirportKeys(r) == RealmKeys("_frToday", "frAlways")
    ensures r == Pirate ==> AirportKeys(r) == RealmKeys("_prToday", "prAlways")
    ensures !ShortFlags(r) ==>
      AirportKeys(r) == RealmKeys("_" + RealmName(r) + "AirportToday", RealmName(r) + "AirportAlways")
    ensures ShortFlags(r) <==> |AirportKeys(r).today| == 8
    ensures ShortFlags(r) <==> |AirportKeys(r).always| == 8
  {
    KeyLengths(r);
  }

  lemma KeyLengths(r: Realm)
    ensures ShortFlags(r) <==> |AirportKeys(r).today| == 8
    ensures ShortFlags(r) <==> |AirportKeys(r).always| == 8
  {
    assert |RealmName(r)| >= 3;
  }

  /** No two realms read the same today flag. */
  lemma TodayDistinct(a: Realm, b: Realm)
    requires a != b
    ensures AirportKeys(a).today != AirportKeys(b).today
  {
    KeyLengths(a);
    KeyLengths(b);
    if !ShortFlags(a) && !ShortFlags(b) {
      AffixCancel("_", RealmName(a), RealmName(b), "AirportToday");
      RealmNameInjective(a, b);
    } else if ShortFlags(a) && ShortFlags(b) {
      assert AirportKeys(a).today[1] == (if a == Fantasy then 'f' else 'p');
      assert AirportKeys(b).today[1] == (if b == Fantasy then 'f' else 'p');
    }
  }

  /** No two realms read the same always flag. */
  lemma AlwaysDistinct(a: Realm, b: Realm)
    requires a != b
    ensures AirportKeys(a).always != AirportKeys(b).always
  {
    KeyLengths(a);
    KeyLengths(b);
    if !ShortFlags(a) && !ShortFlags(b) {
      assert "" + RealmName(a) + "AirportAlways" == AirportKeys(a).always;
      assert "" + RealmName(b) + "AirportAlways" == AirportKeys(b).always;
      AffixCancel("", RealmName(a), RealmName(b), "AirportAlways");
      RealmNameInjective(a, b);
    } else if ShortFlags(a) && ShortFlags(b) {
      assert AirportKeys(a).always[0] == (if a == Fantasy then 'f' else 'p');
      assert AirportKeys(b).always[0] == (if b == Fantasy then 'f' else 'p');
    }
  }

  /** A flag set: whether the property is present and true. */
  predicate Flag(props: map<string, bool>, key: string) {
    key in props && props[key]
  }

  /** Availability depends on the realm's two flags alone: two property maps
      that agree on them give the same answer. */
  lemma RealmAvailableLocal(r: Realm, p1: map<string, bool>, p2: map<string, bool>)
    requires Flag(p1, AirportKeys(r).today) == Flag(p2, AirportKeys(r).today)
    requires Flag(p1, AirportKeys(r).always) == Flag(p2, AirportKeys(r).always)
    ensures RealmAvailable(r, p1) == RealmAvailable(r, p2)
  {
  }

  /** Setting either of a realm's flags makes it available, and with neither
      present it is not. */
  lemma RealmFlagSet(r: Realm, props: map<string, bool>)
    ensures RealmAvailable(r, props[AirportKeys(r).today := true])
    ensures RealmAvailable(r, props[AirportKeys(r).always := true])
    ensures AirportKeys(r).today !in props && AirportKeys(r).always !in props ==> !RealmAvailable(r, props)
  {
  }

  /** Another realm's flags never matter: writing either of them leaves a
      realm's availability as it was. */
  lemma OtherRealmIrrelevant(a: Realm, b: Realm, props: map<string, bool>, v: bool)
    requires a != b
    ensures RealmAvailable(a, props[AirportKeys(b).today := v]) == RealmAvailable(a, props)
    ensures RealmAvailable(a, props[AirportKeys(b).always := v]) == RealmAvailable(a, props)
  {
    TodayDistinct(a, b);
    AlwaysDistinct(a, b);
    TodayIsNotAlways(a, b);
    TodayIsNotAlways(b, a);
    RealmAvailableLocal(a, props[AirportKeys(b).today := v], props);
    RealmAvailableLocal(a, props[AirportKeys(b).always := v], props);
  }
}

=== FILE: outcomes.dfy ===
/** Option and Result values standing in for the script's `undefined`/`null`
    returns and for the exceptions it throws. */
module Outcomes {

  datatype Option<+T> = None | Some(value: T) {
    /** JavaScript's `x ?? d`. */
    function GetOr(default: T): T {
      match this
      case Some(v) => v
      case None => default
    }
  }

  /** `Err` stands for a `throw`; its payload says which one. */
  datatype Result<+T, +E> = Ok(value: T) | Err(error: E)
}

/** Small sequence helpers shared by the modules below. */
module Seqs {
  import opened Outcomes

  /** `Array.prototype.filter`: keeps, in order, the elements satisfying `p`. */
  function Filter<T>(s: seq<T>, p: T -> bool): (r: seq<T>)
    ensures |r| <= |s|
    ensures forall x :: x in r ==> x in s && p(x)
    ensures forall x :: x in s && p(x) ==> x in r
    decreases |s|
  {
    if |s| == 0 then []
    else Filter(s[..|s| - 1], p) + (if p(s[|s| - 1]) then [s[|s| - 1]] else [])
  }

  lemma {:induction false} FilterAppend<T>(a: seq<T>, b: seq<T>, p: T -> bool)
    ensures Filter(a + b, p) == Filter(a, p) + Filter(b, p)
    decreases |b|
  {
    if |b| == 0 {
      assert a + b == a;
    } else {
      var b', last := b[..|b| - 1], b[|b| - 1];
      var t := if p(last) then [last] else [];
      assert Filter(a + b, p) == Filter(a + b', p) + t by {
        assert (a + b)[..|a + b| - 1] == a + b';
        assert (a + b)[|a + b| - 1] == last;
      }
      FilterAppend(a, b', p);
      Assoc(Filter(a, p), Filter(b', p), t);
    }
  }

  lemma Assoc<T>(x: seq<T>, y: seq<T>, z: seq<T>)
    ensures (x + y) + z == x + (y + z)
  {
  }

  lemma {:induction false} FilterKeepsAll<T>(s: seq<T>, p: T -> bool)
    requires forall i :: 0 <= i < |s| ==> p(s[i])
    ensures Filter(s, p) == s
    decreases |s|
  {
    if |s| > 0 {
      var prefix, last := s[..|s| - 1], s[|s| - 1];
      assert forall i :: 0 <= i < |prefix| ==> prefix[i] == s[i];
      FilterKeepsAll(prefix, p);
      assert p(last);
      Snoc(s);
    }
  }

  /** A non-empty list is its prefix followed by its last element. */
  lemma Snoc<T>(s: seq<T>)
    requires |s| > 0
    ensures s[..|s| - 1] + [s[|s| - 1]] == s
  {
  }

  /** Evaluating a list of computations in order, the first throw aborts
      the rest: all values when none throws, else the first error. */
  function Collect<T, E>(rs: seq<Result<T, E>>): (r: Result<seq<T>, E>)
    ensures r.Ok? <==> forall i :: 0 <= i < |rs| ==> rs[i].Ok?
    ensures r.Ok? ==> |r.value| == |rs| && forall i :: 0 <= i < |rs| ==> rs[i].Ok? && r.value[i] == rs[i].value
    ensures r.Err? ==> exists k :: (0 <= k < |rs| && rs[k] == Err(r.error) && forall j :: 0 <= j < k ==> rs[j].Ok?)
    decreases |rs|
  {
    if |rs| == 0 then Ok([])
    else
      match rs[0]
      case Err(e) => Err(e)
      case Ok(x) =>
        match Collect(rs[1..])
        case Err(e) =>
          assert forall j :: 0 <= j < |rs| - 1 ==> rs[1..][j] == rs[j + 1];
          Err(e)
        case Ok(rest) => Ok([x] + rest)
  }

  /** Left-to-right sum of reals, `reduce((acc, cur) => acc + cur, 0)`. */
  function Sum(s: seq<real>): real
    decreases |s|
  {
    if |s| == 0 then 0.0 else Sum(s[..|s| - 1]) + s[|s| - 1]
  }

  lemma {:induction false} SumAppend(a: seq<real>, b: seq<real>)
    ensures Sum(a + b) == Sum(a) + Sum(b)
    decreases |b|
  {
    if |b| == 0 {
      assert a + b == a;
    } else {
      var b' := b[..|b| - 1];
      assert (a + b)[..|a + b| - 1] == a + b';
      SumAppend(a, b');
    }
  }

  /** `Array.prototype.findIndex`, as an option: the first index satisfying `p`. */
  function FindFirst<T>(s: seq<T>, p: T -> bool): (r: Option<nat>)
    ensures r.None? <==> forall i :: 0 <= i < |s| ==> !p(s[i])
    ensures r.Some? ==> r.value < |s| && p(s[r.value])
    ensures r.Some? ==> forall j :: 0 <= j < r.value ==> !p(s[j])
    decreases |s|
  {
    if |s| == 0 then None
    else if p(s[0]) then Some(0)
    else
      match FindFirst(s[1..], p)
      case None => None
      case Some(k) => Some(k + 1)
  }

  /** `Math.max(...s)` of a non-empty list. */
  function MaxOf(s: seq<real>): (m: real)
    requires |s| > 0
    ensures forall i :: 0 <= i < |s| ==> s[i] <= m
    decreases |s|
  {
    if |s| == 1 then s[0]
    else
      var m := MaxOf(s[..|s| - 1]);
      assert forall i :: 0 <= i < |s| - 1 ==> s[..|s| - 1][i] == s[i];
      if s[|s| - 1] > m then s[|s| - 1] else m
  }

  /** `Math.min(...s)` of a non-empty list. */
  function MinOf(s: seq<real>): (m: real)
    requires |s| > 0
    ensures forall i :: 0 <= i < |s| ==> m <= s[i]
    decreases |s|
  {
    if |s| == 1 then s[0]
    else
      var m := MinOf(s[..|s| - 1]);
      assert forall i :: 0 <= i < |s| - 1 ==> s[..|s| - 1][i] == s[i];
      if s[|s| - 1] < m then s[|s| - 1] else m
  }

  /** The maximum is one of the list's elements. */
  lemma {:induction false} MaxOfMember(s: seq<real>)
    requires |s| > 0
    ensures MaxOf(s) in s
    decreases |s|
  {
    if |s| > 1 {
      MaxOfMember(s[..|s| - 1]);
    }
  }

  /** The minimum is one of the list's elements. */
  lemma {:induction false} MinOfMember(s: seq<real>)
    requires |s| > 0
    ensures MinOf(s) in s
    decreases |s|
  {
    if |s| > 1 {
      MinOfMember(s[..|s| - 1]);
    }
  }

  /** Splitting off the last element splits the multiset the same way. */
  lemma SnocMultiset<T>(s: seq<T>)
    requires |s| > 0
    ensures multiset(s) == multiset(s[..|s| - 1]) + multiset{s[|s| - 1]}
  {
    assert s == s[..|s| - 1] + [s[|s| - 1]];
  }

  /** Every element of a sequence, as a set. */
  function Elements<T>(s: seq<T>): set<T> {
    set x | x in s
  }
}

=== FILE: script.dfy ===
/** The entry point of the script: the rewrite of the copy target that
    `validateArgs` performs and the steps `main` runs. Argument parsing is not
    part of this model; the parsed arguments are the input. */
module Script {
  import opened Outcomes
  import opened Seqs
  import opened Game
  import Lib
  import Copy
  import Engine
  import Diet

  /** The monster name the tentacle branch compares with, spelt as in the script. */
  const MisspeltTentacle: Monster := "eldrich tentacle"
  const NoMonster: Monster := "none"

  /** What the branch conditions read besides the options. */
  datatype Context = Context(
    isWitchessPiece: Monster -> bool, haveGothKid: bool, haveHipster: bool,
    drops: Monster -> seq<Copy.Drop>, value: Item -> real)

  /** The six branches of `validateArgs`, in source order. */
  datatype Rule = TentacleRule | WitchessRule | GothRule | HipsterRule | KramcoRule | NoneRule

  function Best(source: Lib.FreeFightSource, ctx: Context): Monster {
    Copy.BestMonster(source, ctx.drops, ctx.value)
  }

  /** The branch the if / else-if chain of `validateArgs` takes, with the
      monster name that the tentacle branch compares with as a parameter. */
  function Chain(o: Copy.CopyOptions, ctx: Context, tentacle: Monster): Option<Rule> {
    if o.source == Lib.Tentacle && o.target != tentacle then Some(TentacleRule)
    else if o.source == Lib.Witchess && !ctx.isWitchessPiece(o.target) then Some(WitchessRule)
    else if o.source == Lib.Goth && !ctx.haveGothKid then Some(GothRule)
    else if o.source == Lib.Hipster && !ctx.haveHipster then Some(HipsterRule)
    else if o.source == Lib.Kramco then Some(KramcoRule)
    else if o.target == NoMonster then Some(NoneRule)
    else None
  }

  /** The chain's effect: the branch taken installs its source's best monster
      as the target. */
  function ValidateWith(o: Copy.CopyOptions, ctx: Context, tentacle: Monster): Copy.CopyOptions {
    match Chain(o, ctx, tentacle)
    case Some(rule) => o.(target := Best(RuleSource(rule), ctx))
    case None => o
  }

  /** `validateArgs()` as written: the source is kept, and the target is
      either kept or replaced by the best monster of some rule's source. */
  function ValidateArgs(o: Copy.CopyOptions, ctx: Context): (r: Copy.CopyOptions)
    ensures r.source == o.source
    ensures r == o || exists k :: 0 <= k < |Rules| && r == o.(target := Best(RuleSource(Rules[k]), ctx))
  {
    ValidateIsFirstMatch(o, ctx, MisspeltTentacle);
    ValidateWith(o, ctx, MisspeltTentacle)
  }

  // ---------------------------------------------------------------------
  // The reference: an ordered rule list and its first match.

  const Rules: seq<Rule> := [TentacleRule, WitchessRule, GothRule, HipsterRule, KramcoRule, NoneRule]

  predicate Fires(r: Rule, o: Copy.CopyOptions, ctx: Context, tentacle: Monster) {
    match r
    case TentacleRule => o.source == Lib.Tentacle && o.target != tentacle
    case WitchessRule => o.source == Lib.Witchess && !ctx.isWitchessPiece(o.target)
    case GothRule => o.source == Lib.Goth && !ctx.haveGothKid
    case HipsterRule => o.source == Lib.Hipster && !ctx.haveHipster
    case KramcoRule => o.source == Lib.Kramco
    case NoneRule => o.target == NoMonster
  }

  /** The source whose best monster a rule installs. */
  function RuleSource(r: Rule): Lib.FreeFightSource {
    match r
    case TentacleRule => Lib.Tentacle
    case WitchessRule => Lib.Witchess
    case GothRule => Lib.Goth
    case HipsterRule => Lib.Hipster
    case KramcoRule => Lib.Kramco
    case NoneRule => Lib.Default
  }

  function FirstMatch(o: Copy.CopyOptions, ctx: Context, tentacle: Monster): (r: Option<nat>)
    ensures r.None? <==> forall i :: 0 <= i < |Rules| ==> !Fires(Rules[i], o, ctx, tentacle)
    ensures r.Some? ==> (r.value < |Rules| && Fires(Rules[r.value], o, ctx, tentacle)
      && forall i :: 0 <= i < r.value ==> !Fires(Rules[i], o, ctx, tentacle))
  {
    FindFirst(Rules, (rule: Rule) => Fires(rule, o, ctx, tentacle))
  }

  /** The chain takes exactly the first branch whose condition holds, and
      none when no condition holds. */
  lemma ChainIsFirstMatch(o: Copy.CopyOptions, ctx: Context, tentacle: Monster)
    ensures Chain(o, ctx, tentacle) ==
      match FirstMatch(o, ctx, tentacle)
      case Some(k) => Some(Rules[k])
      case None => None
  {
    var m := FirstMatch(o, ctx, tentacle);
    if m.Some? {
      var k := m.value;
      if k > 0 { assert !Fires(Rules[0], o, ctx, tentacle); }
      if k > 1 { assert !Fires(Rules[1], o, ctx, tentacle); }
      if k > 2 { assert !Fires(Rules[2], o, ctx, tentacle); }
      if k > 3 { assert !Fires(Rules[3], o, ctx, tentacle); }
      if k > 4 { assert !Fires(Rules[4], o, ctx, tentacle); }
    } else {
      assert !Fires(Rules[0], o, ctx, tentacle) && !Fires(Rules[1], o, ctx, tentacle);
      assert !Fires(Rules[2], o, ctx, tentacle) && !Fires(Rules[3], o, ctx, tentacle);
      assert !Fires(Rules[4], o, ctx, tentacle) && !Fires(Rules[5], o, ctx, tentacle);
    }
  }

  /** At most one branch rewrites the target: the options change only in the
      target, to the best monster of the first firing rule's source. */
  lemma ValidateIsFirstMatch(o: Copy.CopyOptions, ctx: Context, tentacle: Monster)
    ensures ValidateWith(o, ctx, tentacle) ==
      match FirstMatch(o, ctx, tentacle)
      case Some(k) => o.(target := Best(RuleSource(Rules[k]), ctx))
      case None => o
  {
    ChainIsFirstMatch(o, ctx, tentacle);
  }

  /** With the kramco source every earlier branch is ruled out, so the target
      always becomes the sausage goblin. */
  lemma KramcoTarget(o: Copy.CopyOptions, ctx: Context)
    requires o.source == Lib.Kramco
    ensures ValidateArgs(o, ctx).target == Copy.SausageGoblin
  {
    assert Chain(o, ctx, MisspeltTentacle) == Some(KramcoRule);
    RuleTarget(o, ctx, MisspeltTentacle, KramcoRule);
    KramcoBest(ctx);
  }

  /** The branch taken decides the new target. */
  lemma RuleTarget(o: Copy.CopyOptions, ctx: Context, tentacle: Monster, rule: Rule)
    requires Chain(o, ctx, tentacle) == Some(rule)
    ensures ValidateWith(o, ctx, tentacle).target == Best(RuleSource(rule), ctx)
  {
  }

  lemma KramcoBest(ctx: Context)
    ensures Best(Lib.Kramco, ctx) == Copy.SausageGoblin
  {
  }

  /** The default monster replaces the target only for the target `none` when
      no source branch applies; when no condition holds the target is kept. */
  lemma NoneTarget(o: Copy.CopyOptions, ctx: Context)
    ensures FirstMatch(o, ctx, MisspeltTentacle) == Some(5)
      <==> o.target == NoMonster && forall i :: 0 <= i < 5 ==> !Fires(Rules[i], o, ctx, MisspeltTentacle)
    ensures FirstMatch(o, ctx, MisspeltTentacle).None? ==> ValidateArgs(o, ctx) == o
    ensures FirstMatch(o, ctx, MisspeltTentacle) == Some(5) ==> ValidateArgs(o, ctx).target == Copy.EldritchTentacle
  {
    ChainIsFirstMatch(o, ctx, MisspeltTentacle);
    if o.target == NoMonster && forall i :: 0 <= i < 5 ==> !Fires(Rules[i], o, ctx, MisspeltTentacle) {
      assert Fires(Rules[5], o, ctx, MisspeltTentacle);
    }
  }

  /** The comparison name of the tentacle branch is spelt `eldrich`. Against
      the monster's real name the chain would give the same options for
      every input except a tentacle source with the misspelt target itself:
      with the real name a target `eldritch tentacle` is rewritten to itself. */
  lemma MisspellingMatters(o: Copy.CopyOptions, ctx: Context)
    ensures ValidateArgs(o, ctx) != ValidateWith(o, ctx, Copy.EldritchTentacle)
            <==> o.source == Lib.Tentacle && o.target == MisspeltTentacle
  {
    if o.source == Lib.Tentacle && o.target == MisspeltTentacle {
      assert ValidateArgs(o, ctx) == o;
      assert ValidateWith(o, ctx, Copy.EldritchTentacle).target == Copy.EldritchTentacle;
    }
  }

  // ---------------------------------------------------------------------
  // main

  /** The parsed arguments `main` reads. */
  datatype Args = Args(diet: bool, copy: bool, simulate: bool, options: Copy.CopyOptions)

  /** What `main` does after validation: list the diet (simulate), run the
      diet engine, run the copy step. */
  datatype Step = SimulateDiet | RunDietEngine | RunCopy

  function DietStep(simulate: bool): Step {
    if simulate then SimulateDiet else RunDietEngine
  }

  /** `main`: the diet step when `diet` is set, then the copy step when `copy` is set. */
  function MainSteps(a: Args): (r: seq<Step>)
    ensures (SimulateDiet in r || RunDietEngine in r) <==> a.diet
    ensures RunCopy in r <==> a.copy
    ensures SimulateDiet in r ==> a.simulate
    ensures RunDietEngine in r ==> !a.simulate
    ensures forall i, j :: 0 <= i < j < |r| ==> r[i] != RunCopy && r[j] == RunCopy
  {
    (if a.diet then [DietStep(a.simulate)] else []) + (if a.copy then [RunCopy] else [])
  }

  /** The options the copy step sees are the validated ones. */
  function MainOptions(a: Args, ctx: Context): (o: Copy.CopyOptions)
    ensures o.source == a.options.source
  {
    ValidateArgs(a.options, ctx)
  }

  /** Running the diet as `main` does executes no task: the engine's guard as
      written is never met by the tasks the diet builds. */
  lemma MainDietRunsNothing(a: Args, entries: seq<Diet.DietEntry>, rd: Diet.ChocolateReadings,
                            recipes: Item -> Diet.Recipe, voa: real, ready: Engine.Ready, fuel: nat)
    requires RunDietEngine in MainSteps(a)
    requires |rd.bestValues| == 3
    requires forall c :: recipes(c).item == c
    ensures Engine.RunAsWritten(Diet.DietTasks(entries, rd, recipes, voa), ready, Engine.RunState(map[], []), fuel).log == []
  {
    Diet.DietNeverRunsAsWritten(entries, rd, recipes, voa, ready, fuel);
  }
}

=== FILE: value.dfy ===
/** Item valuation: the memoised `value(item, useHistorical)` with its two
    caches, the historical-price rule, and the special-value table (currencies,
    complex candies, barrels and a few fixed values) that takes precedence
    over market prices. Market readings are parameters; a special entry's
    nested `value` calls are an oracle, and the cache writes they make are not
    modelled. */
module Value {
  import opened Outcomes
  import opened Seqs
  import opened Game

  // ---------------------------------------------------------------------
  // garboSaleValue

  /** The market readings of the game for every item; `saleValue` is the
      library's `getSaleValue`. */
  datatype Market = Market(
    historicalAge: Item -> real,
    historicalPrice: Item -> real,
    autosellPrice: Item -> real,
    saleValue: Item -> real)

  function Max(a: real, b: real): real { if a >= b then a else b }

  /** The historical price is used only when asked for, recent (at most seven
      days old) and positive. */
  predicate UsesHistory(item: Item, useHistorical: bool, m: Market) {
    useHistorical && m.historicalAge(item) <= 7.0 && m.historicalPrice(item) > 0.0
  }

  /** A historical price at the mall minimum `max(100, 2 * autosell)`. */
  predicate AtMallMinimum(item: Item, m: Market) {
    m.historicalPrice(item) == Max(100.0, 2.0 * m.autosellPrice(item))
  }

  /** `garboSaleValue(item, useHistorical)`. */
  function GarboSaleValue(item: Item, useHistorical: bool, m: Market): (v: real)
    ensures UsesHistory(item, useHistorical, m) && AtMallMinimum(item, m) ==> v == m.autosellPrice(item)
    ensures UsesHistory(item, useHistorical, m) && !AtMallMinimum(item, m) ==> v == 0.9 * m.historicalPrice(item)
    ensures !UsesHistory(item, useHistorical, m) ==> v == m.saleValue(item)
  {
    if useHistorical && m.historicalAge(item) <= 7.0 && m.historicalPrice(item) > 0.0 then
      if m.historicalPrice(item) == Max(100.0, 2.0 * m.autosellPrice(item)) then m.autosellPrice(item)
      else 0.9 * m.historicalPrice(item)
    else m.saleValue(item)
  }

  /** Without the historical flag no historical reading matters: two markets
      that agree on the sale value give the same result. */
  lemma SaleValueIgnoresHistoryUnlessAsked(item: Item, m1: Market, m2: Market)
    requires m1.saleValue(item) == m2.saleValue(item)
    ensures GarboSaleValue(item, false, m1) == GarboSaleValue(item, false, m2)
  {
  }

  /** A usable historical price above the mall minimum is discounted by ten percent. */
  lemma HistoricalPriceDiscounted(item: Item, m: Market)
    requires UsesHistory(item, true, m) && !AtMallMinimum(item, m)
    ensures GarboSaleValue(item, true, m) < m.historicalPrice(item)
  {
  }

  // ---------------------------------------------------------------------
  // The two caches and value()

  /** `garboRegularValueCache` and `garboHistoricalValueCache`. */
  datatype Caches = Caches(regular: map<Item, real>, historical: map<Item, real>)

  /** A value and the caches after computing it. */
  datatype Valued = Valued(value: real, caches: Caches)

  /** The cache lookup: the regular entry, or — only when historical values
      are asked for — the historical entry. */
  function Cached(item: Item, useHistorical: bool, c: Caches): (r: Option<real>)
    ensures item in c.regular ==> r == Some(c.regular[item])
    ensures item !in c.regular && useHistorical && item in c.historical ==> r == Some(c.historical[item])
    ensures r.None? <==> item !in c.regular && !(useHistorical && item in c.historical)
  {
    if item in c.regular then Some(c.regular[item])
    else if useHistorical && item in c.historical then Some(c.historical[item])
    else None
  }

  /** What a miss computes: the special entry when there is one, else the sale value. */
  function Computed(item: Item, useHistorical: bool, special: Item -> Option<real>, m: Market): real {
    match special(item)
    case Some(v) => v
    case None => GarboSaleValue(item, useHistorical, m)
  }

  /** `value(item, useHistorical)`: a cached value is returned as is; a miss
      is computed and stored in the cache the flag selects. */
  function ValueOf(item: Item, useHistorical: bool, c: Caches, special: Item -> Option<real>, m: Market): (r: Valued)
    ensures Cached(item, useHistorical, c).Some? ==> r == Valued(Cached(item, useHistorical, c).value, c)
    ensures Cached(item, useHistorical, c).None? ==> r.value == Computed(item, useHistorical, special, m)
  {
    match Cached(item, useHistorical, c)
    case Some(v) => Valued(v, c)
    case None =>
      var v := Computed(item, useHistorical, special, m);
      if useHistorical then Valued(v, c.(historical := c.historical[item := v]))
      else Valued(v, c.(regular := c.regular[item := v]))
  }

  /** A regular-cache entry wins, whatever the flag says. */
  lemma RegularEntryWins(item: Item, c: Caches, special: Item -> Option<real>, m: Market, useHistorical: bool)
    requires item in c.regular
    ensures ValueOf(item, useHistorical, c, special, m) == Valued(c.regular[item], c)
  {
  }

  /** Without the flag the historical cache is neither read nor written. */
  lemma HistoricalCacheOnlyWhenAsked(item: Item, c1: Caches, c2: Caches, special: Item -> Option<real>, m: Market)
    requires c1.regular == c2.regular
    ensures ValueOf(item, false, c1, special, m).value == ValueOf(item, false, c2, special, m).value
    ensures ValueOf(item, false, c1, special, m).caches.historical == c1.historical
  {
  }

  /** On a miss a special entry takes precedence over market prices, which
      are then not consulted at all. */
  lemma SpecialEntryFirst(item: Item, useHistorical: bool, c: Caches, special: Item -> Option<real>, m1: Market, m2: Market)
    requires Cached(item, useHistorical, c).None? && special(item).Some?
    ensures ValueOf(item, useHistorical, c, special, m1) == ValueOf(item, useHistorical, c, special, m2)
    ensures ValueOf(item, useHistorical, c, special, m1).value == special(item).value
  {
  }

  /** A miss stores the value only in the selected cache, under the item's
      name, and touches nothing else. */
  lemma MissStoresInSelectedCache(item: Item, useHistorical: bool, c: Caches, special: Item -> Option<real>, m: Market)
    requires Cached(item, useHistorical, c).None?
    ensures var r := ValueOf(item, useHistorical, c, special, m);
      if useHistorical then r.caches == Caches(c.regular, c.historical[item := r.value])
      else r.caches == Caches(c.regular[item := r.value], c.historical)
  {
  }

  /** No entry is ever overwritten: the caches only grow. */
  lemma CachesOnlyGrow(item: Item, useHistorical: bool, c: Caches, special: Item -> Option<real>, m: Market)
    ensures var r := ValueOf(item, useHistorical, c, special, m);
      (forall k :: k in c.regular ==> k in r.caches.regular && r.caches.regular[k] == c.regular[k])
      && (forall k :: k in c.historical ==> k in r.caches.historical && r.caches.historical[k] == c.historical[k])
  {
  }

  /** Asking again with the same flag returns the stored value without
      recomputing and without changing the caches. */
  lemma ValueIdempotent(item: Item, useHistorical: bool, c: Caches, special: Item -> Option<real>, m: Market,
                        special': Item -> Option<real>, m': Market)
    ensures var r := ValueOf(item, useHistorical, c, special, m);
      ValueOf(item, useHistorical, r.caches, special', m') == r
  {
  }

  /** A value stored without the flag is also what a later historical request gets. */
  lemma RegularServesHistorical(item: Item, c: Caches, special: Item -> Option<real>, m: Market,
                                special': Item -> Option<real>, m': Market)
    ensures var r := ValueOf(item, false, c, special, m);
      ValueOf(item, true, r.caches, special', m').value == r.value
  {
  }

  // ---------------------------------------------------------------------
  // averageValue

  /** The values of the listed items, in order. */
  function ValuesOf(items: seq<Item>, v: Item -> real): (r: seq<real>)
    ensures |r| == |items|
    ensures forall i :: 0 <= i < |items| ==> r[i] == v(items[i])
  {
    seq(|items|, i requires 0 <= i < |items| => v(items[i]))
  }

  /** `averageValue(...items)`: the sum of the values over the item count. */
  function AverageValue(items: seq<Item>, v: Item -> real): (a: real)
    requires |items| > 0
    ensures a * |items| as real == Sum(ValuesOf(items, v))
  {
    Sum(ValuesOf(items, v)) / |items| as real
  }

  lemma {:induction false} SumBounds(s: seq<real>, lo: real, hi: real)
    requires forall i :: 0 <= i < |s| ==> lo <= s[i] <= hi
    ensures |s| as real * lo <= Sum(s) <= |s| as real * hi
    decreases |s|
  {
    if |s| > 0 {
      var prefix := s[..|s| - 1];
      assert forall i :: 0 <= i < |prefix| ==> prefix[i] == s[i];
      SumBounds(prefix, lo, hi);
      assert |s| as real * lo == |prefix| as real * lo + lo;
      assert |s| as real * hi == |prefix| as real * hi + hi;
    }
  }

  lemma QuotientBounds(total: real, n: real, a: real, lo: real, hi: real)
    requires n > 0.0 && a * n == total && n * lo <= total <= n * hi
    ensures lo <= a <= hi
  {
  }

  /** A number that is the sum of a list over its length lies between the
      list's extremes. */
  lemma MeanBounds(vals: seq<real>, a: real)
    requires |vals| > 0 && a * |vals| as real == Sum(vals)
    ensures MinOf(vals) <= a <= MaxOf(vals)
  {
    SumExtremes(vals);
    QuotientBounds(Sum(vals), |vals| as real, a, MinOf(vals), MaxOf(vals));
  }

  lemma SumExtremes(vals: seq<real>)
    requires |vals| > 0
    ensures |vals| as real * MinOf(vals) <= Sum(vals) <= |vals| as real * MaxOf(vals)
  {
    SumBounds(vals, MinOf(vals), MaxOf(vals));
  }

  /** The average lies between the least and the greatest value. */
  lemma AverageBetweenExtremes(items: seq<Item>, v: Item -> real)
    requires |items| > 0
    ensures MinOf(ValuesOf(items, v)) <= AverageValue(items, v) <= MaxOf(ValuesOf(items, v))
  {
    MeanBounds(ValuesOf(items, v), AverageValue(items, v));
  }

  // ---------------------------------------------------------------------
  // currency

  /** An item a currency buys, and its price in that currency. */
  datatype Unit = Unit(item: Item, cost: int)

  /** The throw of `currency` for an item no coinmaster sells. */
  datatype InvalidCoinmaster = InvalidCoinmaster(item: Item)

  /** A coinmaster that sells the item for a positive price. */
  predicate SoldBy(sellPrice: (Coinmaster, Item) -> int, c: Coinmaster, i: Item) {
    sellPrice(c, i) > 0
  }

  predicate Sellable(coinmasters: seq<Coinmaster>, sellPrice: (Coinmaster, Item) -> int, i: Item) {
    exists k :: 0 <= k < |coinmasters| && SoldBy(sellPrice, coinmasters[k], i)
  }

  /** One item's unit: its price at the first coinmaster that sells it, or
      the throw when none does. */
  function UnitFor(i: Item, coinmasters: seq<Coinmaster>, sellPrice: (Coinmaster, Item) -> int)
    : (r: Result<Unit, InvalidCoinmaster>)
    ensures r.Ok? <==> Sellable(coinmasters, sellPrice, i)
    ensures r.Err? ==> r.error == InvalidCoinmaster(i)
    ensures r.Ok? ==> (r.value.item == i && r.value.cost > 0
      && exists k :: (0 <= k < |coinmasters| && r.value.cost == sellPrice(coinmasters[k], i)
        && forall j :: 0 <= j < k ==> !SoldBy(sellPrice, coinmasters[j], i)))
  {
    match FindFirst(coinmasters, c => SoldBy(sellPrice, c, i))
    case None => Err(InvalidCoinmaster(i))
    case Some(k) => Ok(Unit(i, sellPrice(coinmasters[k], i)))
  }

  function UnitsFor(items: seq<Item>, coinmasters: seq<Coinmaster>, sellPrice: (Coinmaster, Item) -> int)
    : (r: seq<Result<Unit, InvalidCoinmaster>>)
    ensures |r| == |items| && forall j :: 0 <= j < |items| ==> r[j] == UnitFor(items[j], coinmasters, sellPrice)
  {
    seq(|items|, j requires 0 <= j < |items| => UnitFor(items[j], coinmasters, sellPrice))
  }

  /** The unit cost table of `currency(...items)`: each item's price at the
      first coinmaster that sells it; the first item no coinmaster sells is
      the one the construction throws for. */
  function CurrencyUnits(items: seq<Item>, coinmasters: seq<Coinmaster>, sellPrice: (Coinmaster, Item) -> int)
    : (r: Result<seq<Unit>, InvalidCoinmaster>)
    ensures r.Ok? <==> forall i :: 0 <= i < |items| ==> Sellable(coinmasters, sellPrice, items[i])
    ensures r.Err? ==> exists k :: (0 <= k < |items| && r.error == InvalidCoinmaster(items[k])
      && !Sellable(coinmasters, sellPrice, items[k])
      && forall j :: 0 <= j < k ==> Sellable(coinmasters, sellPrice, items[j]))
    ensures r.Ok? ==> |r.value| == |items| && forall i :: 0 <= i < |items| ==>
      (r.value[i].item == items[i] && r.value[i].cost > 0
       && exists k :: (0 <= k < |coinmasters| && r.value[i].cost == sellPrice(coinmasters[k], items[i])
         && forall j :: 0 <= j < k ==> !SoldBy(sellPrice, coinmasters[j], items[i])))
  {
    Collect(UnitsFor(items, coinmasters, sellPrice))
  }

  predicate PositiveCosts(units: seq<Unit>) {
    forall i :: 0 <= i < |units| ==> units[i].cost > 0
  }

  /** The worth of one unit of currency through each item it buys. */
  function Ratios(units: seq<Unit>, v: Item -> real): (r: seq<real>)
    requires PositiveCosts(units)
    ensures |r| == |units|
    ensures forall i :: 0 <= i < |units| ==> r[i] == v(units[i].item) / units[i].cost as real
  {
    seq(|units|, i requires 0 <= i < |units| => v(units[i].item) / units[i].cost as real)
  }

  /** The value `currency` computes: the best of `value(item) / cost`. */
  function CurrencyValue(units: seq<Unit>, v: Item -> real): (x: real)
    requires |units| > 0 && PositiveCosts(units)
    ensures exists i :: 0 <= i < |units| && x == v(units[i].item) / units[i].cost as real
    ensures forall i :: 0 <= i < |units| ==> v(units[i].item) / units[i].cost as real <= x
  {
    var r := Ratios(units, v);
    MaxOfMember(r);
    MaxOf(r)
  }

  // ---------------------------------------------------------------------
  // complexCandy

  /** What `complexCandy` reads of an item: its id, whether it is tradeable
      and its candy type. */
  datatype ItemInfo = ItemInfo(item: Item, id: nat, tradeable: bool, candyType: string)

  predicate Complex(i: ItemInfo) { i.candyType == "complex" }

  /** `candyLookup[k]`: the tradeable complex candies whose id is `k` modulo 5, in order. */
  function CandyLookup(all: seq<ItemInfo>, k: nat): (r: seq<Item>)
    ensures forall x :: x in r <==> exists i :: (0 <= i < |all| && all[i].item == x
      && Complex(all[i]) && all[i].tradeable && all[i].id % 5 == k)
    decreases |all|
  {
    if |all| == 0 then []
    else
      var last := all[|all| - 1];
      var prefix := CandyLookup(all[..|all| - 1], k);
      assert forall i :: 0 <= i < |all| - 1 ==> all[..|all| - 1][i] == all[i];
      prefix + (if Complex(last) && last.tradeable && last.id % 5 == k then [last.item] else [])
  }

  /** An entry of the special table: the item and how its value is computed. */
  datatype Special =
    | Currency(units: seq<Unit>)
    | CandyOf(bucket: seq<Item>)
    | ValueOfItem(source: Item)
    | Mushroom
    | Average(items: seq<Item>)
    | Fixed(amount: real)

  datatype Entry = Entry(item: Item, special: Special)

  /** `complexCandy()`: one entry per untradeable complex candy, in item
      order, valued through the tradeable complex candies of the same id
      modulo 5. */
  function ComplexCandy(all: seq<ItemInfo>): (r: seq<Entry>)
    ensures forall e :: e in r <==> exists i :: (0 <= i < |all| && Complex(all[i]) && !all[i].tradeable
      && e == Entry(all[i].item, CandyOf(CandyLookup(all, all[i].id % 5))))
  {
    CandyEntries(all, all)
  }

  function CandyEntries(all: seq<ItemInfo>, candies: seq<ItemInfo>): (r: seq<Entry>)
    ensures forall e :: e in r <==> exists i :: (0 <= i < |candies| && Complex(candies[i]) && !candies[i].tradeable
      && e == Entry(candies[i].item, CandyOf(CandyLookup(all, candies[i].id % 5))))
    decreases |candies|
  {
    if |candies| == 0 then []
    else
      var last := candies[|candies| - 1];
      var prefix := candies[..|candies| - 1];
      assert forall i :: 0 <= i < |prefix| ==> prefix[i] == candies[i];
      CandyEntries(all, prefix)
        + (if Complex(last) && !last.tradeable then [Entry(last.item, CandyOf(CandyLookup(all, last.id % 5)))] else [])
  }

  // ---------------------------------------------------------------------
  // The special-value table

  function Tm(s: string): string { s + "™" }

  /** The currencies of the table, in order, with the items each one buys. */
  const Currencies: seq<(Item, seq<Item>)> := [
    ("Freddy Kruegerand", ["bottle of Bloodweiser", "electric Kool-Aid", "Dreadsylvanian skeleton key"]),
    ("Beach Buck", ["one-day ticket to Spring Break Beach"]),
    ("Coinspiracy", ["Merc Core deployment orders", "karma shawarma"]),
    (Tm("FunFunds"), ["one-day ticket to Dinseylandfill"]),
    ("Volcoino", ["one-day ticket to That 70s Volcano"]),
    ("Wal-Mart gift certificate", ["one-day ticket to The Glaciest"]),
    (Tm("Rubee"), ["FantasyRealm guest pass"]),
    ("Guzzlrbuck", ["Never Don't Stop Not Striving"])
  ]

  /** The entries after the complex candies, in order. */
  function LaterEntries(voa: real): seq<Entry> {
    ComputedEntries + Closing(voa)
  }

  /** The two fixed entries that close the table. */
  function Closing(voa: real): seq<Entry> {
    [Entry("fake hand", Fixed(50000.0)), Entry("magical sausage casing", Fixed(voa))]
  }

  /** The entries computed from other items' values. */
  const ComputedEntries: seq<Entry> :=
    [
      Entry("Merc Core deployment orders", ValueOfItem("one-day ticket to Conspiracy Island")),
      Entry("free-range mushroom", Mushroom),
      Entry("little firkin", Average(["martini", "screwdriver", "strawberry daiquiri", "margarita",
        "vodka martini", "tequila sunrise", "bottle of Amontillado", "barrel-aged martini", "barrel gun"])),
      Entry("normal barrel", Average(["a little sump'm sump'm", "pink pony", "rockin' wagon",
        "roll in the hay", "slip 'n' slide", "slap and tickle"])),
      Entry("big tun", Average(["gibson", "gin and tonic", "mimosette", "tequila sunset",
        "vodka and tonic", "zmobie"])),
      Entry("weathered barrel", Average(["bean burrito", "enchanted bean burrito", "jumping bean burrito"])),
      Entry("dusty barrel", Average(["spicy bean burrito", "spicy enchanted bean burrito",
        "spicy jumping bean burrito"])),
      Entry("disintegrating barrel", Average(["insanely spicy bean burrito",
        "insanely spicy enchanted bean burrito", "insanely spicy jumping bean burrito"])),
      Entry("moist barrel", Average(["cast", "concentrated magicalness pill", "enchanted barbell",
        "giant moxie weed", "Mountain Stream soda"])),
      Entry("rotting barrel", Average(["Doc Galaktik's Ailment Ointment", "extra-strength strongness elixir",
        "jug-o-magicalness", "Marquis de Poivre soda", "suntan lotion of moxiousness"])),
      Entry("mouldering barrel", Average(["creepy ginger ale", "haunted battery", "scroll of drastic healing",
        "synthetic marrow", "the funk"])),
      Entry("barnacled barrel", Average([Tm("Alewife") + " Ale", "bazookafish bubble gum", "beefy fish meat",
        "eel battery", "glistening fish meat", "ink bladder", "pufferfish spine", "shark cartilage",
        "slick fish meat", "slug of rum", "slug of shochu", "slug of vodka", "temporary teardrop tattoo"]))
    ]

  /** Each currency's unit table, in order. */
  function CurrencyTables(cs: seq<(Item, seq<Item>)>, coinmasters: seq<Coinmaster>, sellPrice: (Coinmaster, Item) -> int)
    : (r: seq<Result<seq<Unit>, InvalidCoinmaster>>)
    ensures |r| == |cs| && forall i :: 0 <= i < |cs| ==> r[i] == CurrencyUnits(cs[i].1, coinmasters, sellPrice)
  {
    seq(|cs|, i requires 0 <= i < |cs| => CurrencyUnits(cs[i].1, coinmasters, sellPrice))
  }

  /** The currency entries, built in order; building throws for the first
      currency that buys an item no coinmaster sells. */
  function CurrencyEntries(cs: seq<(Item, seq<Item>)>, coinmasters: seq<Coinmaster>, sellPrice: (Coinmaster, Item) -> int)
    : (r: Result<seq<Entry>, InvalidCoinmaster>)
    ensures r.Ok? <==> forall i :: 0 <= i < |cs| ==> CurrencyUnits(cs[i].1, coinmasters, sellPrice).Ok?
    ensures r.Ok? ==> |r.value| == |cs| && forall i :: 0 <= i < |cs| ==>
      (CurrencyUnits(cs[i].1, coinmasters, sellPrice).Ok? && r.value[i].item == cs[i].0
       && r.value[i].special == Currency(CurrencyUnits(cs[i].1, coinmasters, sellPrice).value))
    ensures r.Err? ==> exists k :: (0 <= k < |cs| && CurrencyUnits(cs[k].1, coinmasters, sellPrice) == Err(r.error)
      && forall j :: 0 <= j < k ==> CurrencyUnits(cs[j].1, coinmasters, sellPrice).Ok?)
  {
    EntriesOf(cs, CurrencyTables(cs, coinmasters, sellPrice))
  }

  /** The entries for the currencies whose unit tables are given, in order. */
  function EntriesOf(cs: seq<(Item, seq<Item>)>, tables: seq<Result<seq<Unit>, InvalidCoinmaster>>)
    : (r: Result<seq<Entry>, InvalidCoinmaster>)
    requires |tables| == |cs|
    ensures r.Ok? <==> forall i :: 0 <= i < |cs| ==> tables[i].Ok?
    ensures r.Ok? ==> |r.value| == |cs| && forall i :: 0 <= i < |cs| ==>
      (tables[i].Ok? && r.value[i] == Entry(cs[i].0, Currency(tables[i].value)))
    ensures r.Err? ==> exists k :: (0 <= k < |cs| && tables[k] == Err(r.error)
      && forall j :: 0 <= j < k ==> tables[j].Ok?)
  {
    match Collect(tables)
    case Err(e) => Err(e)
    case Ok(units) => Ok(seq(|cs|, i requires 0 <= i < |cs| && |units| == |cs| => Entry(cs[i].0, Currency(units[i]))))
  }

  /** The table built from the given currencies and closing entries: the
      currency entries, then the complex candies, then the closing entries.
      Building fails exactly when some currency buys an item no coinmaster
      sells. */
  function TableOf(cs: seq<(Item, seq<Item>)>, all: seq<ItemInfo>, coinmasters: seq<Coinmaster>,
                   sellPrice: (Coinmaster, Item) -> int, later: seq<Entry>)
    : (r: Result<seq<Entry>, InvalidCoinmaster>)
    ensures r.Ok? <==> forall i :: 0 <= i < |cs| ==> CurrencyUnits(cs[i].1, coinmasters, sellPrice).Ok?
    ensures r.Ok? ==> (|cs| + |later| <= |r.value| && r.value[|r.value| - |later|..] == later
      && forall i :: 0 <= i < |cs| ==> r.value[i] == Entry(cs[i].0, Currency(CurrencyUnits(cs[i].1, coinmasters, sellPrice).value)))
    ensures r.Ok? ==> |cs| + |later| <= |r.value| && r.value[|cs|..|r.value| - |later|] == ComplexCandy(all)
  {
    match CurrencyEntries(cs, coinmasters, sellPrice)
    case Err(e) => Err(e)
    case Ok(currencies) =>
      var t := currencies + ComplexCandy(all) + later;
      assert t[|t| - |later|..] == later;
      assert t[|cs|..|t| - |later|] == ComplexCandy(all);
      Ok(t)
  }

  /** Every item appears once in the item list. */
  predicate ItemsOnce(all: seq<ItemInfo>) {
    forall j, k :: 0 <= j < |all| && 0 <= k < |all| && all[j].item == all[k].item ==> j == k
  }

  /** An untradeable complex candy that no closing entry names looks up to
      the tradeable complex candies of its id modulo 5: its `complexCandy`
      entry follows any currency entry and nothing after it shadows it. */
  lemma {:induction false} ComplexCandyLooksUp(cs: seq<(Item, seq<Item>)>, all: seq<ItemInfo>, coinmasters: seq<Coinmaster>,
                            sellPrice: (Coinmaster, Item) -> int, later: seq<Entry>, k: int)
    requires TableOf(cs, all, coinmasters, sellPrice, later).Ok?
    requires ItemsOnce(all)
    requires 0 <= k < |all| && Complex(all[k]) && !all[k].tradeable
    requires Absent(later, all[k].item)
    ensures Lookup(TableOf(cs, all, coinmasters, sellPrice, later).value, all[k].item)
      == Some(CandyOf(CandyLookup(all, all[k].id % 5)))
  {
    var t := TableOf(cs, all, coinmasters, sellPrice, later).value;
    var item, cc := all[k].item, ComplexCandy(all);
    var mine := Entry(item, CandyOf(CandyLookup(all, all[k].id % 5)));
    assert mine in cc;
    forall x | x in cc && x.item == item
      ensures x == mine
    {
      CandyEntryOf(all, k, x);
    }
    LookupInMiddle(t, |cs|, |t| - |later|, mine);
  }

  /** When the item's only entry in `t[lo..hi]` is `e` and no entry from `hi`
      on names it, the lookup finds `e`. */
  lemma LookupInMiddle(t: seq<Entry>, lo: int, hi: int, e: Entry)
    requires 0 <= lo <= hi <= |t|
    requires e in t[lo..hi] && Absent(t[hi..], e.item)
    requires forall x :: x in t[lo..hi] && x.item == e.item ==> x == e
    ensures Lookup(t, e.item) == Some(e.special)
  {
    var m :| lo <= m < hi && t[m] == e by {
      var m' :| 0 <= m' < hi - lo && t[lo..hi][m'] == e;
      assert t[lo + m'] == e;
    }
    LookupLastEntry(t, e.item);
    LastInMiddle(t, lo, hi, e.item, m);
    var i :| LastEntryAt(t, e.item, i, Lookup(t, e.item).value);
    assert t[i] == t[lo..hi][i - lo];
  }

  /** When some entry in `[lo, hi)` names the item and none from `hi` on does,
      the item's last entry lies in `[lo, hi)`. */
  lemma LastInMiddle(t: seq<Entry>, lo: int, hi: int, item: Item, m: int)
    requires 0 <= lo <= m < hi <= |t| && t[m].item == item
    requires Absent(t[hi..], item)
    ensures forall i, s :: LastEntryAt(t, item, i, s) ==> lo <= i < hi
  {
    assert forall j :: hi <= j < |t| ==> t[j].item != item by {
      forall j | hi <= j < |t|
        ensures t[j].item != item
      {
        assert t[hi..][j - hi] == t[j];
      }
    }
  }

  /** With every item listed once, the only candy entry naming an item is the
      one built from that item's own id. */
  lemma CandyEntryOf(all: seq<ItemInfo>, k: int, e: Entry)
    requires ItemsOnce(all) && 0 <= k < |all|
    requires e in ComplexCandy(all) && e.item == all[k].item
    ensures e == Entry(all[k].item, CandyOf(CandyLookup(all, all[k].id % 5)))
  {
  }

  /** `specialValueLookup`'s entries in construction order. */
  function SpecialTable(all: seq<ItemInfo>, coinmasters: seq<Coinmaster>, sellPrice: (Coinmaster, Item) -> int, voa: real)
    : Result<seq<Entry>, InvalidCoinmaster>
  {
    TableOf(Currencies, all, coinmasters, sellPrice, LaterEntries(voa))
  }

  /** `new Map(entries).get(item)`: a later entry for the same item replaces an earlier one. */
  function Lookup(table: seq<Entry>, item: Item): Option<Special>
    decreases |table|
  {
    if |table| == 0 then None
    else if table[|table| - 1].item == item then Some(table[|table| - 1].special)
    else Lookup(table[..|table| - 1], item)
  }

  /** No entry of the table names the item. */
  predicate Absent(table: seq<Entry>, item: Item) {
    forall i :: 0 <= i < |table| ==> table[i].item != item
  }

  /** Entry `i` is the item's with this special, and no later entry names the item. */
  predicate LastEntryAt(table: seq<Entry>, item: Item, i: int, special: Special) {
    0 <= i < |table| && table[i] == Entry(item, special)
    && forall j :: i < j < |table| ==> table[j].item != item
  }

  /** The lookup finds nothing exactly when no entry names the item, and
      otherwise returns the special of the LAST entry that does. */
  lemma {:induction false} LookupLastEntry(table: seq<Entry>, item: Item)
    ensures Lookup(table, item).None? <==> Absent(table, item)
    ensures Lookup(table, item).Some? ==> exists i :: LastEntryAt(table, item, i, Lookup(table, item).value)
    decreases |table|
  {
    if |table| > 0 {
      var n := |table| - 1;
      if table[n].item == item {
        assert LastEntryAt(table, item, n, Lookup(table, item).value);
      } else {
        var prefix := table[..n];
        LookupLastEntry(prefix, item);
        assert Lookup(table, item) == Lookup(prefix, item);
        AbsentSnoc(table, item);
        if Lookup(prefix, item).Some? {
          var i :| LastEntryAt(prefix, item, i, Lookup(prefix, item).value);
          LastEntrySnoc(table, item, i, Lookup(prefix, item).value);
        }
      }
    }
  }

  lemma AbsentSnoc(table: seq<Entry>, item: Item)
    requires |table| > 0 && table[|table| - 1].item != item
    ensures Absent(table, item) <==> Absent(table[..|table| - 1], item)
  {
    var prefix := table[..|table| - 1];
    assert forall i :: 0 <= i < |prefix| ==> prefix[i] == table[i];
  }

  lemma LastEntrySnoc(table: seq<Entry>, item: Item, i: int, special: Special)
    requires |table| > 0 && table[|table| - 1].item != item
    requires LastEntryAt(table[..|table| - 1], item, i, special)
    ensures LastEntryAt(table, item, i, special)
  {
    var prefix := table[..|table| - 1];
    assert forall j :: 0 <= j < |prefix| ==> prefix[j] == table[j];
  }

  /** The two fixed closing entries are the last ones built, so nothing
      earlier in the table can shadow them: the fake hand is worth 50000 and
      the sausage casing the value of an adventure. */
  lemma ClosingEntriesWin(all: seq<ItemInfo>, coinmasters: seq<Coinmaster>, sellPrice: (Coinmaster, Item) -> int, voa: real)
    requires SpecialTable(all, coinmasters, sellPrice, voa).Ok?
    ensures Lookup(SpecialTable(all, coinmasters, sellPrice, voa).value, "magical sausage casing") == Some(Fixed(voa))
    ensures Lookup(SpecialTable(all, coinmasters, sellPrice, voa).value, "fake hand") == Some(Fixed(50000.0))
  {
    TableClosing(Currencies, all, coinmasters, sellPrice, ComputedEntries, voa);
  }

  lemma TableClosing(cs: seq<(Item, seq<Item>)>, all: seq<ItemInfo>, coinmasters: seq<Coinmaster>,
                     sellPrice: (Coinmaster, Item) -> int, x: seq<Entry>, voa: real)
    requires TableOf(cs, all, coinmasters, sellPrice, x + Closing(voa)).Ok?
    ensures Lookup(TableOf(cs, all, coinmasters, sellPrice, x + Closing(voa)).value, "magical sausage casing") == Some(Fixed(voa))
    ensures Lookup(TableOf(cs, all, coinmasters, sellPrice, x + Closing(voa)).value, "fake hand") == Some(Fixed(50000.0))
  {
    var t := TableOf(cs, all, coinmasters, sellPrice, x + Closing(voa)).value;
    var c := Closing(voa);
    SuffixEnds(t, x, c);
    LastTwoWin(t, c[0], c[1]);
  }

  lemma SuffixEnds(t: seq<Entry>, x: seq<Entry>, c: seq<Entry>)
    requires |x + c| <= |t| && t[|t| - |x + c|..] == x + c && |c| == 2
    ensures t[|t| - 1] == c[1] && t[|t| - 2] == c[0]
  {
    assert t[|t| - 1] == (x + c)[|x + c| - 1];
    assert t[|t| - 2] == (x + c)[|x + c| - 2];
  }

  /** Of the last two entries, each is what its own item looks up to. */
  lemma LastTwoWin(t: seq<Entry>, a: Entry, b: Entry)
    requires |t| >= 2 && t[|t| - 2] == a && t[|t| - 1] == b && a.item != b.item
    ensures Lookup(t, b.item) == Some(b.special) && Lookup(t, a.item) == Some(a.special)
  {
    assert t[..|t| - 1][|t| - 2] == a;
  }

  /** An entry whose computation is defined: non-empty lists, positive costs. */
  predicate Computable(s: Special) {
    match s
    case Currency(units) => |units| > 0 && PositiveCosts(units)
    case CandyOf(bucket) => |bucket| > 0
    case Average(items) => |items| > 0
    case _ => true
  }

  function Max3(a: real, b: real, c: real): (m: real)
    ensures m >= a && m >= b && m >= c
    ensures m == a || m == b || m == c
  {
    Max(Max(a, b), c)
  }

  /** A complex candy's value: the cheapest tradeable candy of its bucket. */
  function CandyValue(bucket: seq<Item>, v: Item -> real): (x: real)
    requires |bucket| > 0
    ensures forall i :: i in bucket ==> x <= v(i)
    ensures exists i :: i in bucket && x == v(i)
  {
    var vals := ValuesOf(bucket, v);
    assert forall i :: i in bucket ==> exists k :: 0 <= k < |bucket| && bucket[k] == i;
    MinOfMember(vals);
    MinOf(vals)
  }

  /** The free-range mushroom: three times the best of what it cooks into,
      net of the other ingredient. */
  function MushroomValue(v: Item -> real): (x: real)
    ensures x >= 3.0 * (v("mushroom tea") - v("soda water"))
    ensures x >= 3.0 * (v("mushroom whiskey") - v("fermenting powder"))
    ensures x >= 3.0 * v("mushroom filet")
    ensures x == 3.0 * (v("mushroom tea") - v("soda water"))
         || x == 3.0 * (v("mushroom whiskey") - v("fermenting powder"))
         || x == 3.0 * v("mushroom filet")
  {
    3.0 * Max3(v("mushroom tea") - v("soda water"), v("mushroom whiskey") - v("fermenting powder"), v("mushroom filet"))
  }

  /** What a special entry's closure computes, `v` standing for the nested `value` calls. */
  function SpecialCompute(s: Special, v: Item -> real): real
    requires Computable(s)
  {
    match s
    case Currency(units) => CurrencyValue(units, v)
    case CandyOf(bucket) => CandyValue(bucket, v)
    case ValueOfItem(source) => v(source)
    case Mushroom => MushroomValue(v)
    case Average(items) => AverageValue(items, v)
    case Fixed(amount) => amount
  }

  /** The table lookup `value` performs on a miss, evaluated. */
  function SpecialValue(table: seq<Entry>, item: Item, v: Item -> real): (r: Option<real>)
    requires forall i :: 0 <= i < |table| ==> Computable(table[i].special)
    ensures r.None? <==> forall i :: 0 <= i < |table| ==> table[i].item != item
    ensures r.Some? ==> exists i :: (0 <= i < |table| && LastEntryAt(table, item, i, table[i].special)
      && r.value == SpecialCompute(table[i].special, v))
  {
    LookupLastEntry(table, item);
    match Lookup(table, item)
    case None => None
    case Some(s) => Some(SpecialCompute(s, v))
  }
}

=== FILE: wanderer.dfy ===
/** The wanderer records shared by the selector and the factories. The
    library that defines them (`wanderer/lib.ts`) is not part of this model;
    a target's `prepareTurn` closure is an oracle of the selector. */
module WandererTypes {
  import opened Game

  /** `WandererTarget`: a named reason to wander to a location, and its value. */
  datatype Target = Target(name: string, location: Location, value: real)

  /** `WandererLocation`: a location with the targets that chose it and their total value. */
  datatype WandererLocation = WandererLocation(location: Location, targets: seq<Target>, value: real)
}

/** The wanderer location selector: gather every factory's targets, drop the
    skipped and unwanderable ones, group the rest by location, take the most
    valuable location, and retry with longer skip lists until a location
    passes every check. */
module Wanderer {
  import opened Outcomes
  import opened Seqs
  import opened Game
  import opened WandererTypes
  import Lib

  /** The throw of `bestWander` when nothing survives. */
  datatype NoWanderTarget = NoWanderTarget

  /** The location checks of the wanderer library and the targets' preparation
      step, for the fight type of the call. */
  datatype Checks = Checks(
    canWander: Location -> bool,
    canAdventureOrUnlock: Location -> bool,
    unlock: (Location, real) -> bool,
    prepare: Target -> bool)

  /** The filter of `bestWander`. */
  predicate Survives(t: Target, locationSkiplist: seq<Location>, nameSkiplist: seq<string>, canWander: Location -> bool) {
    t.name !in nameSkiplist && t.location !in locationSkiplist && canWander(t.location)
  }

  function Survivors(ts: seq<Target>, locationSkiplist: seq<Location>, nameSkiplist: seq<string>,
                     canWander: Location -> bool): (r: seq<Target>)
    ensures forall t :: t in r <==> t in ts && Survives(t, locationSkiplist, nameSkiplist, canWander)
  {
    Filter(ts, t => Survives(t, locationSkiplist, nameSkiplist, canWander))
  }

  // ---------------------------------------------------------------------
  // Grouping by location

  /** The position of location `l`'s record, if any. */
  function Slot(g: seq<WandererLocation>, l: Location): (r: Option<nat>)
    ensures r.None? <==> forall i :: 0 <= i < |g| ==> g[i].location != l
    ensures r.Some? ==> r.value < |g| && g[r.value].location == l
  {
    FindFirst(g, (w: WandererLocation) => w.location == l)
  }

  /** One step of the grouping loop: the target joins its location's record,
      which is created (with value 0) the first time the location is seen;
      a map keeps its keys in first-insertion order. */
  function AddTarget(g: seq<WandererLocation>, t: Target): seq<WandererLocation> {
    match Slot(g, t.location)
    case Some(k) => g[k := WandererLocation(t.location, g[k].targets + [t], g[k].value + t.value)]
    case None => g + [WandererLocation(t.location, [t], 0.0 + t.value)]
  }

  /** `possibleLocations` after the loop, as the list of its values. */
  function Group(ts: seq<Target>): seq<WandererLocation>
    decreases |ts|
  {
    if |ts| == 0 then [] else AddTarget(Group(ts[..|ts| - 1]), ts[|ts| - 1])
  }

  // The reference definition of the grouping.

  /** The locations of the targets, each once, in order of first appearance. */
  function Distinct(ts: seq<Target>): seq<Location>
    decreases |ts|
  {
    if |ts| == 0 then []
    else
      var d := Distinct(ts[..|ts| - 1]);
      if ts[|ts| - 1].location in d then d else d + [ts[|ts| - 1].location]
  }

  /** The targets at location `l`, in order. */
  function At(ts: seq<Target>, l: Location): seq<Target>
    decreases |ts|
  {
    if |ts| == 0 then []
    else At(ts[..|ts| - 1], l) + (if ts[|ts| - 1].location == l then [ts[|ts| - 1]] else [])
  }

  lemma {:induction false} DistinctMembers(ts: seq<Target>)
    ensures forall l :: l in Distinct(ts) <==> exists t :: t in ts && t.location == l
    decreases |ts|
  {
    if |ts| > 0 {
      var prefix := ts[..|ts| - 1];
      DistinctMembers(prefix);
      assert forall t :: t in ts <==> t in prefix || t == ts[|ts| - 1];
    }
  }

  lemma {:induction false} DistinctUnique(ts: seq<Target>)
    ensures forall i, j :: 0 <= i < j < |Distinct(ts)| ==> Distinct(ts)[i] != Distinct(ts)[j]
    decreases |ts|
  {
    if |ts| > 0 {
      DistinctUnique(ts[..|ts| - 1]);
    }
  }

  lemma {:induction false} AtMembers(ts: seq<Target>, l: Location)
    ensures forall t :: t in At(ts, l) <==> t in ts && t.location == l
    decreases |ts|
  {
    if |ts| > 0 {
      var prefix := ts[..|ts| - 1];
      AtMembers(prefix, l);
      assert forall t :: t in ts <==> t in prefix || t == ts[|ts| - 1];
    }
  }

  /** `0 + v1 + v2 + ...` over the targets, left to right. */
  function Total(ts: seq<Target>): real
    decreases |ts|
  {
    if |ts| == 0 then 0.0 else Total(ts[..|ts| - 1]) + ts[|ts| - 1].value
  }

  /** One record per distinct location, in first-appearance order, holding
      that location's targets in order and the sum of their values. */
  function Grouped(ts: seq<Target>): (r: seq<WandererLocation>)
    ensures |r| == |Distinct(ts)|
    ensures forall i :: 0 <= i < |r| ==>
      r[i] == WandererLocation(Distinct(ts)[i], At(ts, Distinct(ts)[i]), Total(At(ts, Distinct(ts)[i])))
  {
    var d := Distinct(ts);
    seq(|d|, i requires 0 <= i < |d| => WandererLocation(d[i], At(ts, d[i]), Total(At(ts, d[i]))))
  }

  lemma TotalSnoc(ts: seq<Target>, t: Target)
    ensures Total(ts + [t]) == Total(ts) + t.value
  {
    assert (ts + [t])[..|ts|] == ts;
  }

  lemma AtSnoc(ts: seq<Target>, t: Target, l: Location)
    ensures At(ts + [t], l) == At(ts, l) + (if t.location == l then [t] else [])
  {
    assert (ts + [t])[..|ts|] == ts;
  }

  lemma DistinctSnoc(ts: seq<Target>, t: Target)
    ensures Distinct(ts + [t]) == if t.location in Distinct(ts) then Distinct(ts) else Distinct(ts) + [t.location]
  {
    assert (ts + [t])[..|ts|] == ts;
  }

  lemma AtAbsent(ts: seq<Target>, l: Location)
    requires l !in Distinct(ts)
    ensures At(ts, l) == []
  {
    DistinctMembers(ts);
    AtMembers(ts, l);
    if At(ts, l) != [] {
      assert At(ts, l)[0] in At(ts, l);
    }
  }

  /** A record the new target does not join is unchanged. */
  lemma OtherRecord(s: seq<Target>, t: Target, i: nat)
    requires i < |Distinct(s)| && i < |Distinct(s + [t])| && Distinct(s + [t])[i] == Distinct(s)[i]
    requires Distinct(s)[i] != t.location
    ensures Grouped(s + [t])[i] == Grouped(s)[i]
  {
    AtSnoc(s, t, Distinct(s)[i]);
  }

  /** The record the new target joins gains it at the end and its value. */
  lemma JoinedRecord(s: seq<Target>, t: Target, k: nat)
    requires k < |Distinct(s)| && k < |Distinct(s + [t])| && Distinct(s + [t])[k] == Distinct(s)[k]
    requires Distinct(s)[k] == t.location
    ensures Grouped(s + [t])[k]
         == WandererLocation(t.location, Grouped(s)[k].targets + [t], Grouped(s)[k].value + t.value)
  {
    AtSnoc(s, t, t.location);
    TotalSnoc(At(s, t.location), t);
  }

  /** Record by record, a target at a location already seen changes only
      the record of its location. */
  lemma SeenRecords(s: seq<Target>, t: Target, k: nat)
    requires k < |Distinct(s)| && Distinct(s)[k] == t.location
    requires Distinct(s + [t]) == Distinct(s)
    ensures forall i :: 0 <= i < |Distinct(s)| && i != k ==> Grouped(s + [t])[i] == Grouped(s)[i]
  {
    forall i | 0 <= i < |Distinct(s)| && i != k
      ensures Grouped(s + [t])[i] == Grouped(s)[i]
    {
      assert Distinct(s)[i] != t.location by { DistinctUnique(s); }
      OtherRecord(s, t, i);
    }
  }

  lemma UpdateEq<X>(g: seq<X>, k: nat, x: X, h: seq<X>)
    requires k < |g| && |h| == |g| && h[k] == x
    requires forall i :: 0 <= i < |g| && i != k ==> h[i] == g[i]
    ensures g[k := x] == h
  {
  }

  /** A target at a location already seen joins that location's record. */
  lemma AddTargetSeen(s: seq<Target>, t: Target, k: nat)
    requires k < |Distinct(s)| && Distinct(s)[k] == t.location
    ensures Grouped(s)[k := WandererLocation(t.location, Grouped(s)[k].targets + [t], Grouped(s)[k].value + t.value)]
            == Grouped(s + [t])
  {
    assert Distinct(s + [t]) == Distinct(s) by { DistinctSnoc(s, t); }
    JoinedRecord(s, t, k);
    SeenRecords(s, t, k);
    UpdateEq(Grouped(s), k, WandererLocation(t.location, Grouped(s)[k].targets + [t], Grouped(s)[k].value + t.value),
             Grouped(s + [t]));
  }

  /** A target at a new location opens a record at the end. */
  lemma NewRecord(s: seq<Target>, t: Target)
    requires t.location !in Distinct(s)
    requires Distinct(s + [t]) == Distinct(s) + [t.location]
    ensures Grouped(s + [t])[|Distinct(s)|] == WandererLocation(t.location, [t], 0.0 + t.value)
  {
    assert At(s + [t], t.location) == [t] by {
      AtAbsent(s, t.location);
      AtSnoc(s, t, t.location);
    }
    assert Total([t]) == 0.0 + t.value by {
      TotalSnoc([], t);
      assert [] + [t] == [t];
    }
  }

  lemma AddTargetNew(s: seq<Target>, t: Target)
    requires t.location !in Distinct(s)
    ensures Grouped(s) + [WandererLocation(t.location, [t], 0.0 + t.value)] == Grouped(s + [t])
  {
    var g := Grouped(s);
    var g' := g + [WandererLocation(t.location, [t], 0.0 + t.value)];
    assert Distinct(s + [t]) == Distinct(s) + [t.location] by { DistinctSnoc(s, t); }
    NewRecord(s, t);
    forall i | 0 <= i < |g|
      ensures g'[i] == Grouped(s + [t])[i]
    {
      OtherRecord(s, t, i);
    }
  }

  lemma SlotFound(s: seq<Target>, l: Location)
    requires Slot(Grouped(s), l).Some?
    ensures Slot(Grouped(s), l).value < |Distinct(s)| && Distinct(s)[Slot(Grouped(s), l).value] == l
  {
  }

  lemma SlotMissing(s: seq<Target>, l: Location)
    requires Slot(Grouped(s), l).None?
    ensures l !in Distinct(s)
  {
    var g := Grouped(s);
    forall i | 0 <= i < |Distinct(s)| ensures Distinct(s)[i] != l {
      assert g[i].location == Distinct(s)[i];
    }
  }

  lemma AddTargetGrouped(s: seq<Target>, t: Target)
    ensures AddTarget(Grouped(s), t) == Grouped(s + [t])
  {
    if Slot(Grouped(s), t.location).Some? {
      GroupedJoin(s, t);
    } else {
      GroupedOpen(s, t);
    }
  }

  /** A target whose location already has a record joins that record. */
  lemma GroupedJoin(s: seq<Target>, t: Target)
    requires Slot(Grouped(s), t.location).Some?
    ensures AddTarget(Grouped(s), t) == Grouped(s + [t])
  {
    var k := Slot(Grouped(s), t.location).value;
    SlotFound(s, t.location);
    AddTargetJoins(Grouped(s), t, k);
    AddTargetSeen(s, t, k);
  }

  /** A target at a new location opens a record after the others. */
  lemma GroupedOpen(s: seq<Target>, t: Target)
    requires Slot(Grouped(s), t.location).None?
    ensures AddTarget(Grouped(s), t) == Grouped(s + [t])
  {
    SlotMissing(s, t.location);
    AddTargetOpens(Grouped(s), t);
    AddTargetNew(s, t);
  }

  lemma AddTargetJoins(g: seq<WandererLocation>, t: Target, k: nat)
    requires Slot(g, t.location) == Some(k)
    ensures AddTarget(g, t) == g[k := WandererLocation(t.location, g[k].targets + [t], g[k].value + t.value)]
  {
  }

  lemma AddTargetOpens(g: seq<WandererLocation>, t: Target)
    requires Slot(g, t.location).None?
    ensures AddTarget(g, t) == g + [WandererLocation(t.location, [t], 0.0 + t.value)]
  {
  }

  /** The grouping loop computes the reference grouping. */
  lemma {:induction false} GroupIsGrouped(ts: seq<Target>)
    ensures Group(ts) == Grouped(ts)
    decreases |ts|
  {
    if |ts| > 0 {
      var prefix, t := ts[..|ts| - 1], ts[|ts| - 1];
      assert ts == prefix + [t];
      GroupIsGrouped(prefix);
      AddTargetGrouped(prefix, t);
    } else {
      assert Distinct(ts) == [];
    }
  }

  // ---------------------------------------------------------------------
  // bestWander

  function LocationValue(w: WandererLocation): real { w.value }

  /** Grouping drops nothing: there are records exactly when there are targets. */
  lemma GroupedEmpty(s: seq<Target>)
    ensures |Grouped(s)| == 0 <==> |s| == 0
  {
    if |s| > 0 {
      DistinctMembers(s);
      assert s[0].location in Distinct(s);
    }
  }

  /** Every record holds at least one target, and only targets of its location. */
  lemma RecordTargets(s: seq<Target>, i: nat)
    requires i < |Grouped(s)|
    ensures |Grouped(s)[i].targets| > 0
    ensures forall t :: t in Grouped(s)[i].targets ==> t in s && t.location == Grouped(s)[i].location
  {
    var l := Distinct(s)[i];
    DistinctMembers(s);
    assert l in Distinct(s);
    var t :| t in s && t.location == l;
    AtMembers(s, l);
    assert t in At(s, l);
  }

  lemma GroupEmpty(s: seq<Target>)
    ensures |Group(s)| == 0 <==> |s| == 0
  {
    GroupIsGrouped(s);
    GroupedEmpty(s);
  }

  /** `bestWander(type, locationSkiplist, nameSkiplist)` over the factories'
      targets `ts` (the four factories' lists, concatenated in order): a throw
      exactly when no target survives the filter, otherwise the `maxBy` of
      the grouped locations by value. */
  function BestWander(ts: seq<Target>, locationSkiplist: seq<Location>, nameSkiplist: seq<string>,
                      canWander: Location -> bool): (r: Result<WandererLocation, NoWanderTarget>)
    ensures r.Err? <==> forall t :: t in ts ==> !Survives(t, locationSkiplist, nameSkiplist, canWander)
  {
    var s := Survivors(ts, locationSkiplist, nameSkiplist, canWander);
    GroupEmpty(s);
    if |Group(s)| == 0 then
      Err(NoWanderTarget)
    else
      assert s[0] in s;
      Ok(Lib.MaxByKey(Group(s), LocationValue, false))
  }

  /** The chosen location is a record of maximal value of the grouping loop,
      and the last such record in first-insertion order. */
  lemma BestWanderMaximal(ts: seq<Target>, locationSkiplist: seq<Location>, nameSkiplist: seq<string>,
                          canWander: Location -> bool)
    requires BestWander(ts, locationSkiplist, nameSkiplist, canWander).Ok?
    ensures var g := Group(Survivors(ts, locationSkiplist, nameSkiplist, canWander));
      var r := BestWander(ts, locationSkiplist, nameSkiplist, canWander).value;
      (forall w :: w in g ==> w.value <= r.value)
      && exists i :: 0 <= i < |g| && g[i] == r && forall j :: i < j < |g| ==> g[j].value < r.value
  {
    var s := Survivors(ts, locationSkiplist, nameSkiplist, canWander);
    var g := Group(s);
    var k := Lib.MaxByIndex(g, LocationValue, false);
    assert g[k] == BestWander(ts, locationSkiplist, nameSkiplist, canWander).value;
    assert forall j :: k < j < |g| ==> LocationValue(g[j]) < LocationValue(g[k]);
    assert forall j :: 0 <= j < |g| ==> LocationValue(g[j]) <= LocationValue(g[k]);
  }

  /** The chosen location passed the filter: it is not skipped, it may be
      wandered to, and it holds at least one target, each from `ts`, at that
      location and with a name outside the name skip list. */
  lemma BestWanderSurvives(ts: seq<Target>, locationSkiplist: seq<Location>, nameSkiplist: seq<string>,
                           canWander: Location -> bool)
    requires BestWander(ts, locationSkiplist, nameSkiplist, canWander).Ok?
    ensures var r := BestWander(ts, locationSkiplist, nameSkiplist, canWander).value;
      r.location !in locationSkiplist && canWander(r.location) && |r.targets| > 0
      && forall t :: t in r.targets ==> t in ts && t.location == r.location && t.name !in nameSkiplist
  {
    var s := Survivors(ts, locationSkiplist, nameSkiplist, canWander);
    var g := Group(s);
    var k := Lib.MaxByIndex(g, LocationValue, false);
    var r := g[k];
    assert r == BestWander(ts, locationSkiplist, nameSkiplist, canWander).value;
    assert |r.targets| > 0 && forall t :: t in r.targets ==> t in s && t.location == r.location by {
      GroupIsGrouped(s);
      RecordTargets(s, k);
    }
    assert r.targets[0] in r.targets;
  }

  // ---------------------------------------------------------------------
  // wanderWhere

  function Names(ts: seq<Target>): (r: seq<string>)
    ensures |r| == |ts|
    ensures forall i :: 0 <= i < |ts| ==> r[i] == ts[i].name
  {
    seq(|ts|, i requires 0 <= i < |ts| => ts[i].name)
  }

  /** The targets whose preparation fails. */
  function Failed(c: WandererLocation, ck: Checks): (r: seq<Target>)
    ensures forall t :: t in r <==> t in c.targets && !ck.prepare(t)
  {
    Filter(c.targets, t => !ck.prepare(t))
  }

  /** One of the three location checks fails. */
  predicate BadLocation(c: WandererLocation, ck: Checks) {
    !ck.canAdventureOrUnlock(c.location) || !ck.unlock(c.location, c.value) || !ck.canWander(c.location)
  }

  /** The skip lists of the retry: the failed names and the bad location appended. */
  function RetryLists(c: WandererLocation, ck: Checks, nameSkiplist: seq<string>, locationSkiplist: seq<Location>)
    : (seq<string>, seq<Location>)
  {
    (nameSkiplist + Names(Failed(c, ck)), locationSkiplist + (if BadLocation(c, ck) then [c.location] else []))
  }

  /** A retry strictly grows one of the skip lists' element sets and shrinks
      neither: a failed target was not skipped before, and neither was the
      candidate location. */
  lemma RetryGrows(c: WandererLocation, ck: Checks, nameSkiplist: seq<string>, locationSkiplist: seq<Location>)
    requires c.location !in locationSkiplist
    requires forall t :: t in c.targets ==> t.name !in nameSkiplist
    requires |Failed(c, ck)| > 0 || BadLocation(c, ck)
    ensures var (ns, ls) := RetryLists(c, ck, nameSkiplist, locationSkiplist);
      Elements(nameSkiplist) <= Elements(ns) && Elements(locationSkiplist) <= Elements(ls)
      && (Elements(nameSkiplist) < Elements(ns) || Elements(locationSkiplist) < Elements(ls))
  {
    var (ns, ls) := RetryLists(c, ck, nameSkiplist, locationSkiplist);
    if |Failed(c, ck)| > 0 {
      var f := Failed(c, ck)[0];
      assert f in Failed(c, ck);
      assert ns[|nameSkiplist|] == f.name;
      assert f.name in Elements(ns) && f.name !in Elements(nameSkiplist);
    } else {
      assert ls[|locationSkiplist|] == c.location;
      assert c.location in Elements(ls) && c.location !in Elements(locationSkiplist);
    }
  }

  /** Every factory, for every location skip list, names targets from a
      finite set of names and locations. */
  ghost predicate Bounded(factories: seq<Location> -> seq<Target>, names: set<string>, locations: set<Location>) {
    forall ls: seq<Location>, t :: t in factories(ls) ==> t.name in names && t.location in locations
  }

  function Unskipped(nameSkiplist: seq<string>, locationSkiplist: seq<Location>, names: set<string>,
                     locations: set<Location>): nat
  {
    |names - Elements(nameSkiplist)| + |locations - Elements(locationSkiplist)|
  }

  lemma SubsetCard<X>(a: set<X>, b: set<X>)
    requires a <= b
    ensures |a| <= |b|
  {
    assert b == a + (b - a);
  }

  lemma ProperSubsetCard<X>(a: set<X>, b: set<X>, x: X)
    requires a <= b && x in b && x !in a
    ensures |a| < |b|
  {
    assert b == a + (b - a);
    assert x in b - a;
  }

  /** A retry after a surviving candidate leaves fewer of the finitely many
      names and locations unskipped. */
  lemma RetryShrinks(c: WandererLocation, ck: Checks, nameSkiplist: seq<string>, locationSkiplist: seq<Location>,
                     names: set<string>, locations: set<Location>)
    requires c.location !in locationSkiplist && c.location in locations && |c.targets| > 0
    requires forall t :: t in c.targets ==> t.name !in nameSkiplist && t.name in names
    requires |Failed(c, ck)| > 0 || BadLocation(c, ck)
    ensures var (ns, ls) := RetryLists(c, ck, nameSkiplist, locationSkiplist);
      Unskipped(ns, ls, names, locations) < Unskipped(nameSkiplist, locationSkiplist, names, locations)
  {
    var (ns, ls) := RetryLists(c, ck, nameSkiplist, locationSkiplist);
    var n0, n1 := names - Elements(nameSkiplist), names - Elements(ns);
    var l0, l1 := locations - Elements(locationSkiplist), locations - Elements(ls);
    assert n1 <= n0 && l1 <= l0;
    if |Failed(c, ck)| > 0 {
      var f := Failed(c, ck)[0];
      assert f in Failed(c, ck);
      assert ns[|nameSkiplist|] == f.name;
      ProperSubsetCard(n1, n0, f.name);
      SubsetCard(l1, l0);
    } else {
      SubsetCard(n1, n0);
      assert ls[|locationSkiplist|] == c.location;
      ProperSubsetCard(l1, l0, c.location);
    }
  }

  /** `wanderWhere(type, nameSkiplist, locationSkiplist)`, returning the chosen
      candidate record; `factories` gives the concatenated factory targets
      for a location skip list. The recursion ends because every retry skips
      one more of finitely many names or locations. */
  function WanderCandidate(factories: seq<Location> -> seq<Target>, ck: Checks,
                           nameSkiplist: seq<string>, locationSkiplist: seq<Location>,
                           names: set<string>, locations: set<Location>): (r: Result<WandererLocation, NoWanderTarget>)
    requires Bounded(factories, names, locations)
    ensures r.Ok? ==>
      (forall t :: t in r.value.targets ==> ck.prepare(t) && t.name !in nameSkiplist)
      && ck.canAdventureOrUnlock(r.value.location) && ck.unlock(r.value.location, r.value.value)
      && ck.canWander(r.value.location)
      && r.value.location !in locationSkiplist
    ensures var b := BestWander(factories(locationSkiplist), locationSkiplist, nameSkiplist, ck.canWander);
      b.Err? ==> r == Err(b.error)
    ensures var b := BestWander(factories(locationSkiplist), locationSkiplist, nameSkiplist, ck.canWander);
      b.Ok? && |Failed(b.value, ck)| == 0 && !BadLocation(b.value, ck) ==> r == Ok(b.value)
    decreases Unskipped(nameSkiplist, locationSkiplist, names, locations)
  {
    match BestWander(factories(locationSkiplist), locationSkiplist, nameSkiplist, ck.canWander)
    case Err(e) => Err(e)
    case Ok(c) =>
      BestWanderSurvives(factories(locationSkiplist), locationSkiplist, nameSkiplist, ck.canWander);
      if |Failed(c, ck)| > 0 || BadLocation(c, ck) then
        var (ns, ls) := RetryLists(c, ck, nameSkiplist, locationSkiplist);
        assert c.location in locations && forall t :: t in c.targets ==> t.name in names by {
          var t :| t in c.targets;
          assert t in factories(locationSkiplist);
        }
        RetryShrinks(c, ck, nameSkiplist, locationSkiplist, names, locations);
        match WanderCandidate(factories, ck, ns, ls, names, locations)
        case Err(e) => Err(e)
        case Ok(w) =>
          assert w.location !in locationSkiplist;
          Ok(w)
      else
        Ok(c)
  }

  /** A candidate that fails preparation or whose location is bad is replaced
      by the answer for the grown skip lists. */
  lemma WanderCandidateRetries(factories: seq<Location> -> seq<Target>, ck: Checks,
                               nameSkiplist: seq<string>, locationSkiplist: seq<Location>,
                               names: set<string>, locations: set<Location>)
    requires Bounded(factories, names, locations)
    requires var b := BestWander(factories(locationSkiplist), locationSkiplist, nameSkiplist, ck.canWander);
      b.Ok? && (|Failed(b.value, ck)| > 0 || BadLocation(b.value, ck))
    ensures var b := BestWander(factories(locationSkiplist), locationSkiplist, nameSkiplist, ck.canWander);
      var (ns, ls) := RetryLists(b.value, ck, nameSkiplist, locationSkiplist);
      WanderCandidate(factories, ck, nameSkiplist, locationSkiplist, names, locations)
      == WanderCandidate(factories, ck, ns, ls, names, locations)
  {
  }

  /** `wanderWhere`: the location of the chosen candidate. */
  function WanderWhere(factories: seq<Location> -> seq<Target>, ck: Checks,
                       nameSkiplist: seq<string>, locationSkiplist: seq<Location>,
                       names: set<string>, locations: set<Location>): (r: Result<Location, NoWanderTarget>)
    requires Bounded(factories, names, locations)
    ensures r.Ok? ==> ck.canAdventureOrUnlock(r.value) && ck.canWander(r.value) && r.value !in locationSkiplist
    ensures var b := BestWander(factories(locationSkiplist), locationSkiplist, nameSkiplist, ck.canWander);
      b.Err? ==> r == Err(b.error)
    ensures var b := BestWander(factories(locationSkiplist), locationSkiplist, nameSkiplist, ck.canWander);
      b.Ok? && |Failed(b.value, ck)| == 0 && !BadLocation(b.value, ck) ==> r == Ok(b.value.location)
  {
    match WanderCandidate(factories, ck, nameSkiplist, locationSkiplist, names, locations)
    case Err(e) => Err(e)
    case Ok(c) => Ok(c.location)
  }

  const DrunkenStupor: Location := "Drunken Stupor"

  /** `drunkSafeWander(type)`: the Drunken Stupor when not sober, otherwise
      `wanderWhere` with empty skip lists. */
  function DrunkSafeWander(sober: bool, factories: seq<Location> -> seq<Target>, ck: Checks,
                           names: set<string>, locations: set<Location>): (r: Result<Location, NoWanderTarget>)
    requires Bounded(factories, names, locations)
    ensures !sober ==> r == Ok(DrunkenStupor)
    ensures sober && r.Ok? ==> ck.canAdventureOrUnlock(r.value) && ck.canWander(r.value)
  {
    if sober then WanderWhere(factories, ck, [], [], names, locations) else Ok(DrunkenStupor)
  }
}
